=== FILE: README.md ===
# Unity debug adapter: a Dafny model of its protocol side

This project models the protocol side of the Unity debug adapter, the process an
editor starts to debug Unity games through the Mono soft debugger. The adapter reads
debug-protocol requests framed with `Content-Length` headers from standard input and
hands each one to `UnityDebugSession`. The session answers with responses and events,
and those are stamped with a process-wide sequence number and framed the same way on
standard output.

The model covers these parts:

- **Framing and messages** (modules `Messages`, `Framing`, `FramingProperties`, `Transport`):
  - the read loop, in its newer form that dispatches requests and its older form that only slices them;
  - the writer;
  - `Request.Parse` and the `Response` builders;
  - the log escaping.
- **The handle table** (module `Handles`): `VariableMap<T>`. The same rules serve for the session's `Handles<T>` tables of variable groups and stack frames.
- **The session** (modules `Session`, `Breakpoints`, `Catchpoints`, `Inspection`, `Attach`):
  - the stop callbacks and the handle reset they share;
  - thread bookkeeping, termination and the resume requests;
  - `setBreakpoints` and the catchpoint rebuild;
  - `variables`, `evaluate`, `scopes`, `stackTrace` and `threads`;
  - `attach`.
- **Small helpers:**
  - the `Thread` record's default name (module `Protocol`);
  - `UnityAttach`'s target-name table and process filter (module `UnityAttach`);
  - `StringUtil.Join` (module `StringUtil`);
  - the editor extension's exception view, which turns its settings into the `setExceptionBreakpoints` options the session reads (module `ExceptionConfig`).

Everything outside the adapter appears as data or as function parameters. Each
handler is a pure function from the session state and its arguments to an `Outcome`:
the new state, what it sent in order, and whether an exception escaped it. This covers:

- the Mono engine: values, frames, threads, the breakpoint store, and whether `Breakpoints.Add` throws;
- the JSON serialiser and deserialiser;
- `File.Exists` and process discovery.

Buffers are `string`s. The source reads bytes and decodes them with the configured
encoding, so the model assumes a single-byte encoding: a header's byte count is then the
body's character count.

Two behaviours of the code are easy to misread, and the model keeps them as written:

- `evaluate` rewrites an engine error to "not available" only when the marker text occurs at an index greater than 0 (UnityDebug/UnityDebugSession.cs:838), not wherever it occurs.
- A request the JSON deserialiser rejects is not skipped. `Run` has no handler around `Request.Parse` (UnityDebug/UnityDebug.cs:82), so the exception ends the loop. `Transport.Serve` reports this as `faulted`.

## Model

| member | source | states |
|---|---|---|
| Numbers.Increment | UnityDebug/VariableMap.cs:18 | `++` on an `int` adds one, except that `Int32.MaxValue` wraps to `Int32.MinValue` |
| Numbers.AdvanceIsSum | UnityDebug/Message.cs:11 | `n` increments of a 32-bit counter add `n` modulo 2^32, and exactly `n` when the counter does not pass `Int32.MaxValue` |
| Numbers.AdvanceAdd | UnityDebug/Message.cs:11 | increments compose: `m` increments followed by `k` equal `m + k` increments |
| Numbers.ToInt32Add | UnityDebug/UnityDebugSession.cs:182 | truncating to 32 bits after each step or once at the end gives the same value |
| Text.IndexOf | UnityDebug/Request.cs:18 | ordinal `IndexOf` returns -1 or an index where the pattern occurs |
| Text.IndexOfFirst | UnityDebug/Request.cs:18 | `IndexOf` is -1 exactly when the pattern occurs nowhere, and otherwise no occurrence comes before the one it returns |
| Text.Trim | UnityDebug/UnityDebugSession.cs:981 | the result neither starts nor ends with white space, is empty exactly when the text is all white space, and sits in the text with only white space cut from either side |
| Text.TrimOfTrimmed | UnityDebug/UnityDebugSession.cs:981 | a text that neither starts nor ends with white space is its own trim |
| Text.ToLower | UnityDebug/UnityAttach.cs:26 | lower-casing keeps the length and maps each character on its own, ASCII capitals to their small letters |
| Text.ReplaceChar | UnityDebug/UnityDebug.cs:128 | after replacing a character by a text that does not contain it, the character no longer occurs, and no new characters appear other than the replacement's |
| Text.ReplaceCharAppend | UnityDebug/UnityDebug.cs:128 | replacement distributes over concatenation |
| Text.NatToDecimal | UnityDebug/UnityDebug.cs:118 | the length written into a header is a non-empty run of decimal digits with no line break in it |
| Text.DecimalRoundTrip | UnityDebug/UnityDebug.cs:59 | `Int32.Parse` of a formatted length gives the length back |
| Text.IntToDecimal | UnityDebug/Thread.cs:13 | a formatted `int` is non-empty and starts with a minus sign exactly when the number is negative |
| Messages.Message.WithSeq | UnityDebug/UnityDebug.cs:114 | stamping a message sets its `seq` and keeps its kind |
| Messages.Create | UnityDebug/Response.cs:15 | a response echoes the request's `seq` and command, carries the given success, running flag and body, and its message is "OK" exactly when it succeeds and "Failure" otherwise |
| Messages.Default | UnityDebug/Response.cs:18-21 | the default response succeeds, is not running, has no body, and says "OK", echoing the request |
| Messages.Failure | UnityDebug/Response.cs:23-26 | a failure response fails, is not running, has no body, carries the caller's message verbatim and echoes the request |
| Messages.FailureIsCreateWithMessage | UnityDebug/Response.cs:15-26 | a failure response differs from a failed `Create` response only in its message, and equals it exactly when that message is "Failure" |
| Messages.JsonText | UnityDebug/Request.cs:18-19 | the JSON text is everything after the first header separator; without a separator the slice starts at index 3, and a text shorter than that throws |
| Messages.Parse | UnityDebug/Request.cs:16-24 | parsing hands that JSON text to the decoder and fails exactly when slicing it fails or the decoder does |
| Framing.DigitRun | UnityDebug/UnityDebug.cs:10 | the `\d+` group is a run of digits that ends at the end of the text or before a non-digit |
| Framing.MatchFrom | UnityDebug/UnityDebug.cs:53 | a match found from index `i` lies at or after `i` and really matches there |
| Framing.MatchFromLeftmost | UnityDebug/UnityDebug.cs:53 | the match found is the leftmost one, and none is found only when the expression matches nowhere |
| Framing.ContentLengthMatch | UnityDebug/UnityDebug.cs:53-59 | a successful match has the label followed by at least one digit, and its group is the greedy digit run after the label |
| Framing.ContentLengthMatchLeftmost | UnityDebug/UnityDebug.cs:53-55 | there is no match exactly when the expression matches nowhere, and no match starts before the one found |
| Framing.Slice | UnityDebug/UnityDebug.cs:53-90 | a matched buffer is split into a request of at least three characters and a new head that together spell the buffer plus at most one more read; an unmatched buffer is discarded whole |
| Framing.Step | UnityDebug/UnityDebug.cs:30-91 | an iteration ends the loop exactly on a zero-byte read with an empty head; an iteration that goes on consumes a suffix-preserving part of the input and makes progress |
| Framing.StepConservesBuffer | UnityDebug/UnityDebug.cs:59-78 | nothing is lost or duplicated: the sliced request followed by the new head is the old head followed by what this iteration read, and a discarded buffer is exactly that text |
| Framing.Trace | UnityDebug/UnityDebug.cs:30-91 | the run of the loop starts with the first iteration, and every iteration but the last consumed input |
| Framing.TraceUnfold | UnityDebug/UnityDebug.cs:30-91 | the loop is one iteration followed by the loop from the state it left, or ends with a zero-byte read or an exception |
| Framing.ShapedEnds | UnityDebug.cs:28-84 | in any run of the loop the last iteration ends it and every earlier one dispatched or discarded |
| Framing.ConvertNewlinesToEscapeSequence | UnityDebug/UnityDebug.cs:126-129 | an escaped text contains no line feed and no carriage return |
| Framing.Header | UnityDebug/UnityDebug.cs:118 | a header starts with `Content-Length: `, ends with the blank line, and has at least one character between them |
| Framing.Frame | UnityDebug/UnityDebug.cs:118-123 | a frame starts with the label, ends with the body, and is longer than the body by more than the label |
| FramingProperties.HeaderShape | UnityDebug/UnityDebug.cs:118 | a header is the label, the decimal length and the blank line, with no carriage return before the blank line |
| FramingProperties.FrameHeaderFound | UnityDebug/UnityDebug.cs:59-60 | for a buffer starting with a written frame, the match is at index 0 with the body length as its group, and the slice ends exactly at the end of that frame |
| FramingProperties.FrameSeparatorFound | UnityDebug/UnityDebug.cs:60 | the first header separator in a buffer starting with a frame is the header's own |
| FramingProperties.JsonTextOfFrame | UnityDebug/Request.cs:18-19 | parsing a written frame hands exactly its body to the decoder, even when the body contains a header separator |
| FramingProperties.SliceFrame | UnityDebug/UnityDebug.cs:74-78 | a buffer starting with a complete frame yields that frame and keeps the rest as the head, without reading |
| FramingProperties.StepFrameRoundTrip | UnityDebug/UnityDebug.cs:36-78 | a written frame delivered by one read is sliced out whole and leaves an empty head |
| FramingProperties.StepTwoFramesInOneRead | UnityDebug/UnityDebug.cs:36-50 | with two frames in one read, the first is dispatched and the second stays in the head; the next iteration dispatches it without reading |
| FramingProperties.StepEndsOnEmptyRead | UnityDebug/UnityDebug.cs:38-42 | a zero-byte read with an empty head ends the loop, and a non-empty head never ends it |
| FramingProperties.StepDiscardsUnmatched | UnityDebug/UnityDebug.cs:87-90 | a buffer without a match is dropped whole, the head stays empty and the loop goes on reading |
| FramingProperties.StepSliceLength | UnityDebug/UnityDebug.cs:59-60 | the sliced request is `requestIndex + contentLength` long, both taken from the buffer before any top-up read |
| FramingProperties.StepShortBufferReadsOnce | UnityDebug/UnityDebug.cs:62-73 | a short buffer is topped up with exactly one more read, and the frame is sliced from the combined text when that read suffices |
| FramingProperties.StepShortBufferFails | UnityDebug/UnityDebug.cs:62-73 | when one more read does not suffice, `Substring` throws and the loop fails |
| FramingProperties.TraceConservesInput | UnityDebug.cs:28-84 | over the whole loop the sliced requests and discarded buffers spell a prefix of the head and all input, and all of it when the loop ends at the end of an input without empty reads |
| FramingProperties.FrameList | UnityDebug/UnityDebug.cs:116-123 | the list of frames has one written frame per body, in order |
| FramingProperties.FramesCons | UnityDebug/UnityDebug.cs:116-123 | frames written one after another are the first frame followed by the others |
| FramingProperties.TraceDispatchesBufferedFrames | UnityDebug.cs:34-49 | frames already in the head are sliced one per iteration, in order, before the loop reads again |
| FramingProperties.TraceTwoFramesInOneRead | UnityDebug.cs:34-76 | two frames delivered by one read are both sliced, in order, and the loop then ends at the end of the input |
| FramingProperties.TraceEndsOnEmptyRead | UnityDebug.cs:36-41 | a zero-byte read with an empty head is the whole run and slices nothing |
| FramingProperties.TraceSkipsUnmatched | UnityDebug.cs:50-83 | an unmatched buffer adds no request; the run goes on as the loop that reads after it |
| FramingProperties.EscapeIsPerCharacter | UnityDebug.cs:87-90 | the two `Replace` passes equal one pass escaping each line feed and carriage return on its own |
| Transport.ConvertToBytes | UnityDebug/UnityDebug.cs:112-124 | writing a message advances the sequence counter by one increment |
| Transport.ConvertToBytesReadBack | UnityDebug/UnityDebug.cs:112-124 | a written frame's header advertises the serialised body's length, parsing hands back exactly that body, and the read loop slices the frame out whole |
| Transport.EncodedFrames | UnityDebug/UnityDebug.cs:116-123 | one frame per message, each around the message's serialised text |
| Transport.WriteAll | UnityDebug/UnityDebug.cs:94-124 | one stamped message per message written, each the message with only its `seq` set |
| Transport.Serve | UnityDebug/UnityDebug.cs:25-91 | the loop handles at most one request per iteration, and writes at least one message for each request it handles |
| Transport.WriteAllStamps | UnityDebug/UnityDebug.cs:94-124 | the `i`-th written message is the given one with `seq` set to the counter after `i + 1` increments, and the output is their frames back to back |
| Transport.ServeStampsConsecutively | UnityDebug/UnityDebug.cs:85 | every message the loop writes carries the next counter value, and the output is exactly their frames |
| Transport.ServeNumbersFromOne | UnityDebug/Message.cs:11 | from the initial counter of 0 the written messages carry `seq` 1, 2, 3, ... with no repeats, until the counter wraps |
| Transport.ServeFirstRead | UnityDebug/UnityDebug.cs:36-50 | the loop after a read that delivered some text is the loop with that text in the head |
| Transport.ServeHandlesBufferedFrames | UnityDebug/UnityDebug.cs:76-85 | buffered frames are each parsed and handled in order; with nothing more to read, they are all the loop handles and it ends normally |
| Transport.ServeRoundTrip | UnityDebug/UnityDebug.cs:25-124 | requests framed in the writer's format and delivered in one read are each handled exactly once, in order, and the loop ends normally |
| Handles.Table.TryGet | UnityDebug/VariableMap.cs:29-32 | a lookup succeeds exactly for a stored id and returns its value |
| Handles.Table.Get | UnityDebug/UnityDebugSession.cs:712 | a lookup returns the stored value, or the default for an unknown id |
| Handles.Clear | UnityDebug/VariableMap.cs:23-27 | after `Clear` nothing is found and the counter is back at 1 |
| Handles.Add | UnityDebug/VariableMap.cs:16-21 | the value is found under the returned id, every other id keeps its value, the counter moves one on, and in a valid table the id is new and positive |
| Handles.FirstAddIsOne | UnityDebug/VariableMap.cs:11-25 | the first `Add` after construction returns 1 and stores the value there |
| Handles.AddsAreConsecutive | UnityDebug/VariableMap.cs:18 | successive `Add`s return the counter after 0, 1, 2, ... increments |
| Handles.AddsNeverRepeat | UnityDebug/VariableMap.cs:18 | without wrap-around successive ids are `next, next + 1, ...`, never 0 and never repeated |
| Handles.AddedStaysFound | UnityDebug/VariableMap.cs:18-31 | what an `Add` stored is found again after later `Add`s, as long as the counter does not wrap |
| Handles.AddAllFinds | UnityDebug/VariableMap.cs:16-31 | each id of a run of `Add`s resolves to the value added under it, and the table stays valid |
| Handles.NeverIssuedIsMissing | UnityDebug/VariableMap.cs:29-31 | an id below 1 or at or above the counter is not found |
| Engine.Insert | UnityDebug/UnityDebugSession.cs:611 | a new store entry gets a fresh id, and every other entry is unchanged |
| Engine.Remove | UnityDebug/UnityDebugSession.cs:593 | removing drops exactly that entry, and removing an absent one changes nothing |
| Engine.RemoveAll | UnityDebug/UnityDebugSession.cs:367-370 | removing a list of ids leaves exactly the entries not listed, unchanged |
| Engine.RemoveIds | UnityDebug/UnityDebugSession.cs:588-596 | removing a set of ids leaves exactly the entries outside it, unchanged |
| Engine.SetCondition | UnityDebug/UnityDebugSession.cs:625 | setting a condition changes that line breakpoint's condition and nothing else |
| Protocol.MakeThread | UnityDebug/Thread.cs:10-14 | the id is kept, a null or empty name becomes "Thread #" and the id, any other name (white space included) is kept, and the name is never empty |
| Protocol.MakeThreadStable | UnityDebug/Thread.cs:10-14 | building a thread again from its own id and name gives the same thread |
| Protocol.MakeThreadDefaultNamesDistinct | UnityDebug/Thread.cs:13 | unnamed threads with different ids get different names |
| Text.IntToDecimalInjective | UnityDebug/Thread.cs:13 | different ids render as different decimal strings |
| Protocol.GetString | UnityDebug/UnityDebugSession.cs:973-988 | a missing value or one that is all white space gives the default; anything else comes back trimmed and non-empty |
| Protocol.GetStringIdempotent | UnityDebug/UnityDebugSession.cs:973-988 | reading back a value `GetString` returned gives it unchanged |
| Protocol.GetInt | UnityDebug/UnityDebugSession.cs:959-971 | a present value is returned, a missing one gives the default |
| Protocol.SendOutput | UnityDebug/UnityDebugSession.cs:875-886 | null or empty text sends nothing; otherwise one output event of the category whose text ends in a line feed, added only when missing |
| Protocol.SendOutputIdempotent | UnityDebug/UnityDebugSession.cs:875-886 | sending the text of an output event again sends the same event |
| Session.Initial | UnityDebug/UnityDebugSession.cs:67-84 | a new session is consistent, has not terminated, and holds no breakpoints or catchpoints |
| Session.Stopped | UnityDebug/UnityDebugSession.cs:918-923 | a stop forgets the current exception and every handle, restarts both counters, and changes nothing else |
| Session.OnStop | UnityDebug/UnityDebugSession.cs:95-153 | a stop changes only the remembered exception, the two handle tables and the current frame; a stop that throws changes nothing and sends nothing |
| Session.ExceptionStop | UnityDebug/UnityDebugSession.cs:132-139 | with an active exception its instance is remembered and one stopped event is sent; without one nothing changes and nothing is sent |
| Session.FirstUserFrame | UnityDebug/UnityDebugSession.cs:121-129 | the frame chosen is the first that is not external code, else frame 0, and none only for an empty backtrace |
| Session.StopInvalidatesHandles | UnityDebug/UnityDebugSession.cs:95-153 | after any stop no handle issued before it resolves; only the exception just reported is remembered; the stopped event comes last; breakpoints, catchpoints and threads are untouched; and a hit breakpoint or thrown exception without a backtrace throws |
| Session.StopEventThreadId | UnityDebug/UnityDebugSession.cs:897-900 | the stopped event names the thread by its id |
| Session.Terminate | UnityDebug/UnityDebugSession.cs:888-895 | the terminated event is sent only the first time, and nothing else changes |
| Session.TerminateAtMostOnce | UnityDebug/UnityDebugSession.cs:888-895 | however often `Terminate` runs, the client sees one terminated event at most, and exactly one if the session had not terminated |
| Session.DebuggerKill | UnityDebug/UnityDebugSession.cs:997-1012 | killing drops the engine session and marks the debuggee executing, changing nothing else, and issues `Exit` exactly when the debuggee has not already exited; with no engine session it changes and sends nothing |
| Session.ExitTerminates | UnityDebug/UnityDebugSession.cs:164-171 | an exit leaves the session terminated and without an engine, announcing the termination exactly when it had not been announced |
| Session.OnExited | UnityDebug/UnityDebugSession.cs:164-171 | an exit never throws, drops the engine session and leaves the session terminated; apart from the executing flag nothing else changes |
| Session.OnThreadStarted | UnityDebug/UnityDebugSession.cs:180-189 | never throws; a started thread is remembered under its 32-bit id with its default name and announced, and nothing but the seen threads changes |
| Session.OnThreadStopped | UnityDebug/UnityDebugSession.cs:191-200 | the thread with the 32-bit id is forgotten, every other seen thread is kept with its name, only the seen threads change, and one "exited" thread event is sent for that id |
| Session.ThreadStartStop | UnityDebug/UnityDebugSession.cs:180-200 | a thread that starts and then stops leaves the seen threads as they were |
| Session.OnReady | UnityDebug/UnityDebugSession.cs:159-162 | nothing is sent; the active process is the only process, none for none, and several throw, leaving the state unchanged; nothing but the active process changes |
| Session.OnOutput | UnityDebug/UnityDebugSession.cs:202-205 | engine output is forwarded as one output event, as standard error or standard output, unless it is empty; the session state does not change |
| Session.WaitForSuspend | UnityDebug/UnityDebugSession.cs:1014-1020 | after waiting the debuggee counts as suspended, and nothing else changes |
| Session.ResumeGuard | UnityDebug/UnityDebugSession.cs:438-492 | a resume request is always answered first and once; the engine gets the request's command exactly when it is stopped and alive; the session counts as executing exactly then; nothing else changes |
| Session.ResumeHandler | UnityDebug/UnityDebugSession.cs:438-492 | a resume request never throws, answers with a response first, issues at most one engine command after it, and changes only the executing flag |
| Session.HasMonoExtension | UnityDebug/UnityDebugSession.cs:40-46 | a path Mono handles ends with one of the listed extensions, so it contains a dot |
| Breakpoints.RequestedPath | UnityDebug/UnityDebugSession.cs:554-563 | a path is taken exactly when the source has a path that is not all white space, and it is kept untrimmed |
| Breakpoints.Lines | UnityDebug/UnityDebugSession.cs:580 | the requested lines in order |
| Breakpoints.Prune | UnityDebug/UnityDebugSession.cs:583-597 | a remembered line stays exactly when it is requested again and the source was not modified; the store loses exactly the entries of the dropped lines |
| Breakpoints.Start | UnityDebug/UnityDebugSession.cs:582-602 | the pruned table holds exactly the remembered lines requested again when the source was not modified, with their ids; the store only loses entries |
| Breakpoints.RegisterOne | UnityDebug/UnityDebugSession.cs:607-627 | one breakpoint appends one status for its line and column, verified exactly when its line ends up in the table, and keeps every earlier line's id |
| Breakpoints.LastCondition | UnityDebug/UnityDebugSession.cs:612-625 | a line has a last requested condition exactly when it is requested |
| Breakpoints.RegisterTable | UnityDebug/UnityDebugSession.cs:604-628 | after the loop the file's table holds the kept lines and exactly the requested lines the engine accepted; kept lines keep their ids and new ids are fresh |
| Breakpoints.RegisterStatuses | UnityDebug/UnityDebugSession.cs:604-628 | the `i`-th status answers the `i`-th request: same line and column, verified exactly when kept or accepted, with the log message or the engine's message |
| Breakpoints.RegisterErrors | UnityDebug/UnityDebugSession.cs:616-621 | every error the loop sends is a 3011 response, one per unverified status |
| Breakpoints.RegisterOneErrors | UnityDebug/UnityDebugSession.cs:607-627 | one breakpoint adds one status, and one 3011 error exactly when that status is unverified |
| Breakpoints.RegisterStore | UnityDebug/UnityDebugSession.cs:604-628 | the loop keeps the table describing the store, touches no entry of another file, and leaves each line with the condition of the last request for it |
| Breakpoints.SetBreakpointsRejects | UnityDebug/UnityDebugSession.cs:565-579 | a missing or blank path gets error 3010, a file Mono cannot handle gets an empty list, missing arguments throw, and none of these changes the session |
| Breakpoints.SetBreakpoints | UnityDebug/UnityDebugSession.cs:552-631 | a request that throws changes nothing and sends nothing; any other ends with a response or an error response |
| Breakpoints.Kept | UnityDebug/UnityDebugSession.cs:583-596 | the kept lines are those remembered, requested again, with the source not modified |
| Breakpoints.SetBreakpointsHandled | UnityDebug/UnityDebugSession.cs:578-630 | a well-formed request throws exactly when the engine session is disposed and a remembered line must be removed, and then changes nothing; otherwise it stores the loop's table and store and sends its errors before the statuses |
| Breakpoints.SetBreakpointsTable | UnityDebug/UnityDebugSession.cs:582-628 | the file's table holds exactly the requested lines that were kept or accepted; kept lines keep their breakpoint and new ones are fresh, so a modified source gets only fresh ones; no other file's table changes |
| Breakpoints.RegisterAnswers | UnityDebug/UnityDebugSession.cs:604-630 | the loop, run from nothing, answers every requested breakpoint in order, with one 3011 error before the response per unverified status |
| Breakpoints.SetBreakpointsStatuses | UnityDebug/UnityDebugSession.cs:604-630 | a well-formed request throws exactly as above; otherwise it answers every requested breakpoint as described above, with a disposed engine session refusing every new line |
| Breakpoints.SetBreakpointsConditions | UnityDebug/UnityDebugSession.cs:612-625 | every breakpoint of the file carries the condition of the last request for its line |
| Breakpoints.StartDescribes | UnityDebug/UnityDebugSession.cs:582-602 | the pruned table describes the pruned store, and pruning removes only entries of this file |
| Breakpoints.SetBreakpointsConsistent | UnityDebug/UnityDebugSession.cs:552-631 | every remembered line breakpoint stays the store's entry for its path and line, and every catchpoint stays a catchpoint |
| Breakpoints.RegisterRefused | UnityDebug/UnityDebugSession.cs:607-627 | when the engine refuses every line, the loop leaves the table and the store's ids as they were |
| Breakpoints.SetBreakpointsDisposed | UnityDebug/UnityDebugSession.cs:583-630 | with the engine session disposed, a request throws exactly when a remembered line must be dropped; otherwise the file keeps its remembered lines, no store entry is added, and every breakpoint is verified exactly when its line was remembered, the others carrying the null-reference message, each with one 3011 error |
| Breakpoints.SetBreakpointsDisposedApplies | UnityDebug/UnityDebugSession.cs:552-597 | a fresh session whose engine session is gone, asked for a breakpoint in a C# file, meets the requirements above and removes nothing, so the request does not throw |
| Catchpoints.NameOf | UnityDebug/UnityDebugSession.cs:382-394 | an option names an exception exactly when its first path segment has a non-empty name list |
| Catchpoints.Until | UnityDebug/UnityDebugSession.cs:375-385 | the options handled are the prefix before the first one whose empty path throws, and it is shorter than the list exactly when such an option exists |
| Catchpoints.SetExceptionBreakpoints | UnityDebug/UnityDebugSession.cs:358-401 | the rebuild sends nothing to the client; null options change nothing and do not throw; on a disposed engine session the state does not change |
| Catchpoints.AddCatchpoints | UnityDebug/UnityDebugSession.cs:375-400 | the loop only appends to the catchpoint list and never lowers the store's next id |
| Catchpoints.SetExceptionBreakpointsRequest | UnityDebug/UnityDebugSession.cs:545-550 | the request throws exactly when the rebuild does, then sending nothing; otherwise it sends one empty response |
| Catchpoints.AddCatchpointsEffect | UnityDebug/UnityDebugSession.cs:375-400 | the loop adds one fresh catchpoint per catching option before the first that throws, for its exception and in order, and leaves every other store entry as it was |
| Catchpoints.AddCatchpointsFaults | UnityDebug/UnityDebugSession.cs:375-400 | the loop throws exactly when some option has an empty path |
| Catchpoints.AddCatchpointsDisposedFaults | UnityDebug/UnityDebugSession.cs:375-400 | on a disposed engine session the loop throws exactly when some option has an empty path or names an exception to catch |
| Catchpoints.SetExceptionBreakpointsEffect | UnityDebug/UnityDebugSession.cs:358-401 | null options change nothing; on a disposed engine session nothing changes, and the rebuild throws exactly when there were catchpoints to remove or an option throws or catches; otherwise the catchpoints are exactly the exceptions caught, in order and under fresh ids, no old catchpoint is left, and line breakpoints are untouched |
| Catchpoints.SetExceptionBreakpointsConsistent | UnityDebug/UnityDebugSession.cs:358-401 | the rebuild keeps the session's bookkeeping consistent |
| Catchpoints.SetExceptionBreakpointsResponds | UnityDebug/UnityDebugSession.cs:545-550 | the request answers with one empty response unless an option throws, or the engine session is disposed and there are catchpoints to remove or add |
| Inspection.StripBraces | UnityDebug/UnityDebugSession.cs:933-937 | a display value longer than one character and wrapped in braces loses exactly that pair, and any other is kept |
| Inspection.CreateVariable | UnityDebug/UnityDebugSession.cs:931-940 | a variable shows the value's name, type and unbraced display value; a value with children gets a fresh non-zero handle that resolves to them, any other gets 0 and leaves the table alone |
| Inspection.NonErrors | UnityDebug/UnityDebugSession.cs:757-764 | a value is kept exactly when it is a value of the group and not an error |
| Inspection.NonErrorsAppend | UnityDebug/UnityDebugSession.cs:757-764 | filtering keeps the children's order: the values kept from two runs of children are those kept from the first, then those kept from the second |
| Inspection.CreateVariablesDescribe | UnityDebug/UnityDebugSession.cs:757-766 | the `i`-th created variable describes the `i`-th value |
| Inspection.Variables | UnityDebug/UnityDebugSession.cs:730-778 | `variables` never throws, sends exactly one reply, changes only the executing flag and the variable handles, and leaves the debuggee suspended when a reference was given |
| Inspection.VariablesListsChildren | UnityDebug/UnityDebugSession.cs:730-778 | a missing reference gets error 3009 and leaves the session alone; an unknown handle lists nothing; otherwise one variable per non-error child among the first hundred, with "..." last exactly when there are more |
| Inspection.FailureReason | UnityDebug/UnityDebugSession.cs:837-841 | the reason is the engine's message, or "not available" when the marker text occurs after its first character |
| Inspection.Evaluate | UnityDebug/UnityDebugSession.cs:804-871 | `evaluate` never throws and sends one reply; only the variable handles change, and an error reply has code 3014 and leaves the session alone |
| Inspection.EvaluateErrors | UnityDebug/UnityDebugSession.cs:804-871 | the checks come in order, each failure answered by one 3014 error without touching the session, and success exactly when no flag rejects the value |
| Inspection.EvaluateThenVariables | UnityDebug/UnityDebugSession.cs:859-865 | a successful value has a non-zero handle exactly when it has children, and that handle is fresh and resolves to them |
| Inspection.FrameValues | UnityDebug/UnityDebugSession.cs:721 | a frame's values are exactly its non-null `this`, parameters and locals |
| Inspection.Scopes | UnityDebug/UnityDebugSession.cs:709-728 | `scopes` throws exactly for an unknown frame, then changing nothing; otherwise it answers with at most two scopes, changing only the variable handles |
| Inspection.ScopesResolve | UnityDebug/UnityDebugSession.cs:709-728 | an unknown frame throws; otherwise "Exception" comes first when the top frame has a remembered exception, "Local" when the frame has values, and each scope's handle resolves to what it shows |
| Inspection.FileName | UnityDebug/UnityDebugSession.cs:671 | the file name is the longest suffix without a directory separator |
| Inspection.SourceOf | UnityDebug/UnityDebugSession.cs:665-684 | a frame has a source exactly when it has a non-empty file name; the source has a path exactly when the file exists, and is then "normal" |
| Inspection.FindThread | UnityDebug/UnityDebugSession.cs:902-916 | the thread found is the first of the process's threads with the id, and none is found only when no thread has it |
| Inspection.TraceThread | UnityDebug/UnityDebugSession.cs:642-652 | the thread used is the active one when its id matches, otherwise one of the process's threads with the requested id; none without an active thread |
| Inspection.StackTrace | UnityDebug/UnityDebugSession.cs:633-694 | `stackTrace` throws when no thread with the id is found, then sending nothing; otherwise it sends one stack trace response; only the suspension, the engine's active thread and the frame handles change; a window starting at a negative frame is taken to throw, since the engine's `GetFrame` is not modelled |
| Inspection.StackTraceWindow | UnityDebug/UnityDebugSession.cs:633-694 | the listed frames are those from `startFrame` to the window's end, each under a new handle that resolves to it, with the backtrace's length as the total |
| Inspection.StackTraceFaults | UnityDebug/UnityDebugSession.cs:642-663 | `stackTrace` throws exactly when there is no thread, or, under the model's reading that the engine's `GetFrame` yields no frame for a negative index, when the window is non-empty but starts at a negative frame |
| Inspection.TraceWindowSize | UnityDebug/UnityDebugSession.cs:661 | without wrap-around the window holds `levels` frames from `startFrame`, fewer at the end of the backtrace |
| Inspection.Threads | UnityDebug/UnityDebugSession.cs:780-802 | without a process the list is empty; otherwise it holds exactly the seen threads and the process's threads; the state does not change |
| Inspection.MergeThreads | UnityDebug/UnityDebugSession.cs:786-798 | the list holds every seen thread and every process thread; a seen thread no process thread replaces is kept as it was |
| Inspection.MergeThreadsLastWins | UnityDebug/UnityDebugSession.cs:792-796 | a process thread's entry is the last process thread with that 32-bit id, with its default name |
| Attach.TrimSlashes | UnityDebug/UnityDebugSession.cs:320 | `TrimStart('/')` removes exactly the leading slashes |
| Attach.TrimSlashesIdempotent | UnityDebug/UnityDebugSession.cs:320 | trimming slashes twice is trimming them once |
| Attach.CleanPath | UnityDebug/UnityDebugSession.cs:312-321 | the path is kept on Unix and macOS, and loses its leading slashes on Windows |
| Attach.TooManyInstances | UnityDebug/UnityDebugSession.cs:323-338 | error 8002 naming the target, then an output line for the refusal and one per process |
| Attach.FoundLines | UnityDebug/UnityDebugSession.cs:333-337 | one output line per process, in order, naming it and its id |
| Attach.FirstWithId | UnityDebug/UnityDebugSession.cs:300 | the process found is the first one with the id, and none is found only when no process has it |
| Attach.EditorInstanceFileMismatch | UnityDebug/UnityDebugSession.cs:290-298 | on Unix, for any path starting with a slash, the file read is not the file whose existence was checked |
| Attach.EditorInstanceFileMismatchExample | UnityDebug/UnityDebugSession.cs:290-298 | the editor instance path of a Unix project is read from a different, relative, file |
| Attach.ReadEditorProcess | UnityDebug/UnityDebugSession.cs:297-300 | the process picked is the first one with the id read from the file (no earlier process has that id), none with that id throws, and nothing is refused |
| Attach.PickEditor | UnityDebug/UnityDebugSession.cs:290-300 | as written: the editor is refused exactly when the checked file does not exist, and one chosen by the file read is one of the processes found |
| Attach.PickEditorCorrected | UnityDebug/UnityDebugSession.cs:290-300 | reading the file that was checked: refused exactly when it does not exist, and picked exactly when it names the id of a process found, which is then the process picked |
| Attach.PickEditorWindowsAgrees | UnityDebug/UnityDebugSession.cs:312-321 | on Windows the code as written and the corrected reading pick alike |
| Attach.PickEditorUnixThrows | UnityDebug/UnityDebugSession.cs:290-298 | on Unix, when only the absolute file exists, the code as written never picks and throws, even where the corrected reading picks |
| Attach.Connect | UnityDebug/UnityDebugSession.cs:340-355 | connecting runs the engine session and marks it executing, throws without one, and changes nothing else |
| Attach.Choose | UnityDebug/UnityDebugSession.cs:277-301 | a single process is taken; several for a target whose name does not contain "Editor" are refused; a process chosen is one of those found |
| Attach.FinishResponses | UnityDebug/UnityDebugSession.cs:284-309 | a refusal sends error 8002 and the process list; a connection ends in the one success response with the session running |
| Attach.AttachToOutcomes | UnityDebug/UnityDebugSession.cs:268-309 | unless it throws, attach answers once: 8001 exactly when no process matches, 8002 with the list when several match a non-editor target, and success only after connecting to a matching process |
| Attach.AttachToEditorThrows | UnityDebug/UnityDebugSession.cs:277-309 | on Unix, with several editors and only the absolute instance file present, attach throws and sends nothing, while the corrected reading connects and answers with one success response |
| Attach.AttachToEditorThrowsApplies | UnityDebug/UnityDebugSession.cs:284-298 | on Unix, two editor processes, the path "/p" and an instance file present only under that absolute path meet all the requirements above |
| Attach.ExampleHostHasTwoEditors | UnityDebug/UnityAttach.cs:20-39 | the name "Editor" finds both editor processes of that host |
| Attach.ExamplePath | UnityDebug/UnityDebugSession.cs:296-298 | the path "/p" survives `GetString` unchanged, and `TrimStart('/')` turns it into another file name |
| Attach.Searching | UnityDebug/UnityDebugSession.cs:266 | attach first sends one output line |
| Attach.Finish | UnityDebug/UnityDebugSession.cs:284-309 | finishing changes only the engine session and the executing flag |
| Attach.AttachTo | UnityDebug/UnityDebugSession.cs:268-309 | the search changes only the engine session and the executing flag |
| Attach.AttachOutcomes | UnityDebug/UnityDebugSession.cs:258-310 | a missing name throws; otherwise, after the catchpoints and the search line, attach answers as above |
| Attach.AttachHandler | UnityDebug/UnityDebugSession.cs:258-310 | unless it throws, attach leaves the state the catchpoint rebuild made, changing only the engine session and the executing flag |
| UnityAttach.TargetOf | UnityDebug/UnityAttach.cs:20-33 | a known name, in any ASCII case, selects its process name, with the editor option exactly for the editor and the player option otherwise; an unknown name is the process name among all processes |
| UnityAttach.KnownTargetsIgnoreCase | UnityDebug/UnityAttach.cs:9-26 | two spellings of a known name that agree in lower case select the same target |
| UnityAttach.EditorOnlyForUnityEditor | UnityDebug/UnityAttach.cs:24-32 | only "unity editor" selects the editor option, and exactly the unknown names search all processes |
| UnityAttach.EditorIsUnknownTarget | UnityDebug/UnityAttach.cs:24-27 | "Editor" is no known target name, so it is looked for under its own name among all processes |
| UnityAttach.MatchingMembers | UnityDebug/UnityAttach.cs:39 | the filter keeps exactly the processes whose name contains the process name |
| UnityAttach.MatchingKeepsOrder | UnityDebug/UnityAttach.cs:39 | the filter keeps discovery order |
| UnityAttach.GetAttachableProcesses | UnityDebug/UnityAttach.cs:20-40 | the processes returned are exactly those discovered with the target's option whose name contains its process name |
| StringUtil.JoinList | Util/Util/StringUtil.cs:10-28 | the list branch gives the reference join, and throws exactly for a null separator with a non-empty list |
| StringUtil.JoinEnumerable | Util/Util/StringUtil.cs:30-40 | the enumerating branch gives the reference join, a null separator counting as empty |
| StringUtil.Join | Util/Util/StringUtil.cs:10-40 | both branches give the same text: the items in order with one separator between each two |
| StringUtil.JoinedLength | Util/Util/StringUtil.cs:15-21 | the capacity the list branch reserves is exactly the length of the result |
| StringUtil.JoinedAppend | Util/Util/StringUtil.cs:22-27 | joining two non-empty parts is joining each with one separator between |
| StringUtil.JoinedCons | Util/Util/StringUtil.cs:22-27 | the separator sits between items: the first item, the separator, then the join of the rest |
| StringUtil.JoinedEmptySeparator | Util/Util/StringUtil.cs:32-39 | with an empty separator a join is plain concatenation, whatever the grouping |
| ExceptionConfig.Lookup | typescript/exceptions.ts:9 | a name has a mode exactly when the settings hold it |
| ExceptionConfig.Set | typescript/exceptions.ts:31 | storing a mode overwrites an existing name in place and appends a new one |
| ExceptionConfig.SetLookup | typescript/exceptions.ts:31 | after storing, the name holds the new mode and every other name keeps its mode |
| ExceptionConfig.SetKeepsDistinct | typescript/exceptions.ts:31 | storing keeps each name once |
| ExceptionConfig.ToOptions | typescript/exceptions.ts:79-88 | one option per setting, in order, naming the exception and carrying its mode as break mode |
| ExceptionConfig.ToOptionsCatches | typescript/exceptions.ts:83-84 | sent to the adapter, the settings become exactly the catchpoints of their "always" exceptions, in order |
| ExceptionConfig.AlwaysNamesMember | typescript/exceptions.ts:83-84 | an exception is caught exactly when its mode is "always" |
| ExceptionConfig.ToMode | typescript/exceptions.ts:90-98 | the three mode names map to their modes, and any other text throws an error naming it |
| ExceptionConfig.ModeRoundTrip | typescript/exceptions.ts:90-98 | every mode stored as its name reads back as itself |
| ExceptionConfig.SetMode | typescript/exceptions.ts:140-143 | the item takes the mode, and its label and tooltip show a tick exactly for "always", then the name |
| ExceptionConfig.NewItem | typescript/exceptions.ts:132-138 | a new item has the name and mode, with label equal to tooltip |
| ExceptionConfig.LabelShowsMode | typescript/exceptions.ts:142 | two labels agree exactly when the names agree and both or neither are "always" |
| ExceptionConfig.Choose | typescript/exceptions.ts:30-49 | the options are sent exactly when a debug session is active; the item takes the mode and the configuration stores the mode's name for it |
| ExceptionConfig.ChooseEffect | typescript/exceptions.ts:30-49 | after `always`, `never` or `unhandled` other exceptions keep their mode and the item's label agrees with its stored mode; the options reach the adapter exactly when a debug session is active, and then it catches the item's exception exactly for `always` |
| ExceptionConfig.AddEntry | typescript/exceptions.ts:51-63 | empty or cancelled input changes nothing; otherwise the exception is stored as "never" and nothing else changes |
| ExceptionConfig.AddEntryCatchesNothing | typescript/exceptions.ts:60 | a new entry adds no catchpoint |
| ExceptionConfig.Items | typescript/exceptions.ts:113-122 | the items list the settings in order with their modes, and exist exactly when every mode is known |
| ExceptionConfig.Children | typescript/exceptions.ts:104-125 | without settings, a message and no items; otherwise the items of the settings |
| ExceptionConfig.TickedAreCaught | typescript/exceptions.ts:83-143 | the items that show a tick are exactly the exceptions the adapter is asked to break on, in the same order |

## Left out

- The Mono engine is not modelled. Its answers are data (`Engine.Value`, `Frame`, `EngineThread`) or function parameters: whether `Breakpoints.Add` throws, `ValidateExpression`, `GetExpressionValue`, `File.Exists` and process discovery.
- JSON serialisation and deserialisation are parameters. So are the text encoding, which the model assumes is single-byte, and the 4096-byte read buffer: one `Read` is one chunk of input of any size.
- The regular expression's `\d` matches only ASCII digits in the model; .NET also matches other Unicode decimal digits.
- Concurrency is not modelled: locks, `WaitHandle.WaitAll`, `AutoResetEvent`, and the callbacks running on engine threads. `WaitForSuspend` only clears the executing flag. The `variables` handler's two branches (fewer than 20 children, or more) differ only in how they wait, so they are one path in the model.
- Logging (`Log.Write`, `Log.DebugWrite`) is not modelled. It has no effect on the protocol.
- The handlers `Initialize`, `Launch`, `Disconnect`, `SetFunctionBreakpoints`, `Pause`, `SetVariable` and `Source` are not modelled:
  - `Initialize` (UnityDebug/UnityDebugSession.cs:212-251) sends error 3000 on an unsupported platform. Otherwise it sends the output line "UnityDebug: Initializing", a response with the adapter's capabilities and an `initialized` event. The platform check reads the host's operating system.
  - `Launch` only forwards to `attach`.
  - `Disconnect` (lines 403-429) clears the engine's breakpoints, resumes, detaches and disposes the engine session when there is one. It then sets `m_Breakpoints` to null and marks the debuggee executing. Either way it sends the output line "UnityDebug: Disconnected" and an empty response.
  - `SetFunctionBreakpoints` and `Source` answer with a constant.
  - `Pause` (lines 494-499) sends an empty response, then stops the engine when it is running.
  - `SetVariable` (lines 510-543) sends error 3009 without a `variablesReference`. Otherwise it sets the value of every non-error child whose variable has the requested name, sending one response per such child, with no response when none matches.
- After `Disconnect`, `m_Breakpoints` is null. A later `setBreakpoints` that gets past the path and extension checks therefore throws at UnityDebug/UnityDebugSession.cs:583. The model's breakpoint table is never null and `Disconnect` is not modelled, so this throw is not modelled.
- `HandleRequest` is not part of this model; neither is the dispatcher that turns a handler's exception into an error response. A handler that throws is reported as `faulted`.
- Inspection.StackTraceFaults: the engine's `Backtrace.GetFrame` is not part of this model, so what it does with a negative index is not known here. The model takes it to yield no frame, so that a non-empty window starting at a negative frame throws. An engine that clamps the index to the first frame would instead list that frame again for each negative index. `Inspection.StackTrace` carries the same reading.
- `Handles<T>` is not part of this model. Its tables are assumed to behave like `VariableMap<T>`, with `Create` for `Add`, `Reset` for `Clear`, and `Get` returning the default for an unknown id.
- `ConvertDebuggerPathToClient` and `ConvertDebuggerLineToClient` are not part of this model. Paths and lines are passed through unchanged.
- `UnityProcessDiscovery.GetUnityAttachInfo` and the socket connection are left out. Connecting is modelled as running the engine session.
- The thread dictionary's enumeration order is left out: `threads` answers with a map from 32-bit id to thread.
- The order of a JavaScript object's keys is modelled as insertion order, except that integer-like keys, which JavaScript lists first, are not treated specially.
- `StringBuilder` capacity is left out. `StringUtil.JoinedLength` proves that the reserved capacity equals the result's length.
- Framing.Trace: assumes the input is finite. A stream that never ends and never sends a zero-byte read is not modelled.
- FramingProperties.TraceConservesInput: states the whole input is spelled only when the input has no empty read before its end. With an empty read in the middle, the loop stops there, and only a prefix is spelled.
- FramingProperties.StepShortBufferReadsOnce: requires that one more read brings enough text, as the source assumes. StepShortBufferFails covers the other case.
- Handles.AddsNeverRepeat: the ids are distinct only while the 32-bit counter does not wrap; AddsAreConsecutive states the wrapped values.
- String comparisons are ordinal and lower-casing is ASCII-only. The source's `ToLower` (UnityDebug/UnityAttach.cs:26), `IndexOf(string)` (UnityDebug/Request.cs:18, UnityDebug/UnityDebug.cs:60, UnityDebug/UnityDebugSession.cs:838) and `EndsWith` (UnityDebug/UnityDebugSession.cs:956) use the current culture, which the model does not represent.
- Text.ToLower: lower-cases ASCII capitals only; the current culture's mapping of other letters is not modelled.
- UnityAttach.TargetOf: matches known names in any ASCII case only; culture-specific case mappings, such as the Turkish dotted and dotless i, are not modelled.
- Attach.AttachHandler: the handlers follow the editor pick as written. The corrected pick is stated on its own (Attach.PickEditorCorrected) and compared with the handler in Attach.AttachToEditorThrows.
- Transport.ServeNumbersFromOne: the numbers are distinct only until the counter wraps after `Int32.MaxValue` messages.

## Findings

| source | as written | input that shows it | evidently intended | confidence | as-written member | corrected member |
|---|---|---|---|---|---|---|
| UnityDebug/UnityDebugSession.cs:290-298 | On Unix and macOS `CleanPath` keeps the leading slash. `File.Exists` then checks the absolute path, but `File.ReadAllText` reads the path with `TrimStart('/')`, which is relative to the working directory. | `path` = `/home/u/proj/Library/EditorInstance.json` on Unix, with several editor processes running | read the file whose existence was checked | not executed | Attach.PickEditorUnixThrows | Attach.PickEditorCorrected |

=== FILE: attach.dfy ===
/**
 The `attach` request (and `launch`, which forwards to it): set the
 catchpoints the configuration carries, look for the named Unity process,
 refuse when there is none or several that cannot be told apart, and
 otherwise connect the engine session to it.
 */
module Attach {
  import opened Wrappers
  import opened Text
  import opened Engine
  import opened Protocol
  import opened Session
  import opened Catchpoints
  import opened UnityAttach

  /** What attach learns from the machine it runs on: the platform, process discovery,
      `File.Exists`, and the process id an editor-instance file holds (None when it cannot
      be read or parsed). */
  datatype Host = Host(
    windows: bool,
    discover: ProcessOptions -> seq<UnityProcess>,
    fileExists: string -> bool,
    editorProcessId: string -> Option<int>)

  /** The raw arguments: `name` and `path` before `GetString`, and the exception options. */
  datatype AttachArgs = AttachArgs(name: Option<string>, path: Option<string>, exceptionOptions: Option<seq<ExceptionOption>>)

  const NotFoundFormat: string := "Could not find target name '{_name}'. Is it running?"
  const PaletteHint: string := "Use \"Unity Attach Debugger\" from the command palette (View > Command Palette...) to specify which process to attach to."
  const TooManyFormat: string := "Multiple targets with name '{_name}' running. Unable to connect.\n" + PaletteHint

  /** A null string concatenates as the empty string. */
  function OrEmpty(s: Option<string>): string {
    s.GetOr("")
  }

  /** `TrimStart('/')`. */
  function TrimSlashes(s: string): (r: string)
    ensures |r| <= |s| && r == s[|s| - |r|..]
    ensures r == [] || r[0] != '/'
    ensures forall i :: 0 <= i < |s| - |r| ==> s[i] == '/'
  {
    if |s| > 0 && s[0] == '/' then TrimSlashes(s[1..]) else s
  }

  /** `CleanPath`: leading slashes are dropped on Windows and kept elsewhere. */
  function CleanPath(path: string, windows: bool): (r: string)
    ensures !windows ==> r == path
    ensures windows ==> r == TrimSlashes(path)
  {
    if windows then TrimSlashes(path) else path
  }

  /** `TooManyInstances`: error 8002, then one output line for the refusal and one per
      process found. */
  function TooManyInstances(name: string, processes: seq<UnityProcess>): (sent: seq<Sent>)
    ensures |sent| == 2 + |processes|
    ensures sent[0] == RespondError(8002, TooManyFormat, Some(name))
    ensures forall i :: 1 <= i < |sent| ==> sent[i].Emit? && sent[i].event.OutputEvent?
  {
    [RespondError(8002, TooManyFormat, Some(name))]
    + SendOutput("stdout", Some("UnityDebug: Multiple targets with name '" + name + "' running. Unable to connect.\n" + PaletteHint))
    + FoundLines(processes)
  }

  /** One output line per process, in order. */
  function FoundLines(processes: seq<UnityProcess>): (sent: seq<Sent>)
    ensures |sent| == |processes|
    ensures forall i :: 0 <= i < |processes| ==>
              sent[i] == Emit(OutputEvent("stdout", "UnityDebug: Found Unity process '" + processes[i].name + "' (" + IntToDecimal(processes[i].id) + ")\n"))
  {
    if |processes| == 0 then []
    else
      var line := "UnityDebug: Found Unity process '" + processes[0].name + "' (" + IntToDecimal(processes[0].id) + ")\n";
      SendOutput("stdout", Some(line)) + FoundLines(processes[1..])
  }

  /** How the editor instance is chosen among several processes. */
  datatype Pick = Picked(process: UnityProcess) | Refused | Threw

  /** The first process with the id (`First`), if any. */
  function FirstWithId(processes: seq<UnityProcess>, id: int): (r: Option<UnityProcess>)
    ensures r.Some? ==> r.value in processes && r.value.id == id
    ensures r.Some? ==> exists k :: 0 <= k < |processes| && processes[k] == r.value &&
                                    forall j :: 0 <= j < k ==> processes[j].id != id
    ensures r.None? ==> forall p :: p in processes ==> p.id != id
  {
    if |processes| == 0 then None
    else if processes[0].id == id then Some(processes[0])
    else FirstWithId(processes[1..], id)
  }

  /** The file the editor-instance process id is read from, as the code computes it: the
      cleaned path with its leading slashes trimmed once more. */
  function EditorInstanceFileAsWritten(cleanPath: string): string {
    TrimSlashes(cleanPath)
  }

  /** On Unix the file read is not the file checked: for any path with a leading slash
      the code reads another, relative, file. */
  lemma EditorInstanceFileMismatch(path: string)
    requires |path| > 0 && path[0] == '/'
    ensures EditorInstanceFileAsWritten(CleanPath(path, false)) != CleanPath(path, false)
  {
    assert TrimSlashes(path) == TrimSlashes(path[1..]);
  }

  /** The file an editor workspace passes on Unix, as a concrete instance. */
  lemma EditorInstanceFileMismatchExample()
    ensures var checked := CleanPath("/home/u/proj/Library/EditorInstance.json", false);
            EditorInstanceFileAsWritten(checked) != checked
  {
    EditorInstanceFileMismatch("/home/u/proj/Library/EditorInstance.json");
  }

  lemma TrimSlashesIdempotent(s: string)
    ensures TrimSlashes(TrimSlashes(s)) == TrimSlashes(s)
  {
  }

  /** Choosing among several processes of an editor target, as the code does it: a missing
      path is not a file (and trimming it throws on Windows); a path that does not exist
      refuses; otherwise the process with the id read from the instance file, if any,
      where the file read is the checked one with its leading slashes trimmed. */
  function PickEditor(processes: seq<UnityProcess>, path: Option<string>, host: Host): (r: Pick)
    ensures r.Picked? ==> r.process in processes
    ensures r.Refused? <==> (path.None? && !host.windows) || (path.Some? && !host.fileExists(CleanPath(path.value, host.windows)))
  {
    match path
    case None => if host.windows then Threw else Refused
    case Some(p) =>
      var clean := CleanPath(p, host.windows);
      if !host.fileExists(clean) then Refused
      else ReadEditorProcess(processes, host.editorProcessId(EditorInstanceFileAsWritten(clean)))
  }

  /** The tail of the choice: the process with the id the file gave, throwing when the
      file gave none or no process has it. */
  function ReadEditorProcess(processes: seq<UnityProcess>, id: Option<int>): (r: Pick)
    ensures r.Picked? <==> id.Some? && FirstWithId(processes, id.value).Some?
    ensures r.Picked? ==> r.process in processes && r.process.id == id.value
    ensures r.Picked? ==> exists k :: 0 <= k < |processes| && processes[k] == r.process &&
                                      forall j :: 0 <= j < k ==> processes[j].id != id.value
    ensures !r.Refused?
  {
    match id
    case None => Threw
    case Some(n) =>
      match FirstWithId(processes, n)
      case None => Threw
      case Some(process) => Picked(process)
  }

  /** `PickEditor` corrected: the process id is read from the file whose existence was
      checked, so the editor picked is the one that file names. */
  function PickEditorCorrected(processes: seq<UnityProcess>, path: Option<string>, host: Host): (r: Pick)
    ensures r.Refused? <==> (path.None? && !host.windows) || (path.Some? && !host.fileExists(CleanPath(path.value, host.windows)))
    ensures r.Picked? <==>
              && path.Some? && host.fileExists(CleanPath(path.value, host.windows))
              && host.editorProcessId(CleanPath(path.value, host.windows)).Some?
              && FirstWithId(processes, host.editorProcessId(CleanPath(path.value, host.windows)).value).Some?
    ensures r.Picked? ==>
              r.process in processes && r.process.id == host.editorProcessId(CleanPath(path.value, host.windows)).value
  {
    match path
    case None => if host.windows then Threw else Refused
    case Some(p) =>
      var clean := CleanPath(p, host.windows);
      if !host.fileExists(clean) then Refused
      else ReadEditorProcess(processes, host.editorProcessId(clean))
  }

  /** On Windows the cleaned path has no leading slash left, so the code and the
      correction choose alike. */
  lemma PickEditorWindowsAgrees(processes: seq<UnityProcess>, path: Option<string>, host: Host)
    requires host.windows
    ensures PickEditor(processes, path, host) == PickEditorCorrected(processes, path, host)
  {
    if path.Some? {
      TrimSlashesIdempotent(path.value);
    }
  }

  /** On Unix, for an absolute path whose relative twin does not exist, on a host that
      reads ids only from files that exist: the code never picks an editor, and throws
      whenever the checked file exists, even when the corrected choice picks the process
      that file names. */
  lemma PickEditorUnixThrows(processes: seq<UnityProcess>, p: string, host: Host)
    requires !host.windows && |p| > 0 && p[0] == '/'
    requires !host.fileExists(TrimSlashes(p))
    requires forall f :: host.editorProcessId(f).Some? ==> host.fileExists(f)
    ensures !PickEditor(processes, Some(p), host).Picked?
    ensures host.fileExists(p) ==> PickEditor(processes, Some(p), host) == Threw
    ensures PickEditorCorrected(processes, Some(p), host).Picked? ==> PickEditor(processes, Some(p), host) == Threw
  {
    assert host.editorProcessId(TrimSlashes(p)).None?;
  }

  /** `Connect`: run the engine session (a disposed one throws) and count it as executing. */
  function Connect(s: State): (o: Outcome)
    ensures o.faulted <==> s.debuggee.None?
    ensures !o.faulted ==> o.state.executing && o.state.debuggee.Some? && o.state.debuggee.value.running && o.sent == [Issue(Run)]
    ensures o.state == s.(debuggee := o.state.debuggee, executing := o.state.executing)
  {
    match s.debuggee
    case None => Outcome(s, [], true)
    case Some(d) => Outcome(s.(debuggee := Some(d.(running := true)), executing := true), [Issue(Run)], false)
  }

  /** The responses among what was sent, in order. */
  function Responses(sent: seq<Sent>): (r: seq<Sent>)
    ensures |r| <= |sent|
    ensures forall i :: 0 <= i < |r| ==> r[i].Respond? || r[i].RespondError?
  {
    if |sent| == 0 then []
    else (if sent[0].Respond? || sent[0].RespondError? then [sent[0]] else []) + Responses(sent[1..])
  }

  lemma {:induction false} ResponsesAppend(a: seq<Sent>, b: seq<Sent>)
    ensures Responses(a + b) == Responses(a) + Responses(b)
    decreases |a|
  {
    if |a| == 0 {
      assert a + b == b;
    } else {
      assert (a + b)[1..] == a[1..] + b;
      ResponsesAppend(a[1..], b);
    }
  }

  /** Events and commands are not responses. */
  lemma {:induction false} NoResponses(sent: seq<Sent>)
    requires forall i :: 0 <= i < |sent| ==> sent[i].Emit? || sent[i].Issue?
    ensures Responses(sent) == []
    decreases |sent|
  {
    if |sent| > 0 {
      NoResponses(sent[1..]);
    }
  }

  /** Which process to attach to among a non-empty list: the only one; none when several
      match a target that is not an editor; otherwise the editor whose instance file names
      it. */
  function Choose(processes: seq<UnityProcess>, name: string, path: Option<string>, host: Host): (r: Pick)
    requires |processes| > 0
    ensures |processes| == 1 ==> r == Picked(processes[0])
    ensures |processes| > 1 && !Contains(name, "Editor") ==> r == Refused
    ensures r.Picked? ==> r.process in processes
  {
    if |processes| == 1 then Picked(processes[0])
    else if !Contains(name, "Editor") then Refused
    else PickEditor(processes, GetString(path, None), host)
  }

  /** Acting on the choice: refuse with the process list, throw, or connect and answer. */
  function Finish(st: State, name: string, processes: seq<UnityProcess>, pick: Pick): (o: Outcome)
    ensures o.state == st.(debuggee := o.state.debuggee, executing := o.state.executing)
  {
    match pick
    case Refused => Outcome(st, TooManyInstances(name, processes), false)
    case Threw => Outcome(st, [], true)
    case Picked(process) =>
      var k := Connect(st);
      if k.faulted then Outcome(k.state, [], true)
      else
        var attached := SendOutput("stdout", Some("UnityDebug: Attached to Unity process '" + process.name + "' (" + IntToDecimal(process.id) + ")\n"));
        Outcome(k.state, k.sent + attached + [Respond(NoBody)], false)
  }

  /** What attach does once the name is known: look for the processes, choose one or
      refuse, and connect. */
  function AttachTo(st: State, name: string, path: Option<string>, host: Host): (o: Outcome)
    ensures o.state == st.(debuggee := o.state.debuggee, executing := o.state.executing)
  {
    var processes := GetAttachableProcesses(name, host.discover);
    if |processes| == 0 then Outcome(st, [RespondError(8001, NotFoundFormat, Some(name))], false)
    else Finish(st, name, processes, Choose(processes, name, path, host))
  }

  /** A refusal sends error 8002 and the process list; a connection ends in the one success
      response, with the session running; a throw answers nothing. */
  lemma FinishResponses(st: State, name: string, processes: seq<UnityProcess>, pick: Pick)
    ensures var o := Finish(st, name, processes, pick);
            && (o.faulted <==> pick.Threw? || (st.debuggee.None? && pick.Picked?))
            && (pick.Refused? ==> o.sent == TooManyInstances(name, processes)
                                  && Responses(o.sent) == [RespondError(8002, TooManyFormat, Some(name))])
            && (pick.Picked? && !o.faulted ==>
                  Responses(o.sent) == [Respond(NoBody)]
                  && o.state.executing && o.state.debuggee.Some? && o.state.debuggee.value.running)
  {
    var o := Finish(st, name, processes, pick);
    if pick.Refused? {
      var tm := TooManyInstances(name, processes);
      assert tm == [tm[0]] + tm[1..];
      NoResponses(tm[1..]);
      ResponsesAppend([tm[0]], tm[1..]);
      assert Responses([tm[0]]) == [tm[0]] by { assert [tm[0]][1..] == []; }
    } else if pick.Picked? {
      var k := Connect(st);
      if !k.faulted {
        var attached := SendOutput("stdout", Some("UnityDebug: Attached to Unity process '" + pick.process.name + "' (" + IntToDecimal(pick.process.id) + ")\n"));
        assert o.sent == k.sent + attached + [Respond(NoBody)];
        NoResponses(k.sent + attached);
        ResponsesAppend(k.sent + attached, [Respond(NoBody)]);
        assert Responses([Respond(NoBody)]) == [Respond(NoBody)] by { assert [Respond(NoBody)][1..] == []; }
      }
    }
  }

  /** Once the name is known, attach answers exactly once unless it throws: error 8001
      exactly when no process matches, error 8002 with the list of processes when several
      match a target that is not an editor, and success only after connecting to one
      matching process. */
  lemma AttachToOutcomes(st: State, name: string, path: Option<string>, host: Host)
    ensures var o := AttachTo(st, name, path, host);
            var processes := GetAttachableProcesses(name, host.discover);
            && (!o.faulted ==> |Responses(o.sent)| == 1)
            && (|processes| == 0 <==> !o.faulted && Responses(o.sent) == [RespondError(8001, NotFoundFormat, Some(name))])
            && (|processes| > 1 && !Contains(name, "Editor") ==>
                  !o.faulted && o.sent == TooManyInstances(name, processes))
            && (!o.faulted && Responses(o.sent) == [Respond(NoBody)] ==>
                  && o.state.executing && o.state.debuggee.Some? && o.state.debuggee.value.running
                  && (|processes| == 1 || Contains(name, "Editor")))
  {
    var processes := GetAttachableProcesses(name, host.discover);
    if |processes| == 0 {
      var e := [RespondError(8001, NotFoundFormat, Some(name))];
      assert Responses(e) == e by { assert e[1..] == []; }
    } else {
      FinishResponses(st, name, processes, Choose(processes, name, path, host));
    }
  }

  /** The discrepancy at the handler: on Unix, with several processes of an editor target
      and an absolute instance-file path whose relative twin does not exist, attach throws
      and answers nothing, while choosing with the correction connects to the process the
      checked file names and answers with success. */
  lemma AttachToEditorThrows(st: State, name: string, path: Option<string>, host: Host)
    requires GetString(path, None).Some?
    requires var p := GetString(path, None).value;
             !host.windows && |p| > 0 && p[0] == '/' && host.fileExists(p) && !host.fileExists(TrimSlashes(p))
    requires forall f :: host.editorProcessId(f).Some? ==> host.fileExists(f)
    requires |GetAttachableProcesses(name, host.discover)| > 1 && Contains(name, "Editor")
    ensures var o := AttachTo(st, name, path, host);
            o.faulted && o.sent == [] && o.state == st
    ensures var processes := GetAttachableProcesses(name, host.discover);
            var p := GetString(path, None).value;
            var pick := PickEditorCorrected(processes, Some(p), host);
            st.debuggee.Some? && host.editorProcessId(p).Some? && FirstWithId(processes, host.editorProcessId(p).value).Some? ==>
              pick.Picked? && Responses(Finish(st, name, processes, pick).sent) == [Respond(NoBody)]
  {
    var processes := GetAttachableProcesses(name, host.discover);
    var p := GetString(path, None).value;
    PickEditorUnixThrows(processes, p, host);
    FinishResponses(st, name, processes, PickEditorCorrected(processes, Some(p), host));
  }

  /** The output attach starts with, whatever the name. */
  function Searching(name: Option<string>): (sent: seq<Sent>)
    ensures |sent| == 1 && sent[0].Emit?
  {
    SendOutput("stdout", Some("UnityDebug: Searching for Unity process '" + OrEmpty(name) + "'"))
  }

  /** A Unix host with two processes named "Editor" whose instance file exists only as
      "/p", the absolute path, and names the first of them. */
  function ExampleHost(): Host {
    Host(false, (o: ProcessOptions) => [UnityProcess(1, "Editor"), UnityProcess(2, "Editor")],
         (f: string) => f == "/p", (f: string) => if f == "/p" then Some(1) else None)
  }

  /** The lemma above applies: that host, the name "Editor" and the path "/p" meet all its
      requirements. */
  lemma AttachToEditorThrowsApplies()
    ensures var host := ExampleHost();
            && GetString(Some("/p"), None) == Some("/p")
            && !host.windows && host.fileExists("/p") && !host.fileExists(TrimSlashes("/p"))
            && (forall f :: host.editorProcessId(f).Some? ==> host.fileExists(f))
            && |GetAttachableProcesses("Editor", host.discover)| > 1 && Contains("Editor", "Editor")
  {
    ExamplePath();
    ExampleHostHasTwoEditors();
    hide GetString, TrimSlashes, GetAttachableProcesses, Contains;
  }

  /** The path "/p" is kept as it is, and trimming its slashes changes it. */
  lemma ExamplePath()
    ensures GetString(Some("/p"), None) == Some("/p") && TrimSlashes("/p") != "/p"
  {
    TrimOfTrimmed("/p");
    assert "/p"[0] == '/';
  }

  /** The name "Editor" finds both of the example host's processes. */
  lemma ExampleHostHasTwoEditors()
    ensures |GetAttachableProcesses("Editor", ExampleHost().discover)| > 1 && Contains("Editor", "Editor")
  {
    assert OccursAt("Editor", "Editor", 0);
    IndexOfFirst("Editor", "Editor");
    EditorIsUnknownTarget();
    var procs := ExampleHost().discover(All);
    var r := GetAttachableProcesses("Editor", ExampleHost().discover);
    assert procs[0] in r && procs[1] in r && procs[0] != procs[1];
  }

  /** The `attach` handler: catchpoints first, then the search. A null name throws when
      the process list is computed, after the search output. */
  function AttachHandler(s: State, args: AttachArgs, host: Host): (o: Outcome)
    ensures var c := SetExceptionBreakpoints(s, args.exceptionOptions);
            !o.faulted ==> o.state == c.state.(debuggee := o.state.debuggee, executing := o.state.executing)
  {
    var c := SetExceptionBreakpoints(s, args.exceptionOptions);
    if c.faulted then c
    else
      var name := GetString(args.name, None);
      if name.None? then Outcome(c.state, Searching(name), true)
      else
        var t := AttachTo(c.state, name.value, args.path, host);
        Outcome(t.state, Searching(name) + t.sent, t.faulted)
  }

  /** Attach throws for a missing name, and otherwise answers as `AttachTo` does, after
      the search output. */
  lemma AttachOutcomes(s: State, args: AttachArgs, host: Host)
    ensures var o := AttachHandler(s, args, host);
            var c := SetExceptionBreakpoints(s, args.exceptionOptions);
            var name := GetString(args.name, None);
            && (name.None? ==> o.faulted)
            && (!c.faulted && name.Some? ==>
                  var t := AttachTo(c.state, name.value, args.path, host);
                  o.faulted == t.faulted && Responses(o.sent) == Responses(t.sent) && o.state == t.state)
  {
    var name := GetString(args.name, None);
    var c := SetExceptionBreakpoints(s, args.exceptionOptions);
    AttachHandlerCases(s, args, host);
    hide AttachHandler, AttachTo, SetExceptionBreakpoints, Searching, GetString;
    if !c.faulted && name.Some? {
      var t := AttachTo(c.state, name.value, args.path, host);
      NoResponses(Searching(name));
      ResponsesAppend(Searching(name), t.sent);
    }
  }

  /** How the handler's result is made of the catchpoint step and `AttachTo`. */
  lemma AttachHandlerCases(s: State, args: AttachArgs, host: Host)
    ensures var o := AttachHandler(s, args, host);
            var c := SetExceptionBreakpoints(s, args.exceptionOptions);
            var name := GetString(args.name, None);
            && (c.faulted || name.None? ==> o.faulted)
            && (!c.faulted && name.Some? ==>
                  var t := AttachTo(c.state, name.value, args.path, host);
                  o == Outcome(t.state, Searching(name) + t.sent, t.faulted))
  {
  }
}

=== FILE: breakpoints.dfy ===
/**
 The `setBreakpoints` request: validate the path, drop the remembered line
 breakpoints of that file the request no longer lists (all of them when the
 source was modified), then register the requested lines in order, adding
 the missing ones to the engine's store and updating the condition of the
 ones already there.
 */
module Breakpoints {
  import opened Wrappers
  import opened Text
  import opened Engine
  import opened Protocol
  import opened Session

  /** One requested breakpoint. */
  datatype SourceBreakpoint = SourceBreakpoint(line: int, column: int, condition: Option<string>, logMessage: Option<string>)

  /** The arguments as they arrive: `source` is None when there is no source object and
      Some(None) when it has no string path; None for `breakpoints` or `sourceModified`
      means the property is missing. */
  datatype Args = Args(source: Option<Option<string>>, breakpoints: Option<seq<SourceBreakpoint>>, sourceModified: Option<bool>)

  const MissingSourceMessage: string := "setBreakpoints: property 'source' is empty or misformed"

  /** The message of the `NullReferenceException` a call on a disposed engine session raises. */
  const NullReferenceMessage: string := "Object reference not set to an instance of an object."

  /** The path the request names: present, and not only white space. It is kept as given,
      untrimmed. */
  function RequestedPath(source: Option<Option<string>>): (r: Option<string>)
    ensures r.Some? <==> source.Some? && source.value.Some? && !AllWhiteSpace(source.value.value)
    ensures r.Some? ==> r.value == source.value.value
  {
    if source.Some? && source.value.Some? && |Trim(source.value.value)| > 0 then source.value else None
  }

  /** The requested lines, in order. */
  function Lines(bps: seq<SourceBreakpoint>): (r: seq<int>)
    ensures |r| == |bps| && forall i :: 0 <= i < |bps| ==> r[i] == bps[i].line
  {
    if |bps| == 0 then [] else Lines(bps[..|bps| - 1]) + [bps[|bps| - 1].line]
  }

  // ----- pruning -----

  /** The store and the file's line table after pruning. */
  datatype Pruned = Pruned(store: Store, table: map<int, nat>)

  /** Remove from the store and the file's table every remembered line the request does
      not list, or every line when the source was modified. */
  function Prune(store: Store, table: map<int, nat>, lines: seq<int>, sourceModified: bool): (r: Pruned)
    ensures forall l :: l in r.table <==> l in table && l in lines && !sourceModified
    ensures forall l :: l in r.table ==> r.table[l] == table[l]
    ensures forall k :: k in r.store.entries <==>
              k in store.entries && !(exists l :: l in table && (sourceModified || l !in lines) && table[l] == k)
    ensures forall k :: k in r.store.entries ==> r.store.entries[k] == store.entries[k]
    ensures r.store.next == store.next && (store.Valid() ==> r.store.Valid())
  {
    var removed := set l | l in table && (sourceModified || l !in lines) :: table[l];
    Pruned(RemoveIds(store, removed), map l | l in table && l in lines && !sourceModified :: table[l])
  }

  // ----- registering -----

  /** The state of the registration loop: the store, the file's line table, the statuses
      collected so far and the error responses sent so far. */
  datatype Reg = Reg(store: Store, table: map<int, nat>, statuses: seq<BreakpointStatus>, sent: seq<Sent>)

  /** One iteration: a line not yet in the table is added to the store, or reported with
      error 3011 and an unverified status when the engine refuses it (`addError` gives the
      exception's message); a line already there gets the new condition. */
  function RegisterOne(path: string, addError: (string, int) -> Option<string>, r: Reg, bp: SourceBreakpoint): (q: Reg)
    ensures |q.statuses| == |r.statuses| + 1 && q.statuses[..|r.statuses|] == r.statuses
    ensures var st := q.statuses[|r.statuses|];
            st.line == bp.line && st.column == bp.column && (st.verified <==> bp.line in q.table)
    ensures forall l :: l in r.table ==> l in q.table && q.table[l] == r.table[l]
  {
    if bp.line !in r.table then
      match addError(path, bp.line)
      case Some(msg) =>
        Reg(r.store, r.table, r.statuses + [BreakpointStatus(false, bp.line, bp.column, Some(msg))],
            r.sent + [RespondError(3011, "setBreakpoints: " + msg, None)])
      case None =>
        var ins := Insert(r.store, LineBreakpoint(path, bp.line, bp.condition));
        Reg(ins.store, r.table[bp.line := ins.id], r.statuses + [BreakpointStatus(true, bp.line, bp.column, bp.logMessage)], r.sent)
    else
      Reg(SetCondition(r.store, r.table[bp.line], bp.condition), r.table,
          r.statuses + [BreakpointStatus(true, bp.line, bp.column, bp.logMessage)], r.sent)
  }

  /** The loop over the requested breakpoints, in order. */
  function RegisterAll(path: string, addError: (string, int) -> Option<string>, r: Reg, bps: seq<SourceBreakpoint>): (q: Reg)
    ensures |q.statuses| == |r.statuses| + |bps| && q.statuses[..|r.statuses|] == r.statuses
    decreases |bps|
  {
    if |bps| == 0 then r
    else
      var p := RegisterAll(path, addError, r, bps[..|bps| - 1]);
      RegisterOne(path, addError, p, bps[|bps| - 1])
  }

  /** What `m_Session.Breakpoints.Add` does for a line: the engine's answer while the
      session lives; once it has been disposed, every call throws a null reference. */
  function EngineAdd(s: State, addError: (string, int) -> Option<string>): (string, int) -> Option<string> {
    if s.debuggee.Some? then addError else (p: string, l: int) => Some(NullReferenceMessage)
  }

  /** Pruning has to remove a remembered line of the file from the engine. */
  predicate Drops(s: State, path: string, lines: seq<int>, sourceModified: bool) {
    path in s.breakpoints && exists l :: l in s.breakpoints[path] && (sourceModified || l !in lines)
  }

  /** The `setBreakpoints` handler. On a disposed engine session `Remove` throws at the
      first remembered line it has to drop, before anything has changed. */
  function SetBreakpoints(s: State, args: Args, addError: (string, int) -> Option<string>): (o: Outcome)
    ensures o.faulted ==> o.state == s && o.sent == []
    ensures !o.faulted ==> |o.sent| >= 1 && (o.sent[|o.sent| - 1].Respond? || o.sent[|o.sent| - 1].RespondError?)
  {
    match RequestedPath(args.source)
    case None => Outcome(s, [RespondError(3010, MissingSourceMessage, None)], false)
    case Some(path) =>
      if !HasMonoExtension(path) then Outcome(s, [Respond(BreakpointsBody([]))], false)
      else if args.breakpoints.None? || args.sourceModified.None? then Outcome(s, [], true)
      else if s.debuggee.None? && Drops(s, path, Lines(args.breakpoints.value), args.sourceModified.value) then
        Outcome(s, [], true)
      else
        var q := Register(s, args, addError);
        Outcome(s.(store := q.store, breakpoints := s.breakpoints[path := q.table]),
                q.sent + [Respond(BreakpointsBody(q.statuses))], false)
  }

  /** The file's table before registration: the pruned remembered one, or a new empty one. */
  function Start(s: State, path: string, lines: seq<int>, sourceModified: bool): (r: Pruned)
    ensures forall l :: l in r.table <==> path in s.breakpoints && l in s.breakpoints[path] && l in lines && !sourceModified
    ensures forall l :: l in r.table ==> r.table[l] == s.breakpoints[path][l]
    ensures r.store.next == s.store.next
    ensures forall k :: k in r.store.entries ==> k in s.store.entries && r.store.entries[k] == s.store.entries[k]
  {
    if path in s.breakpoints then Prune(s.store, s.breakpoints[path], lines, sourceModified)
    else Pruned(s.store, map[])
  }

  // ----- what the loop does -----

  /** Whether a line ends up with a breakpoint: it was kept, or the engine accepts it. */
  predicate Accepted(path: string, addError: (string, int) -> Option<string>, kept: map<int, nat>, line: int) {
    line in kept || addError(path, line).None?
  }

  /** The condition the last request for `line` carries, if any request does. */
  function LastCondition(bps: seq<SourceBreakpoint>, line: int): (r: Option<Option<string>>)
    ensures r.Some? <==> line in Lines(bps)
  {
    if |bps| == 0 then None
    else if bps[|bps| - 1].line == line then Some(bps[|bps| - 1].condition)
    else
      assert Lines(bps) == Lines(bps[..|bps| - 1]) + [bps[|bps| - 1].line];
      LastCondition(bps[..|bps| - 1], line)
  }

  /** The table after the loop holds exactly the kept lines and the requested lines the
      engine accepted; kept lines keep their ids and every new id is fresh. */
  lemma {:induction false} RegisterTable(path: string, addError: (string, int) -> Option<string>, r: Reg, bps: seq<SourceBreakpoint>)
    requires r.store.Valid()
    ensures var q := RegisterAll(path, addError, r, bps);
            && (forall l :: l in q.table <==> l in r.table || (l in Lines(bps) && addError(path, l).None?))
            && (forall l :: l in r.table ==> q.table[l] == r.table[l])
            && (forall l :: l in q.table && l !in r.table ==> q.table[l] >= r.store.next)
            && q.store.Valid() && q.store.next >= r.store.next
    decreases |bps|
  {
    if |bps| > 0 {
      var pre := bps[..|bps| - 1];
      RegisterTable(path, addError, r, pre);
      assert Lines(bps) == Lines(pre) + [bps[|bps| - 1].line];
    }
  }

  /** The `i`-th status answers the `i`-th request: same line and column, verified exactly
      when the line was kept or the engine accepts it, carrying the log message when
      verified and the engine's message when not. */
  lemma {:induction false} RegisterStatuses(path: string, addError: (string, int) -> Option<string>, r: Reg, bps: seq<SourceBreakpoint>)
    requires r.store.Valid()
    ensures var q := RegisterAll(path, addError, r, bps);
            forall i :: 0 <= i < |bps| ==>
              var st := q.statuses[|r.statuses| + i];
              && st.line == bps[i].line && st.column == bps[i].column
              && (st.verified <==> Accepted(path, addError, r.table, bps[i].line))
              && (st.verified ==> st.message == bps[i].logMessage)
              && (!st.verified ==> st.message == addError(path, bps[i].line))
    decreases |bps|
  {
    if |bps| > 0 {
      var pre := bps[..|bps| - 1];
      RegisterStatuses(path, addError, r, pre);
      RegisterTable(path, addError, r, pre);
      var p := RegisterAll(path, addError, r, pre);
      var q := RegisterAll(path, addError, r, bps);
      var last := bps[|bps| - 1];
      assert q == RegisterOne(path, addError, p, last);
      assert q.statuses[..|p.statuses|] == p.statuses;
      forall i | 0 <= i < |bps|
        ensures var st := q.statuses[|r.statuses| + i];
                && st.line == bps[i].line && st.column == bps[i].column
                && (st.verified <==> Accepted(path, addError, r.table, bps[i].line))
                && (st.verified ==> st.message == bps[i].logMessage)
                && (!st.verified ==> st.message == addError(path, bps[i].line))
      {
        if i < |pre| {
          assert q.statuses[|r.statuses| + i] == p.statuses[|r.statuses| + i];
          assert bps[i] == pre[i];
        } else {
          assert last.line in p.table <==> last.line in r.table || (last.line in Lines(pre) && addError(path, last.line).None?);
        }
      }
    }
  }

  /** Every error the loop sends is a 3011 response, one per unverified status. */
  lemma {:induction false} RegisterErrors(path: string, addError: (string, int) -> Option<string>, r: Reg, bps: seq<SourceBreakpoint>)
    ensures var q := RegisterAll(path, addError, r, bps);
            && |q.sent| - |r.sent| == Unverified(q.statuses[|r.statuses|..])
            && q.sent[..|r.sent|] == r.sent
            && forall k :: |r.sent| <= k < |q.sent| ==> q.sent[k].RespondError? && q.sent[k].code == 3011
    decreases |bps|
  {
    if |bps| > 0 {
      var pre := bps[..|bps| - 1];
      RegisterErrors(path, addError, r, pre);
      var p := RegisterAll(path, addError, r, pre);
      var q := RegisterAll(path, addError, r, bps);
      assert q == RegisterOne(path, addError, p, bps[|bps| - 1]);
      var lastStatus := q.statuses[|q.statuses| - 1];
      assert Unverified([lastStatus]) == if lastStatus.verified then 0 else 1;
      hide RegisterAll, RegisterOne, Unverified;
      RegisterOneErrors(path, addError, p, bps[|bps| - 1]);
      assert q.statuses[|r.statuses|..] == p.statuses[|r.statuses|..] + [lastStatus];
      UnverifiedAppend(p.statuses[|r.statuses|..], [lastStatus]);
    }
  }

  /** One breakpoint adds one status, and a 3011 error exactly when that status is unverified. */
  lemma RegisterOneErrors(path: string, addError: (string, int) -> Option<string>, p: Reg, bp: SourceBreakpoint)
    ensures var q := RegisterOne(path, addError, p, bp);
            && |q.statuses| == |p.statuses| + 1 && q.statuses[..|p.statuses|] == p.statuses
            && q.sent[..|p.sent|] == p.sent
            && |q.sent| - |p.sent| == (if q.statuses[|p.statuses|].verified then 0 else 1)
            && forall k :: |p.sent| <= k < |q.sent| ==> q.sent[k].RespondError? && q.sent[k].code == 3011
  {
  }

  /** How many statuses are unverified. */
  function Unverified(sts: seq<BreakpointStatus>): nat {
    if |sts| == 0 then 0 else Unverified(sts[..|sts| - 1]) + (if sts[|sts| - 1].verified then 0 else 1)
  }

  lemma {:induction false} UnverifiedAppend(a: seq<BreakpointStatus>, b: seq<BreakpointStatus>)
    ensures Unverified(a + b) == Unverified(a) + Unverified(b)
    decreases |b|
  {
    if |b| > 0 {
      assert (a + b)[..|a + b| - 1] == a + b[..|b| - 1];
      UnverifiedAppend(a, b[..|b| - 1]);
    } else {
      assert a + b == a;
    }
  }

  /** The entries the loop leaves: those it did not touch are as they were; an entry of the
      file's table keeps its path and line and only its condition changes; new entries are
      line breakpoints of the file. */
  ghost predicate Touched(path: string, a: Entry, b: Entry) {
    a == b || (a.LineBreakpoint? && a.path == path && b.LineBreakpoint? && b.path == path && b.line == a.line)
  }

  /** The file's table describes its store entries: each line's id is a line breakpoint
      of this file at that line. */
  ghost predicate Describes(store: Store, path: string, table: map<int, nat>) {
    forall l :: l in table ==>
      table[l] in store.entries && store.entries[table[l]].LineBreakpoint?
      && store.entries[table[l]].path == path && store.entries[table[l]].line == l
  }

  /** One iteration keeps the table describing the store, touches only this file's
      entries, gives the requested line the request's condition and leaves every other
      line's entry as it was. */
  lemma RegisterOneStore(path: string, addError: (string, int) -> Option<string>, p: Reg, bp: SourceBreakpoint)
    requires p.store.Valid() && Describes(p.store, path, p.table)
    ensures var q := RegisterOne(path, addError, p, bp);
            && Describes(q.store, path, q.table)
            && (forall k :: k in p.store.entries ==> k in q.store.entries && Touched(path, p.store.entries[k], q.store.entries[k]))
            && (forall k :: k in q.store.entries && k !in p.store.entries ==>
                  k >= p.store.next && q.store.entries[k].LineBreakpoint? && q.store.entries[k].path == path)
            && (bp.line in q.table ==> q.store.entries[q.table[bp.line]].condition == bp.condition)
            && (forall l :: l in p.table && l != bp.line ==> q.store.entries[q.table[l]] == p.store.entries[p.table[l]])
  {
  }

  /** The loop keeps the table describing the store, touches no entry outside the file,
      and leaves each line's entry with the condition of the last request for it. */
  lemma {:induction false} RegisterStore(path: string, addError: (string, int) -> Option<string>, r: Reg, bps: seq<SourceBreakpoint>)
    requires r.store.Valid() && Describes(r.store, path, r.table)
    ensures var q := RegisterAll(path, addError, r, bps);
            && Describes(q.store, path, q.table)
            && (forall k :: k in r.store.entries ==> k in q.store.entries && Touched(path, r.store.entries[k], q.store.entries[k]))
            && (forall k :: k in q.store.entries && k !in r.store.entries ==>
                  k >= r.store.next && q.store.entries[k].LineBreakpoint? && q.store.entries[k].path == path)
            && (forall l :: l in q.table && LastCondition(bps, l).Some? ==>
                  q.store.entries[q.table[l]].condition == LastCondition(bps, l).value)
    decreases |bps|
  {
    if |bps| > 0 {
      var pre := bps[..|bps| - 1];
      RegisterStore(path, addError, r, pre);
      RegisterTable(path, addError, r, pre);
      var p := RegisterAll(path, addError, r, pre);
      var q := RegisterAll(path, addError, r, bps);
      var last := bps[|bps| - 1];
      assert q == RegisterOne(path, addError, p, last);
      RegisterOneStore(path, addError, p, last);
      hide RegisterAll, RegisterOne;
      forall l | l in q.table && LastCondition(bps, l).Some?
        ensures q.store.entries[q.table[l]].condition == LastCondition(bps, l).value
      {
        if l != last.line {
          assert q.table[l] == p.table[l];
          assert LastCondition(bps, l) == LastCondition(pre, l);
        }
      }
    }
  }

  // ----- the handler -----

  /** The error paths: a missing or blank path is answered with error 3010, a file Mono
      cannot handle with an empty list, and missing `breakpoints` or `sourceModified`
      properties throw; none of them changes the session. */
  lemma SetBreakpointsRejects(s: State, args: Args, addError: (string, int) -> Option<string>)
    ensures var o := SetBreakpoints(s, args, addError);
            && (RequestedPath(args.source).None? ==> o.sent == [RespondError(3010, MissingSourceMessage, None)] && !o.faulted)
            && (RequestedPath(args.source).Some? && !HasMonoExtension(RequestedPath(args.source).value) ==>
                  o.sent == [Respond(BreakpointsBody([]))] && !o.faulted)
            && (o.faulted <==> RequestedPath(args.source).Some? && HasMonoExtension(RequestedPath(args.source).value)
                               && (args.breakpoints.None? || args.sourceModified.None? || ThrowsDisposed(s, args)))
            && (o.faulted || RequestedPath(args.source).None? || !HasMonoExtension(RequestedPath(args.source).value) ==> o.state == s)
  {
  }

  /** A request that gets as far as the registration loop. */
  predicate WellFormed(args: Args) {
    RequestedPath(args.source).Some? && HasMonoExtension(RequestedPath(args.source).value)
    && args.breakpoints.Some? && args.sourceModified.Some?
  }

  /** The registration loop of a well-formed request, run on the pruned table. */
  function Register(s: State, args: Args, addError: (string, int) -> Option<string>): Reg
    requires WellFormed(args)
  {
    var path := RequestedPath(args.source).value;
    var pr := Start(s, path, Lines(args.breakpoints.value), args.sourceModified.value);
    RegisterAll(path, EngineAdd(s, addError), Reg(pr.store, pr.table, [], []), args.breakpoints.value)
  }

  /** A well-formed request that a disposed engine session throws on. */
  predicate ThrowsDisposed(s: State, args: Args)
    requires WellFormed(args)
  {
    s.debuggee.None? && Drops(s, RequestedPath(args.source).value, Lines(args.breakpoints.value), args.sourceModified.value)
  }

  /** The lines whose breakpoints are kept: remembered before, requested again, and the
      source not modified. */
  function Kept(s: State, args: Args): (k: map<int, nat>)
    requires WellFormed(args)
    ensures var path := RequestedPath(args.source).value;
            forall l :: l in k <==> path in s.breakpoints && l in s.breakpoints[path]
                                    && l in Lines(args.breakpoints.value) && !args.sourceModified.value
  {
    Start(s, RequestedPath(args.source).value, Lines(args.breakpoints.value), args.sourceModified.value).table
  }

  /** A well-formed request throws, changing nothing, exactly when the engine session is
      disposed and a remembered line has to go; otherwise it stores the loop's table under
      its path and the loop's store, and sends the loop's errors followed by the statuses. */
  lemma SetBreakpointsHandled(s: State, args: Args, addError: (string, int) -> Option<string>)
    requires WellFormed(args)
    ensures var o := SetBreakpoints(s, args, addError);
            && (o.faulted <==> ThrowsDisposed(s, args))
            && (o.faulted ==> o == Outcome(s, [], true))
            && (!o.faulted ==>
                  var q := Register(s, args, addError);
                  o == Outcome(s.(store := q.store, breakpoints := s.breakpoints[RequestedPath(args.source).value := q.table]),
                               q.sent + [Respond(BreakpointsBody(q.statuses))], false))
  {
  }

  /** The file's table after a handled request holds exactly the requested lines that were
      kept or that `Add` accepted; kept lines keep their breakpoint and new lines get fresh
      ones, so a modified source gets only fresh ones; no other file's table changes. */
  lemma SetBreakpointsTable(s: State, args: Args, addError: (string, int) -> Option<string>)
    requires Consistent(s) && WellFormed(args)
    ensures var path := RequestedPath(args.source).value;
            var kept := Kept(s, args);
            var t := SetBreakpoints(s, args, addError).state;
            && (ThrowsDisposed(s, args) ==> t == s)
            && (!ThrowsDisposed(s, args) ==>
                  && path in t.breakpoints
                  && (forall l :: l in t.breakpoints[path] <==>
                        l in Lines(args.breakpoints.value) && Accepted(path, EngineAdd(s, addError), kept, l))
                  && (forall l :: l in kept ==> t.breakpoints[path][l] == kept[l])
                  && (forall l :: l in t.breakpoints[path] && l !in kept ==> t.breakpoints[path][l] !in s.store.entries))
            && (forall p :: p != path ==> (p in t.breakpoints <==> p in s.breakpoints))
            && (forall p :: p != path && p in s.breakpoints ==> t.breakpoints[p] == s.breakpoints[p])
  {
    SetBreakpointsHandled(s, args, addError);
    if !ThrowsDisposed(s, args) {
      var path := RequestedPath(args.source).value;
      var bps := args.breakpoints.value;
      var pr := Start(s, path, Lines(bps), args.sourceModified.value);
      var r := Reg(pr.store, pr.table, [], []);
      RegisterTable(path, EngineAdd(s, addError), r, bps);
      var q := Register(s, args, addError);
      forall l | l in q.table && l !in pr.table
        ensures q.table[l] !in s.store.entries
      {
        assert q.table[l] >= s.store.next;
      }
    }
  }

  /** What a handled request sends: a response last, with one status per request, in
      order: same line and column, verified exactly when the line was kept or the engine
      accepts it, with the log message when verified and the engine's message when not;
      before it, one 3011 error per unverified status. */
  ghost predicate Answers(path: string, bps: seq<SourceBreakpoint>, kept: map<int, nat>,
                          addError: (string, int) -> Option<string>, sent: seq<Sent>) {
    && |sent| >= 1 && sent[|sent| - 1].Respond? && sent[|sent| - 1].body.BreakpointsBody?
    && var sts := sent[|sent| - 1].body.breakpoints;
    && |sts| == |bps|
    && (forall i :: 0 <= i < |bps| ==>
          && sts[i].line == bps[i].line && sts[i].column == bps[i].column
          && (sts[i].verified <==> Accepted(path, addError, kept, bps[i].line))
          && (sts[i].verified ==> sts[i].message == bps[i].logMessage)
          && (!sts[i].verified ==> sts[i].message == addError(path, bps[i].line)))
    && |sent| - 1 == Unverified(sts)
    && (forall k :: 0 <= k < |sent| - 1 ==> sent[k].RespondError? && sent[k].code == 3011)
  }

  /** The loop, run from no statuses and no errors, produces what `Answers` describes. */
  lemma RegisterAnswers(path: string, addError: (string, int) -> Option<string>, store: Store, table: map<int, nat>, bps: seq<SourceBreakpoint>)
    requires store.Valid()
    ensures var q := RegisterAll(path, addError, Reg(store, table, [], []), bps);
            Answers(path, bps, table, addError, q.sent + [Respond(BreakpointsBody(q.statuses))])
  {
    hide RegisterAll, Accepted, Unverified;
    var r := Reg(store, table, [], []);
    RegisterStatuses(path, addError, r, bps);
    RegisterErrors(path, addError, r, bps);
    var q := RegisterAll(path, addError, r, bps);
    assert q.statuses[0..] == q.statuses;
    var sent := q.sent + [Respond(BreakpointsBody(q.statuses))];
    assert sent[|sent| - 1].body.breakpoints == q.statuses;
    assert forall k :: 0 <= k < |sent| - 1 ==> sent[k] == q.sent[k];
  }

  /** A well-formed request answers every requested breakpoint as `Answers` describes, with
      what `Add` does on the session at hand, unless a disposed session throws. */
  lemma SetBreakpointsStatuses(s: State, args: Args, addError: (string, int) -> Option<string>)
    requires Consistent(s) && WellFormed(args)
    ensures var o := SetBreakpoints(s, args, addError);
            && (o.faulted <==> ThrowsDisposed(s, args))
            && (!o.faulted ==>
                  Answers(RequestedPath(args.source).value, args.breakpoints.value, Kept(s, args), EngineAdd(s, addError), o.sent))
  {
    SetBreakpointsHandled(s, args, addError);
    if !ThrowsDisposed(s, args) {
      var path := RequestedPath(args.source).value;
      var bps := args.breakpoints.value;
      var pr := Start(s, path, Lines(bps), args.sourceModified.value);
      RegisterAnswers(path, EngineAdd(s, addError), pr.store, pr.table, bps);
    }
  }

  /** The conditions the engine holds: every breakpoint of the file carries the condition
      of the last request for its line. */
  lemma SetBreakpointsConditions(s: State, args: Args, addError: (string, int) -> Option<string>)
    requires Consistent(s) && WellFormed(args)
    ensures var path := RequestedPath(args.source).value;
            var t := SetBreakpoints(s, args, addError).state;
            !ThrowsDisposed(s, args) ==>
            && path in t.breakpoints
            && forall l :: l in t.breakpoints[path] ==>
                 var c := LastCondition(args.breakpoints.value, l);
                 && c.Some? && t.breakpoints[path][l] in t.store.entries
                 && t.store.entries[t.breakpoints[path][l]].LineBreakpoint?
                 && t.store.entries[t.breakpoints[path][l]].condition == c.value
  {
    SetBreakpointsHandled(s, args, addError);
    if !ThrowsDisposed(s, args) {
      var path := RequestedPath(args.source).value;
      var bps := args.breakpoints.value;
      var add := EngineAdd(s, addError);
      var pr := Start(s, path, Lines(bps), args.sourceModified.value);
      var r := Reg(pr.store, pr.table, [], []);
      StartDescribes(s, path, Lines(bps), args.sourceModified.value);
      RegisterTable(path, add, r, bps);
      RegisterStore(path, add, r, bps);
      var q := Register(s, args, addError);
      var t := SetBreakpoints(s, args, addError).state;
      assert t.breakpoints[path] == q.table && t.store == q.store;
      forall l | l in q.table
        ensures LastCondition(bps, l).Some?
      {
        assert l in Lines(bps);
      }
    }
  }

  /** A loop on which every `Add` throws registers nothing: the table and the store's ids
      stay as they were. */
  lemma {:induction false} RegisterRefused(path: string, addError: (string, int) -> Option<string>, r: Reg, bps: seq<SourceBreakpoint>)
    requires forall l :: addError(path, l).Some?
    ensures var q := RegisterAll(path, addError, r, bps);
            q.table == r.table && q.store.entries.Keys == r.store.entries.Keys
    decreases |bps|
  {
    if |bps| > 0 {
      RegisterRefused(path, addError, r, bps[..|bps| - 1]);
      assert addError(path, bps[|bps| - 1].line).Some?;
    }
  }

  /** Once the engine session is disposed, a request that has to drop a remembered line
      throws and changes nothing; any other keeps exactly the file's remembered lines,
      answers each requested line it did not have as unverified with the null-reference
      message, after one error 3011 apiece, and gives the engine no new breakpoint. */
  lemma SetBreakpointsDisposed(s: State, args: Args, addError: (string, int) -> Option<string>)
    requires Consistent(s) && WellFormed(args) && s.debuggee.None?
    ensures var path := RequestedPath(args.source).value;
            var bps := args.breakpoints.value;
            var o := SetBreakpoints(s, args, addError);
            && (o.faulted <==> Drops(s, path, Lines(bps), args.sourceModified.value))
            && (o.faulted ==> o.state == s && o.sent == [])
            && (!o.faulted ==>
                  && o.state.breakpoints[path] == (if path in s.breakpoints then s.breakpoints[path] else map[])
                  && o.state.store.entries.Keys == s.store.entries.Keys
                  && |o.sent| >= 1 && o.sent[|o.sent| - 1].Respond? && o.sent[|o.sent| - 1].body.BreakpointsBody?
                  && var sts := o.sent[|o.sent| - 1].body.breakpoints;
                  && |sts| == |bps|
                  && (forall i :: 0 <= i < |bps| ==>
                        && (sts[i].verified <==> path in s.breakpoints && bps[i].line in s.breakpoints[path])
                        && (!sts[i].verified ==> sts[i].message == Some(NullReferenceMessage)))
                  && |o.sent| - 1 == Unverified(sts))
  {
    var path := RequestedPath(args.source).value;
    var bps := args.breakpoints.value;
    var o := SetBreakpoints(s, args, addError);
    SetBreakpointsHandled(s, args, addError);
    SetBreakpointsStatuses(s, args, addError);
    if !o.faulted {
      var add := EngineAdd(s, addError);
      var pr := Start(s, path, Lines(bps), args.sourceModified.value);
      var q := Register(s, args, addError);
      StartKeepsAll(s, path, Lines(bps), args.sourceModified.value);
      RegisterRefused(path, add, Reg(pr.store, pr.table, [], []), bps);
      assert o.state.breakpoints[path] == q.table && o.state.store == q.store;
      hide SetBreakpoints, Register, RegisterAll, Start;
      forall i | 0 <= i < |bps|
        ensures Accepted(path, add, Kept(s, args), bps[i].line) <==> path in s.breakpoints && bps[i].line in s.breakpoints[path]
        ensures add(path, bps[i].line) == Some(NullReferenceMessage)
      {
      }
    }
  }

  /** The disposed-session lemma above applies to real requests: a fresh session whose
      engine session is gone, asked for a breakpoint in a C# file, meets its requirements
      and takes the branch that answers. */
  lemma SetBreakpointsDisposedApplies()
    ensures var s := Initial().(debuggee := None);
            var args := Args(Some(Some("a.cs")), Some([SourceBreakpoint(3, 0, None, None)]), Some(false));
            && Consistent(s) && WellFormed(args) && s.debuggee.None?
            && !Drops(s, RequestedPath(args.source).value, Lines(args.breakpoints.value), args.sourceModified.value)
  {
    assert !AllWhiteSpace("a.cs") by { assert !IsWhiteSpace("a.cs"[0]); }
    assert EndsWith("a.cs", MonoExtensions[0]) by { assert "a.cs"[|"a.cs"| - 3..] == ".cs"; }
  }

  /** A disposed session that drops no remembered line prunes nothing. */
  lemma StartKeepsAll(s: State, path: string, lines: seq<int>, sourceModified: bool)
    requires !Drops(s, path, lines, sourceModified)
    ensures var pr := Start(s, path, lines, sourceModified);
            && pr.table == (if path in s.breakpoints then s.breakpoints[path] else map[])
            && pr.store.entries.Keys == s.store.entries.Keys
  {
    if path in s.breakpoints {
      var table := s.breakpoints[path];
      var pr := Prune(s.store, table, lines, sourceModified);
      assert forall l :: l in pr.table <==> l in table;
    }
  }

  /** The pruned table describes the pruned store, and pruning only removes entries of
      this file. */
  lemma StartDescribes(s: State, path: string, lines: seq<int>, sourceModified: bool)
    requires Consistent(s)
    ensures var pr := Start(s, path, lines, sourceModified);
            && pr.store.Valid() && Describes(pr.store, path, pr.table) && pr.store.next == s.store.next
            && (forall k :: k in pr.store.entries ==> k in s.store.entries && pr.store.entries[k] == s.store.entries[k])
            && (forall k :: k in s.store.entries && k !in pr.store.entries ==>
                  s.store.entries[k].LineBreakpoint? && s.store.entries[k].path == path)
  {
  }

  /** `setBreakpoints` keeps the session's bookkeeping consistent: every remembered line
      breakpoint, of this file or any other, is still the store's entry for its path and
      line, and every remembered catchpoint is still a catchpoint. */
  lemma SetBreakpointsConsistent(s: State, args: Args, addError: (string, int) -> Option<string>)
    requires Consistent(s)
    ensures Consistent(SetBreakpoints(s, args, addError).state)
  {
    if WellFormed(args) && !ThrowsDisposed(s, args) {
      var path := RequestedPath(args.source).value;
      var bps := args.breakpoints.value;
      var add := EngineAdd(s, addError);
      var pr := Start(s, path, Lines(bps), args.sourceModified.value);
      var r := Reg(pr.store, pr.table, [], []);
      SetBreakpointsHandled(s, args, addError);
      StartDescribes(s, path, Lines(bps), args.sourceModified.value);
      RegisterStore(path, add, r, bps);
      var q := Register(s, args, addError);
      var t := SetBreakpoints(s, args, addError).state;
      assert t.store == q.store && t.breakpoints == s.breakpoints[path := q.table];
      forall p, l | p in t.breakpoints && l in t.breakpoints[p]
        ensures var id := t.breakpoints[p][l];
                id in t.store.entries && t.store.entries[id].LineBreakpoint?
                && t.store.entries[id].path == p && t.store.entries[id].line == l
      {
        if p != path {
          var id := s.breakpoints[p][l];
          assert s.store.entries[id].path == p;
          assert id in pr.store.entries;
          assert Touched(path, pr.store.entries[id], q.store.entries[id]);
        }
      }
      forall i | 0 <= i < |t.catchpoints|
        ensures t.catchpoints[i] in t.store.entries && t.store.entries[t.catchpoints[i]].Catchpoint?
      {
        var id := s.catchpoints[i];
        assert s.store.entries[id].Catchpoint?;
        assert id in pr.store.entries;
        assert Touched(path, pr.store.entries[id], q.store.entries[id]);
      }
      assert q.store.Valid() by {
        RegisterTable(path, add, r, bps);
      }
    }
  }
}

=== FILE: catchpoints.dfy ===
/**
 The session's private `SetExceptionBreakpoints`, used by the request of
 the same name and by attach: forget the catchpoints the session added
 before, then add one catchpoint per exception option that names an
 exception and breaks "always".
 */
module Catchpoints {
  import opened Wrappers
  import opened Engine
  import opened Protocol
  import opened Session

  /** One element of an option's `path`: the exception names it matches, if given. */
  datatype PathSegment = PathSegment(names: Option<seq<string>>)

  /** One `ExceptionOptions` entry as it arrives. */
  datatype ExceptionOption = ExceptionOption(path: Option<seq<PathSegment>>, breakMode: Option<string>)

  /** An option whose `path` is an empty array: reading its first segment throws. */
  predicate Faults(e: ExceptionOption) {
    e.path.Some? && |e.path.value| == 0
  }

  /** The exception an option names: the first name of its first path segment. */
  function NameOf(e: ExceptionOption): (r: Option<string>)
    requires !Faults(e)
    ensures r.Some? <==> e.path.Some? && e.path.value[0].names.Some? && |e.path.value[0].names.value| > 0
  {
    if e.path.Some? && e.path.value[0].names.Some? && |e.path.value[0].names.value| > 0
    then Some(e.path.value[0].names.value[0]) else None
  }

  /** Whether an option adds a catchpoint: it names an exception and breaks always. */
  predicate Catches(e: ExceptionOption) {
    !Faults(e) && NameOf(e).Some? && e.breakMode == Some("always")
  }

  /** The options handled before the first one that throws. */
  function Until(opts: seq<ExceptionOption>): (r: seq<ExceptionOption>)
    ensures |r| <= |opts| && r == opts[..|r|]
    ensures forall i :: 0 <= i < |r| ==> !Faults(r[i])
    ensures |r| < |opts| <==> exists i :: 0 <= i < |opts| && Faults(opts[i])
    ensures |r| < |opts| ==> Faults(opts[|r|])
  {
    if |opts| == 0 then []
    else if Faults(opts[0]) then []
    else
      var rest := Until(opts[1..]);
      assert forall i :: 1 <= i < |opts| ==> opts[i] == opts[1..][i - 1];
      [opts[0]] + rest
  }

  /** The exceptions the options catch, in order. */
  function Caught(opts: seq<ExceptionOption>): (r: seq<string>)
    ensures |r| <= |opts|
  {
    if |opts| == 0 then []
    else (if Catches(opts[0]) then [NameOf(opts[0]).value] else []) + Caught(opts[1..])
  }

  /** The store and the catchpoint list after the loop, and whether an option threw. */
  datatype Added = Added(store: Store, catchpoints: seq<nat>, faulted: bool)

  /** The loop over the options, in order, stopping at the first one that throws. */
  function AddCatchpoints(store: Store, cps: seq<nat>, opts: seq<ExceptionOption>): (a: Added)
    ensures |a.catchpoints| >= |cps| && a.catchpoints[..|cps|] == cps
    ensures a.store.next >= store.next
    decreases |opts|
  {
    if |opts| == 0 then Added(store, cps, false)
    else if Faults(opts[0]) then Added(store, cps, true)
    else if Catches(opts[0]) then
      var ins := Insert(store, Catchpoint(NameOf(opts[0]).value));
      AddCatchpoints(ins.store, cps + [ins.id], opts[1..])
    else AddCatchpoints(store, cps, opts[1..])
  }

  /** The same loop once the engine session is disposed: `AddCatchpoint` throws too, so
      the loop throws at the first option that throws or catches. */
  function AddCatchpointsDisposed(opts: seq<ExceptionOption>): (faulted: bool)
    decreases |opts|
  {
    if |opts| == 0 then false
    else if Faults(opts[0]) || Catches(opts[0]) then true
    else AddCatchpointsDisposed(opts[1..])
  }

  /** `SetExceptionBreakpoints(exceptionOptions)`: nothing happens for null options;
      otherwise the old catchpoints are removed and the new ones added. On a disposed
      engine session `Remove` throws at the first old catchpoint, before the list is
      cleared; with none, the list stays empty and the loop above runs. */
  function SetExceptionBreakpoints(s: State, options: Option<seq<ExceptionOption>>): (o: Outcome)
    ensures o.sent == []
    ensures options.None? ==> o.state == s && !o.faulted
    ensures s.debuggee.None? ==> o.state == s
  {
    match options
    case None => Outcome(s, [], false)
    case Some(opts) =>
      if s.debuggee.None? then Outcome(s, [], |s.catchpoints| > 0 || AddCatchpointsDisposed(opts))
      else
        var a := AddCatchpoints(RemoveAll(s.store, s.catchpoints), [], opts);
        Outcome(s.(store := a.store, catchpoints := a.catchpoints), [], a.faulted)
  }

  /** The `setExceptionBreakpoints` request: the above, then an empty response. */
  function SetExceptionBreakpointsRequest(s: State, options: Option<seq<ExceptionOption>>): (o: Outcome)
    ensures o.faulted ==> o.sent == []
    ensures !o.faulted ==> o.sent == [Respond(NoBody)]
    ensures o.faulted == SetExceptionBreakpoints(s, options).faulted
  {
    var r := SetExceptionBreakpoints(s, options);
    if r.faulted then r else Outcome(r.state, [Respond(NoBody)], false)
  }

  // ----- properties -----

  /** The loop appends one fresh catchpoint per catching option before the first one that
      throws, for its exception and in order, throws exactly when some option does, and
      leaves every other entry of the store as it was. */
  lemma {:induction false} AddCatchpointsEffect(store: Store, cps: seq<nat>, opts: seq<ExceptionOption>)
    requires store.Valid()
    ensures var a := AddCatchpoints(store, cps, opts);
            var names := Caught(Until(opts));
            && a.store.Valid() && a.store.next >= store.next
            && |a.catchpoints| == |cps| + |names| && a.catchpoints[..|cps|] == cps
            && (var ids := a.catchpoints[|cps|..];
                forall i :: 0 <= i < |names| ==>
                  ids[i] >= store.next && ids[i] in a.store.entries && a.store.entries[ids[i]] == Catchpoint(names[i]))
            && (forall k :: k in store.entries ==> k in a.store.entries && a.store.entries[k] == store.entries[k])
            && (forall k :: k in a.store.entries && k !in store.entries ==> k >= store.next)
    decreases |opts|
  {
    if |opts| > 0 && !Faults(opts[0]) {
      var rest := opts[1..];
      assert Until(opts) == [opts[0]] + Until(rest);
      assert Caught(Until(opts)) == (if Catches(opts[0]) then [NameOf(opts[0]).value] else []) + Caught(Until(rest));
      var names := Caught(Until(opts));
      var restNames := Caught(Until(rest));
      if Catches(opts[0]) {
        var ins := Insert(store, Catchpoint(NameOf(opts[0]).value));
        var cps1 := cps + [ins.id];
        AddCatchpointsEffect(ins.store, cps1, rest);
        var a := AddCatchpoints(ins.store, cps1, rest);
        assert AddCatchpoints(store, cps, opts) == a;
        hide AddCatchpoints, Insert, Caught, Until;
        assert a.catchpoints[..|cps1|] == cps1;
        assert a.catchpoints[..|cps|] == cps1[..|cps|];
        var ids := a.catchpoints[|cps|..];
        var ids1 := a.catchpoints[|cps1|..];
        assert ids == [ins.id] + ids1;
        assert names == [NameOf(opts[0]).value] + restNames;
        PrependIds(ids, ids1, names, restNames, a.store.entries, store.next);
      } else {
        assert AddCatchpoints(store, cps, opts) == AddCatchpoints(store, cps, rest);
        AddCatchpointsEffect(store, cps, rest);
        assert names == restNames;
      }
    }
  }

  /** Extending the id-to-name correspondence by one catchpoint at the front. */
  lemma PrependIds(ids: seq<nat>, ids1: seq<nat>, names: seq<string>, restNames: seq<string>,
                   entries: map<nat, Entry>, lo: nat)
    requires |ids1| == |restNames|
    requires |ids| == |ids1| + 1 && ids[1..] == ids1 && |names| == |restNames| + 1 && names[1..] == restNames
    requires ids[0] >= lo && ids[0] in entries && entries[ids[0]] == Catchpoint(names[0])
    requires forall i :: 0 <= i < |restNames| ==>
               ids1[i] >= lo && ids1[i] in entries && entries[ids1[i]] == Catchpoint(restNames[i])
    ensures forall i :: 0 <= i < |names| ==>
              ids[i] >= lo && ids[i] in entries && entries[ids[i]] == Catchpoint(names[i])
  {
    forall i | 1 <= i < |names|
      ensures ids[i] >= lo && ids[i] in entries && entries[ids[i]] == Catchpoint(names[i])
    {
      assert ids[i] == ids1[i - 1] && names[i] == restNames[i - 1];
    }
  }

  /** The loop throws exactly when some option does. */
  lemma {:induction false} AddCatchpointsFaults(store: Store, cps: seq<nat>, opts: seq<ExceptionOption>)
    ensures AddCatchpoints(store, cps, opts).faulted <==> exists i :: 0 <= i < |opts| && Faults(opts[i])
    decreases |opts|
  {
    if |opts| > 0 && !Faults(opts[0]) {
      var rest := opts[1..];
      assert forall i :: 1 <= i < |opts| ==> opts[i] == rest[i - 1];
      if Catches(opts[0]) {
        var ins := Insert(store, Catchpoint(NameOf(opts[0]).value));
        AddCatchpointsFaults(ins.store, cps + [ins.id], rest);
      } else {
        AddCatchpointsFaults(store, cps, rest);
      }
    }
  }

  /** The loop on a disposed session throws exactly when an option throws or the live loop
      would add a catchpoint. */
  lemma {:induction false} AddCatchpointsDisposedFaults(opts: seq<ExceptionOption>)
    ensures AddCatchpointsDisposed(opts) <==>
              (exists i :: 0 <= i < |opts| && Faults(opts[i])) || |Caught(Until(opts))| > 0
    decreases |opts|
  {
    if |opts| > 0 && !Faults(opts[0]) {
      var rest := opts[1..];
      AddCatchpointsDisposedFaults(rest);
      assert forall i :: 1 <= i < |opts| ==> opts[i] == rest[i - 1];
      assert Until(opts) == [opts[0]] + Until(rest);
      assert ([opts[0]] + Until(rest))[1..] == Until(rest);
    }
  }

  /** After `SetExceptionBreakpoints` with options on a live engine session, the session's
      catchpoints are exactly the exceptions the options catch, up to the first option
      that throws, in order and under fresh ids; none of the old catchpoints is left in
      the store; line breakpoints are untouched. On a disposed session nothing changes, and
      it throws when there are old catchpoints to remove, new ones to add, or an option
      that throws. Null options change nothing. */
  lemma SetExceptionBreakpointsEffect(s: State, options: Option<seq<ExceptionOption>>)
    requires Consistent(s)
    ensures var o := SetExceptionBreakpoints(s, options);
            && (options.None? ==> o.state == s && !o.faulted)
            && (options.Some? && s.debuggee.None? ==>
                  && o.state == s
                  && (o.faulted <==> |s.catchpoints| > 0 || (exists i :: 0 <= i < |options.value| && Faults(options.value[i]))
                                     || |Caught(Until(options.value))| > 0))
            && (options.Some? && s.debuggee.Some? ==>
                  var names := Caught(Until(options.value));
                  && (o.faulted <==> exists i :: 0 <= i < |options.value| && Faults(options.value[i]))
                  && |o.state.catchpoints| == |names|
                  && (forall i :: 0 <= i < |names| ==>
                        o.state.catchpoints[i] in o.state.store.entries
                        && o.state.store.entries[o.state.catchpoints[i]] == Catchpoint(names[i])
                        && o.state.catchpoints[i] !in s.store.entries)
                  && (forall i :: 0 <= i < |s.catchpoints| ==> s.catchpoints[i] !in o.state.store.entries)
                  && o.state.breakpoints == s.breakpoints
                  && (forall k :: k in s.store.entries && s.store.entries[k].LineBreakpoint? ==>
                        k in o.state.store.entries && o.state.store.entries[k] == s.store.entries[k]))
  {
    if options.Some? && s.debuggee.None? {
      AddCatchpointsDisposedFaults(options.value);
    } else if options.Some? {
      var base := RemoveAll(s.store, s.catchpoints);
      AddCatchpointsEffect(base, [], options.value);
      var a := AddCatchpoints(base, [], options.value);
      assert a.catchpoints[0..] == a.catchpoints;
      AddCatchpointsFaults(base, [], options.value);
      var names := Caught(Until(options.value));
      forall i | 0 <= i < |names|
        ensures a.catchpoints[i] in a.store.entries && a.store.entries[a.catchpoints[i]] == Catchpoint(names[i])
        ensures a.catchpoints[i] !in s.store.entries
      {
        assert names[i] == names[i];
        assert a.catchpoints[0..][i] >= base.next;
      }
      forall i | 0 <= i < |s.catchpoints|
        ensures s.catchpoints[i] !in a.store.entries
      {
        var id := s.catchpoints[i];
        assert id < s.store.next;
        assert id !in base.entries;
      }
    }
  }

  /** `SetExceptionBreakpoints` keeps the session's bookkeeping consistent. */
  lemma SetExceptionBreakpointsConsistent(s: State, options: Option<seq<ExceptionOption>>)
    requires Consistent(s)
    ensures Consistent(SetExceptionBreakpoints(s, options).state)
  {
    if options.Some? && s.debuggee.Some? {
      var base := RemoveAll(s.store, s.catchpoints);
      AddCatchpointsEffect(base, [], options.value);
      var a := AddCatchpoints(base, [], options.value);
      assert a.catchpoints[0..] == a.catchpoints;
      var t := SetExceptionBreakpoints(s, options).state;
      forall p, l | p in t.breakpoints && l in t.breakpoints[p]
        ensures var id := t.breakpoints[p][l];
                id in t.store.entries && t.store.entries[id].LineBreakpoint?
                && t.store.entries[id].path == p && t.store.entries[id].line == l
      {
        var id := s.breakpoints[p][l];
        assert id in base.entries;
      }
      forall i | 0 <= i < |t.catchpoints|
        ensures t.catchpoints[i] in t.store.entries && t.store.entries[t.catchpoints[i]].Catchpoint?
      {
        var names := Caught(Until(options.value));
        assert names[i] == names[i];
        assert t.catchpoints[0..][i] in a.store.entries;
      }
    }
  }

  /** The request answers with an empty body unless an option throws or, on a disposed
      engine session, there are catchpoints to remove or to add. */
  lemma SetExceptionBreakpointsResponds(s: State, options: Option<seq<ExceptionOption>>)
    ensures var o := SetExceptionBreakpointsRequest(s, options);
            && (o.faulted <==>
                  && options.Some?
                  && ((exists i :: 0 <= i < |options.value| && Faults(options.value[i]))
                      || (s.debuggee.None? && (|s.catchpoints| > 0 || |Caught(Until(options.value))| > 0))))
            && (!o.faulted ==> o.sent == [Respond(NoBody)] && o.state == SetExceptionBreakpoints(s, options).state)
  {
    if options.Some? {
      if s.debuggee.None? {
        AddCatchpointsDisposedFaults(options.value);
      } else {
        AddCatchpointsFaults(RemoveAll(s.store, s.catchpoints), [], options.value);
      }
    }
  }
}

=== FILE: engine.dfy ===
/**
 What the session sees of the Mono soft debugger: object values with their
 flags, stack frames, threads, processes, and the engine's breakpoint store.
 The engine itself is not modelled; its answers arrive as these records or
 as function parameters of the session's operations.
 */
module Engine {
  import opened Wrappers

  /** The `ObjectValueFlags` the session tests. */
  datatype Flag = Error | NotSupported | Unknown | Object | Namespace

  /** An `ObjectValue` after its `WaitHandle` has been signalled. `children` is what
      `GetAllChildren` returns; `hasChildren` is the engine's own `HasChildren` answer. */
  datatype Value = Value(
    name: string,
    typeName: string,
    displayValue: string,
    flags: set<Flag>,
    hasChildren: bool,
    children: seq<Value>)
  {
    /** `IsError`: the value carries the Error flag. */
    predicate IsError() { Error in flags }
  }

  /** A Mono `StackFrame`: its index in the backtrace, its source location, and the values
      `GetThisReference`, `GetParameters` and `GetLocalVariables` return (None is null). */
  datatype Frame = Frame(
    index: int,
    methodName: string,
    fileName: Option<string>,
    line: int,
    isExternal: bool,
    thisReference: Option<Value>,
    parameters: seq<Option<Value>>,
    locals: seq<Option<Value>>)

  /** A `ThreadInfo`: a 64-bit id, a possibly null name, and its backtrace if it has one. */
  datatype EngineThread = EngineThread(id: int, name: Option<string>, backtrace: Option<seq<Frame>>)

  /** A debuggee `ProcessInfo` and the threads `GetThreads` lists. */
  datatype Process = Process(id: int, name: string, threads: seq<EngineThread>)

  /** The engine session while it exists: whether it is running or has exited, and its
      active thread (None is null). `running` is the engine's `IsRunning` as the engine
      reports it. Its stop and resume events are not part of this model, so the handlers do
      not keep the flag up to date. The one exception is `Connect`, where `Run` is what
      starts the session; a resume command leaves the flag as it was. */
  datatype Debuggee = Debuggee(running: bool, exited: bool, activeThread: Option<EngineThread>)

  /** The commands the session issues to the engine. */
  datatype Command = Continue | NextLine | StepLine | Finish | Run | Exit | Detach | Stop

  // ----- the breakpoint store -----

  /** An entry of the engine's `BreakpointStore`. */
  datatype Entry =
    | LineBreakpoint(path: string, line: int, condition: Option<string>)
    | Catchpoint(exception: string)

  /** The store: entries under the ids it issued, and the next id it will issue. */
  datatype Store = Store(entries: map<nat, Entry>, next: nat) {
    ghost predicate Valid() { forall id :: id in entries ==> id < next }
  }

  /** The store the engine session starts with. */
  function EmptyStore(): (s: Store)
    ensures s.Valid() && s.entries == map[]
  {
    Store(map[], 0)
  }

  /** The id of a new entry and the store holding it. */
  datatype Inserted = Inserted(id: nat, store: Store)

  /** `Add` and `AddCatchpoint`: store the entry under a fresh id; nothing else changes. */
  function Insert(s: Store, e: Entry): (r: Inserted)
    ensures r.id in r.store.entries && r.store.entries[r.id] == e
    ensures s.Valid() ==> r.id !in s.entries && r.store.Valid()
    ensures r.store.entries.Keys == s.entries.Keys + {r.id}
    ensures forall id :: id in s.entries && id != r.id ==> r.store.entries[id] == s.entries[id]
    ensures s.next <= r.id < r.store.next
  {
    Inserted(s.next, Store(s.entries[s.next := e], s.next + 1))
  }

  /** `Remove`: drop the entry; removing an absent id changes nothing. */
  function Remove(s: Store, id: nat): (r: Store)
    ensures r.entries.Keys == s.entries.Keys - {id}
    ensures forall k :: k in r.entries ==> r.entries[k] == s.entries[k]
    ensures r.next == s.next
    ensures s.Valid() ==> r.Valid()
  {
    Store(s.entries - {id}, s.next)
  }

  /** Remove each id in turn. */
  function RemoveAll(s: Store, ids: seq<nat>): (r: Store)
    ensures forall k :: k in r.entries <==> k in s.entries && k !in ids
    ensures forall k :: k in r.entries ==> r.entries[k] == s.entries[k]
    ensures r.next == s.next
    ensures s.Valid() ==> r.Valid()
    decreases |ids|
  {
    if |ids| == 0 then s else RemoveAll(Remove(s, ids[0]), ids[1..])
  }

  /** Remove every id of a set, in any order: the order does not matter to the result. */
  function RemoveIds(s: Store, ids: set<nat>): (r: Store)
    ensures r.entries.Keys == s.entries.Keys - ids
    ensures forall k :: k in r.entries ==> r.entries[k] == s.entries[k]
    ensures r.next == s.next
    ensures s.Valid() ==> r.Valid()
  {
    Store(map k | k in s.entries && k !in ids :: s.entries[k], s.next)
  }

  /** Setting `ConditionExpression` on a line breakpoint already in the store. */
  function SetCondition(s: Store, id: nat, condition: Option<string>): (r: Store)
    ensures r.entries.Keys == s.entries.Keys && r.next == s.next
    ensures forall k :: k in s.entries && k != id ==> r.entries[k] == s.entries[k]
    ensures id in s.entries && s.entries[id].LineBreakpoint? ==>
              r.entries[id] == s.entries[id].(condition := condition)
    ensures s.Valid() ==> r.Valid()
  {
    if id in s.entries && s.entries[id].LineBreakpoint? then
      Store(s.entries[id := s.entries[id].(condition := condition)], s.next)
    else s
  }
}

=== FILE: exception_config.dfy ===
/**
 The editor extension's exception view: a configuration maps exception names
 to a break mode ("always", "never" or "unhandled"), shown as a list of items
 whose label carries a tick only for "always". Changing an item's mode stores
 it in the configuration and sends the whole configuration to the adapter as
 `setExceptionBreakpoints` options, one per exception.
 */
module ExceptionConfig {
  import opened Wrappers
  import opened Catchpoints

  /** One exception and its break mode as stored in the settings; the mode is whatever
      string the settings hold. */
  datatype Setting = Setting(name: string, mode: string)

  /** The configuration object, in property order. */
  type Configurations = seq<Setting>

  /** An object has each property once. */
  predicate Distinct(c: Configurations) {
    forall i, j :: 0 <= i < j < |c| ==> c[i].name != c[j].name
  }

  /** The mode stored under a name, if any. */
  function Lookup(c: Configurations, name: string): (r: Option<string>)
    ensures r.None? <==> forall i :: 0 <= i < |c| ==> c[i].name != name
    ensures r.Some? ==> exists i :: 0 <= i < |c| && c[i] == Setting(name, r.value)
  {
    if |c| == 0 then None
    else if c[0].name == name then Some(c[0].mode)
    else
      var r := Lookup(c[1..], name);
      assert forall i :: 1 <= i < |c| ==> c[i] == c[1..][i - 1];
      r
  }

  /** `exceptions[name] = mode`: an existing property is overwritten in place, a new one
      goes last. */
  function Set(c: Configurations, name: string, mode: string): (r: Configurations)
    ensures |r| == |c| + (if Lookup(c, name).None? then 1 else 0)
    ensures forall i :: 0 <= i < |c| ==> r[i].name == c[i].name
    ensures Lookup(c, name).None? ==> r[|c|] == Setting(name, mode)
  {
    if |c| == 0 then [Setting(name, mode)]
    else if c[0].name == name then [Setting(name, mode)] + c[1..]
    else [c[0]] + Set(c[1..], name, mode)
  }

  /** After `Set` the name holds the new mode and every other name holds what it held. */
  lemma {:induction false} SetLookup(c: Configurations, name: string, mode: string)
    ensures Lookup(Set(c, name, mode), name) == Some(mode)
    ensures forall n :: n != name ==> Lookup(Set(c, name, mode), n) == Lookup(c, n)
    decreases |c|
  {
    if |c| > 0 && c[0].name != name {
      SetLookup(c[1..], name, mode);
      var r := Set(c, name, mode);
      assert r[1..] == Set(c[1..], name, mode);
    }
  }

  /** `Set` keeps each property once. */
  lemma SetKeepsDistinct(c: Configurations, name: string, mode: string)
    requires Distinct(c)
    ensures Distinct(Set(c, name, mode))
  {
    var r := Set(c, name, mode);
    forall i, j | 0 <= i < j < |r|
      ensures r[i].name != r[j].name
    {
      if j == |c| {
        assert Lookup(c, name).None?;
      }
    }
  }

  // ----- configuration to adapter options -----

  /** The option for one setting: a path whose one segment names the exception, and the
      mode as break mode. */
  function OptionOf(e: Setting): ExceptionOption {
    ExceptionOption(Some([PathSegment(Some([e.name]))]), Some(e.mode))
  }

  /** `exceptionConfigurationToExceptionOptions`: one option per setting, in order. */
  function ToOptions(c: Configurations): (r: seq<ExceptionOption>)
    ensures |r| == |c|
    ensures forall i :: 0 <= i < |c| ==>
              !Faults(r[i]) && NameOf(r[i]) == Some(c[i].name) && r[i].breakMode == Some(c[i].mode)
  {
    if |c| == 0 then [] else [OptionOf(c[0])] + ToOptions(c[1..])
  }

  /** The names whose mode is "always", in order. */
  function AlwaysNames(c: Configurations): (r: seq<string>)
    ensures |r| <= |c|
  {
    if |c| == 0 then []
    else (if c[0].mode == "always" then [c[0].name] else []) + AlwaysNames(c[1..])
  }

  /** Sent to the adapter, a configuration becomes exactly the catchpoints of its "always"
      exceptions, in the configuration's order: no option it produces throws, and the
      other modes add nothing. */
  lemma {:induction false} ToOptionsCatches(c: Configurations)
    ensures Until(ToOptions(c)) == ToOptions(c)
    ensures Caught(ToOptions(c)) == AlwaysNames(c)
    decreases |c|
  {
    if |c| > 0 {
      ToOptionsCatches(c[1..]);
      var o := ToOptions(c);
      assert o[1..] == ToOptions(c[1..]);
      assert Catches(o[0]) <==> c[0].mode == "always";
    }
  }

  /** An exception is among the "always" names exactly when that is its mode. */
  lemma {:induction false} AlwaysNamesMember(c: Configurations, name: string)
    requires Distinct(c)
    ensures name in AlwaysNames(c) <==> Lookup(c, name) == Some("always")
    decreases |c|
  {
    if |c| > 0 {
      assert Distinct(c[1..]) by {
        forall i, j | 0 <= i < j < |c[1..]| ensures c[1..][i].name != c[1..][j].name {
          assert c[1..][i] == c[i + 1] && c[1..][j] == c[j + 1];
        }
      }
      AlwaysNamesMember(c[1..], name);
      if c[0].name == name {
        assert Lookup(c[1..], name).None? by {
          forall i | 0 <= i < |c[1..]| ensures c[1..][i].name != name {
            assert c[1..][i] == c[i + 1];
          }
        }
      }
    }
  }

  // ----- modes -----

  /** `ExceptionMode`. */
  datatype ExceptionMode = Always | Never | Unhandled

  /** The settings string of each mode. */
  function ModeName(m: ExceptionMode): string {
    match m
    case Always => "always"
    case Never => "never"
    case Unhandled => "unhandled"
  }

  /** A mode, or the error `exceptionConfigurationToExceptionMode` throws. */
  datatype ModeResult = Known(mode: ExceptionMode) | NotKnown(message: string)

  /** `exceptionConfigurationToExceptionMode`: the mode a settings string names; any other
      string throws an error naming it. */
  function ToMode(config: string): (r: ModeResult)
    ensures r.Known? <==> config in {"always", "never", "unhandled"}
    ensures r.Known? ==> ModeName(r.mode) == config
    ensures r.NotKnown? ==> r.message == config + ": is not a known exceptionConfig"
  {
    if config == "always" then Known(Always)
    else if config == "never" then Known(Never)
    else if config == "unhandled" then Known(Unhandled)
    else NotKnown(config + ": is not a known exceptionConfig")
  }

  /** Every mode survives being stored as a string and read back. */
  lemma ModeRoundTrip(m: ExceptionMode)
    ensures ToMode(ModeName(m)) == Known(m)
  {
  }

  // ----- the items of the view -----

  /** An `ExceptionBreakpoints` tree item; `title` is its `label`. */
  datatype Item = Item(name: string, mode: ExceptionMode, title: string, tooltip: string)

  const Tick: string := "[✔] "
  const Cross: string := "[✖] "

  /** `setMode`: record the mode; label and tooltip show a tick for "always" and a cross
      otherwise, then the name. */
  function SetMode(item: Item, mode: ExceptionMode): (r: Item)
    ensures r.name == item.name && r.mode == mode
    ensures r.title == r.tooltip
    ensures |r.title| == 4 + |item.name| && r.title[..4] == (if mode == Always then Tick else Cross) && r.title[4..] == item.name
  {
    var title := (if mode == Always then Tick else Cross) + item.name;
    item.(mode := mode, title := title, tooltip := title)
  }

  /** The item's constructor: a provisional label, then `setMode`. */
  function NewItem(name: string, mode: ExceptionMode): (r: Item)
    ensures r.name == name && r.mode == mode && r.title == r.tooltip
  {
    SetMode(Item(name, mode, "", ""), mode)
  }

  /** The label shows the name and whether the exception breaks always, and nothing else:
      two items look alike exactly when they agree on the name and on being "always". */
  lemma LabelShowsMode(a: Item, ma: ExceptionMode, b: Item, mb: ExceptionMode)
    ensures SetMode(a, ma).title == SetMode(b, mb).title <==> a.name == b.name && (ma == Always <==> mb == Always)
  {
    var la := SetMode(a, ma).title;
    var lb := SetMode(b, mb).title;
    if la == lb {
      assert la[..4] == lb[..4] && la[4..] == lb[4..];
    }
  }

  // ----- the commands -----

  /** After a command: the configuration, the item as shown, and the options sent to the
      adapter; None when there is no active debug session, where the request throws after
      the mode is stored and the label updated, so nothing is sent. */
  datatype Changed = Changed(config: Configurations, item: Item, sent: Option<seq<ExceptionOption>>)

  /** `always`, `never` and `unhandled`: store the mode, show it on the item, and send the
      whole configuration to the active debug session, if there is one. */
  function Choose(c: Configurations, item: Item, mode: ExceptionMode, activeSession: bool): (r: Changed)
    ensures r.sent.Some? <==> activeSession
    ensures r.item.name == item.name && r.item.mode == mode
    ensures Lookup(r.config, item.name) == Some(ModeName(mode))
  {
    var config := Set(c, item.name, ModeName(mode));
    SetLookup(c, item.name, ModeName(mode));
    Changed(config, SetMode(item, mode), if activeSession then Some(ToOptions(config)) else None)
  }

  /** After a command, the other exceptions keep their setting and the item's label agrees
      with its stored mode, with or without a debug session; with one, the adapter is asked
      to break on the item's exception exactly when the command was `always`, and on
      exactly the exceptions the configuration marks "always". */
  lemma ChooseEffect(c: Configurations, item: Item, mode: ExceptionMode, activeSession: bool)
    requires Distinct(c)
    ensures var r := Choose(c, item, mode, activeSession);
            && Distinct(r.config)
            && (forall n :: n != item.name ==> Lookup(r.config, n) == Lookup(c, n))
            && ToMode(Lookup(r.config, item.name).value) == Known(r.item.mode)
            && (r.sent.None? <==> !activeSession)
            && (activeSession ==>
                  && Caught(Until(r.sent.value)) == AlwaysNames(r.config)
                  && (item.name in Caught(Until(r.sent.value)) <==> mode == Always))
  {
    var r := Choose(c, item, mode, activeSession);
    var config := Set(c, item.name, ModeName(mode));
    assert r.config == config;
    assert activeSession ==> r.sent == Some(ToOptions(config));
    hide Choose;
    SetLookup(c, item.name, ModeName(mode));
    SetKeepsDistinct(c, item.name, ModeName(mode));
    ModeRoundTrip(mode);
    ToOptionsCatches(config);
    AlwaysNamesMember(config, item.name);
  }

  /** `addEntry`: an empty or cancelled input changes nothing; otherwise the exception is
      stored with mode "never", replacing any mode it had. */
  function AddEntry(c: Configurations, value: Option<string>): (r: Configurations)
    ensures value.None? || value.value == [] ==> r == c
    ensures value.Some? && value.value != [] ==>
              Lookup(r, value.value) == Some("never")
              && forall n :: n != value.value ==> Lookup(r, n) == Lookup(c, n)
  {
    if value.None? || value.value == [] then c
    else
      SetLookup(c, value.value, "never");
      Set(c, value.value, "never")
  }

  /** A new entry is not sent to the adapter until a command sends the configuration, and
      then it adds no catchpoint. */
  lemma AddEntryCatchesNothing(c: Configurations, value: Option<string>)
    requires Distinct(c) && value.Some? && value.value != []
    ensures value.value !in AlwaysNames(AddEntry(c, value))
  {
    SetKeepsDistinct(c, value.value, "never");
    AlwaysNamesMember(AddEntry(c, value), value.value);
  }

  /** What the view lists: its items with an information message, or the error of the
      first setting whose mode is not known. */
  datatype Listing = Listing(items: seq<Item>, info: Option<string>) | Rejected(message: string)

  /** The items for the settings, in order, or the first unknown mode's error. */
  function Items(c: Configurations): (r: Listing)
    ensures r.Listing? ==> r.info.None? && |r.items| == |c|
    ensures r.Listing? ==> forall i :: 0 <= i < |c| ==>
              r.items[i].name == c[i].name && ModeName(r.items[i].mode) == c[i].mode
    ensures r.Listing? <==> forall i :: 0 <= i < |c| ==> ToMode(c[i].mode).Known?
  {
    if |c| == 0 then Listing([], None)
    else
      assert forall i :: 1 <= i < |c| ==> c[i] == c[1..][i - 1];
      match ToMode(c[0].mode)
      case NotKnown(message) => Rejected(message)
      case Known(m) =>
        var rest := Items(c[1..]);
        if rest.Rejected? then rest else Listing([NewItem(c[0].name, m)] + rest.items, None)
  }

  /** `getChildren`: with no configuration, an information message and no items; otherwise
      one item per setting. */
  function Children(c: Option<Configurations>): (r: Listing)
    ensures c.None? ==> r == Listing([], Some("No exception found"))
    ensures c.Some? ==> r == Items(c.value)
  {
    if c.None? then Listing([], Some("No exception found")) else Items(c.value)
  }

  /** The names of the items that show a tick, in order. */
  function TickedNames(items: seq<Item>): (r: seq<string>)
    ensures |r| <= |items|
  {
    if |items| == 0 then []
    else (if items[0].mode == Always then [items[0].name] else []) + TickedNames(items[1..])
  }

  /** The view and the adapter agree: when the settings list, the items ticked are exactly
      the exceptions the adapter is asked to break on, in the same order. */
  lemma {:induction false} TickedAreCaught(c: Configurations)
    requires Items(c).Listing?
    ensures TickedNames(Items(c).items) == Caught(ToOptions(c))
    decreases |c|
  {
    ToOptionsCatches(c);
    if |c| > 0 {
      assert Items(c[1..]).Listing?;
      TickedAreCaught(c[1..]);
      var items := Items(c).items;
      assert items[1..] == Items(c[1..]).items;
      assert items[0].mode == Always <==> c[0].mode == "always";
      ToOptionsCatches(c[1..]);
    }
  }
}

=== FILE: framing.dfy ===
/**
 The framed stdio transport: the `Content-Length` header format, the header
 regular expression, one iteration of the read loop (`Step`) and the loop
 itself (`Trace`), and the escaping used when logging frames.

 Buffers are `string`s. The source reads bytes and decodes them with the
 configured text encoding; the model assumes a single-byte encoding, so that
 a header's byte count equals the body's character count.
 */
module Framing {
  import opened Wrappers
  import opened Text
  import opened Numbers
  import Messages

  /** The literal part of the header regular expression `Content-Length: (\d+)`. */
  const ContentLengthLabel: string := "Content-Length: "

  /** The header written before a body of `length` bytes. */
  function Header(length: nat): (h: string)
    ensures |h| > |ContentLengthLabel| + |Messages.HeaderSeparator|
    ensures h[..|ContentLengthLabel|] == ContentLengthLabel && EndsWith(h, Messages.HeaderSeparator)
  {
    ContentLengthLabel + NatToDecimal(length) + Messages.HeaderSeparator
  }

  /** A complete frame: header then body. */
  function Frame(body: string): (f: string)
    ensures |f| > |body| + |ContentLengthLabel| && f[..|ContentLengthLabel|] == ContentLengthLabel
    ensures f[|f| - |body|..] == body
  {
    Header(|body|) + body
  }

  /** The concatenation of the chunks, in order. */
  function Concat(chunks: seq<string>): string {
    if |chunks| == 0 then [] else chunks[0] + Concat(chunks[1..])
  }

  lemma {:induction false} ConcatAppend(a: seq<string>, b: seq<string>)
    ensures Concat(a + b) == Concat(a) + Concat(b)
    decreases |a|
  {
    if |a| == 0 {
      assert a + b == b;
    } else {
      assert (a + b)[1..] == a[1..] + b;
      ConcatAppend(a[1..], b);
    }
  }

  // ----- the Content-Length regular expression -----

  /** A match of the header regular expression: where it starts and the digits of its group. */
  datatype LengthMatch = LengthMatch(at: nat, digits: string)

  /** The regular expression matches at index `i`: the label followed by at least one digit. */
  predicate MatchesAt(s: string, i: int) {
    OccursAt(s, ContentLengthLabel, i) && i + |ContentLengthLabel| < |s| && IsDigit(s[i + |ContentLengthLabel|])
  }

  /** The greedy `\d+` group: the longest run of digits starting at `j`. */
  function DigitRun(s: string, j: nat): (r: string)
    requires j <= |s|
    ensures j + |r| <= |s| && r == s[j..j + |r|] && AllDigits(r)
    ensures j + |r| == |s| || !IsDigit(s[j + |r|])
    decreases |s| - j
  {
    if j < |s| && IsDigit(s[j]) then [s[j]] + DigitRun(s, j + 1) else []
  }

  /** Where the regular expression first matches at or after `i`. */
  function MatchFrom(s: string, i: nat): (r: Option<nat>)
    ensures r.Some? ==> i <= r.value && MatchesAt(s, r.value)
    decreases |s| - i
  {
    if i + |ContentLengthLabel| >= |s| then None
    else if MatchesAt(s, i) then Some(i)
    else MatchFrom(s, i + 1)
  }

  /** `MatchFrom` finds the leftmost match at or after `i`, and none only when there is none. */
  lemma {:induction false} MatchFromLeftmost(s: string, i: nat)
    ensures MatchFrom(s, i).None? ==> forall k :: i <= k ==> !MatchesAt(s, k)
    ensures MatchFrom(s, i).Some? ==> forall k :: i <= k < MatchFrom(s, i).value ==> !MatchesAt(s, k)
    decreases |s| - i
  {
    if i + |ContentLengthLabel| < |s| && !MatchesAt(s, i) {
      MatchFromLeftmost(s, i + 1);
    }
  }

  /** `Regex.Match`: the leftmost match, with its greedy digit group. */
  function ContentLengthMatch(s: string): (r: Option<LengthMatch>)
    ensures r.Some? ==> MatchesAt(s, r.value.at) && |r.value.digits| >= 1 && AllDigits(r.value.digits)
    ensures r.Some? ==> r.value.digits == DigitRun(s, r.value.at + |ContentLengthLabel|)
  {
    match MatchFrom(s, 0)
    case None => None
    case Some(at) => Some(LengthMatch(at, DigitRun(s, at + |ContentLengthLabel|)))
  }

  /** There is no match exactly when the expression matches nowhere, and no match starts
      before the one found. */
  lemma ContentLengthMatchLeftmost(s: string)
    ensures ContentLengthMatch(s).None? <==> forall k :: !MatchesAt(s, k)
    ensures ContentLengthMatch(s).Some? ==> forall k :: 0 <= k < ContentLengthMatch(s).value.at ==> !MatchesAt(s, k)
  {
    MatchFromLeftmost(s, 0);
  }

  // ----- one iteration of the read loop -----

  /** The loop's state: the carried-over `requestHead` and the reads still to come.
      Each element of `input` is what one `Read` call returns; an empty element is a
      zero-byte read, and a `Read` after the last element also returns zero bytes. */
  datatype LoopState = LoopState(head: string, input: seq<string>)

  datatype StepOutcome =
    | EndOfInput                                 // zero-byte read with an empty head: the loop breaks
    | Dispatched(request: string, next: LoopState) // one frame sliced out: `singleRequest`
    | Discarded(text: string, next: LoopState)     // no Content-Length match: logged and dropped
    | Failed                                     // an exception escapes the loop

  /** One `Read`: the next chunk and the reads after it. */
  function Read(input: seq<string>): (r: (string, seq<string>))
    ensures |input| == 0 ==> r == ([], [])
    ensures |input| > 0 ==> r == (input[0], input[1..])
  {
    if |input| == 0 then ([], []) else (input[0], input[1..])
  }

  /** The buffer an iteration works on (`requestString`) and the reads left after filling it. */
  function Accumulate(st: LoopState): (r: (string, seq<string>)) {
    if |st.head| == 0 then Read(st.input) else (st.head, st.input)
  }

  /** The chunks read to get from `st` to `next`. */
  function Consumed(st: LoopState, next: LoopState): seq<string>
    requires |next.input| <= |st.input|
  {
    st.input[..|st.input| - |next.input|]
  }

  /** Where the slice ends: `IndexOf("\r\n\r\n") + 4 + contentLength`. */
  function SliceEnd(requestString: string, contentLength: nat): int {
    IndexOf(requestString, Messages.HeaderSeparator) + 4 + contentLength
  }

  /** Lines 53-90 of an iteration, on a non-empty `requestString`: match the header,
      top the buffer up with one more `Read` when it is short, and slice one request. */
  function Slice(requestString: string, rest: seq<string>): (r: StepOutcome)
    ensures r.EndOfInput? ==> false
    ensures (r.Dispatched? || r.Discarded?) ==>
              r.next.input == rest || (|rest| > 0 && r.next.input == rest[1..])
    ensures r.Dispatched? ==>
              r.request + r.next.head == requestString + (if r.next.input == rest then [] else rest[0])
    ensures r.Dispatched? ==> |r.request| >= 3
    ensures r.Discarded? ==> r.next == LoopState([], rest) && r.text == requestString
                             && ContentLengthMatch(requestString).None?
  {
    match ContentLengthMatch(requestString)
    case None => Discarded(requestString, LoopState([], rest))
    case Some(m) =>
      var contentLength := DecimalValue(m.digits);
      // Int32.Parse throws above Int32.MaxValue; a sum past it wraps negative and Substring throws
      if contentLength > MaxInt32 then Failed
      else
        var end := SliceEnd(requestString, contentLength);
        if end > MaxInt32 then Failed
        else if |requestString| < end then
          var (tail, rest2) := Read(rest);
          var full := requestString + tail;
          if |full| < end then Failed
          else
            assert full[..end] + full[end..] == full;
            Dispatched(full[..end], LoopState(full[end..], rest2))
        else
          assert requestString[..end] + requestString[end..] == requestString;
          Dispatched(requestString[..end], LoopState(requestString[end..], rest))
  }

  /** One pass of the `while (true)` body: read only when the head is empty, stop on a
      zero-byte read, otherwise slice. */
  function Step(st: LoopState): (r: StepOutcome)
    ensures r.EndOfInput? <==> |st.head| == 0 && |Read(st.input).0| == 0
    ensures (r.Dispatched? || r.Discarded?) ==>
              && |r.next.input| <= |st.input|
              && r.next.input == st.input[|st.input| - |r.next.input|..]
              && (|r.next.input| < |st.input| || |r.next.head| < |st.head|)
  {
    var acc := Accumulate(st);
    if |acc.0| == 0 then EndOfInput
    else
      var r := Slice(acc.0, acc.1);
      SliceProgress(st, r);
      r
  }

  /** Whatever `Slice` leaves after it, read from the buffer `st` accumulates, is a suffix
      of the input, and either the input or the head got shorter. */
  lemma SliceProgress(st: LoopState, r: StepOutcome)
    requires |Accumulate(st).0| > 0
    requires var rest := Accumulate(st).1;
             (r.Dispatched? || r.Discarded?) ==> r.next.input == rest || (|rest| > 0 && r.next.input == rest[1..])
    requires r.Dispatched? ==>
               |r.request| >= 3
               && r.request + r.next.head == Accumulate(st).0 + (if r.next.input == Accumulate(st).1 then [] else Accumulate(st).1[0])
    requires r.Discarded? ==> r.next.head == []
    ensures (r.Dispatched? || r.Discarded?) ==>
              && |r.next.input| <= |st.input|
              && r.next.input == st.input[|st.input| - |r.next.input|..]
              && (|r.next.input| < |st.input| || |r.next.head| < |st.head|)
  {
    var rest := Accumulate(st).1;
    assert rest == st.input[|st.input| - |rest|..];
    if r.Dispatched? || r.Discarded? {
      if r.next.input != rest {
        assert rest[1..] == st.input[|st.input| - |rest| + 1..];
      }
      if r.Dispatched? && r.next.input == rest {
        assert |r.request| + |r.next.head| == |Accumulate(st).0|;
      }
    }
  }

  /** Nothing is lost or duplicated: the sliced request followed by the new head is the
      old head followed by everything read in this iteration. */
  lemma StepConservesBuffer(st: LoopState)
    ensures Step(st).Dispatched? ==>
              Step(st).request + Step(st).next.head == st.head + Concat(Consumed(st, Step(st).next))
    ensures Step(st).Discarded? ==>
              && Step(st).next.head == []
              && Step(st).text == st.head + Concat(Consumed(st, Step(st).next))
              && ContentLengthMatch(Step(st).text).None?
  {
    var acc := Accumulate(st);
    var r := Step(st);
    if r.Dispatched? || r.Discarded? {
      assert r == Slice(acc.0, acc.1);
      var c := Consumed(st, r.next);
      var extra := if r.next.input == acc.1 then [] else [acc.1[0]];
      if |st.head| == 0 {
        assert c == [acc.0] + extra;
        assert Concat(c) == acc.0 + Concat(extra);
      } else {
        assert c == extra;
      }
      assert Concat(extra) == if r.next.input == acc.1 then [] else acc.1[0];
    }
  }

  // ----- the loop -----

  /** An outcome list the loop can produce: iterations that consumed input, then the
      zero-byte read or the exception that ends it. */
  predicate Shaped(t: seq<StepOutcome>) {
    && |t| >= 1
    && if |t| == 1 then t[0].EndOfInput? || t[0].Failed?
       else (t[0].Dispatched? || t[0].Discarded?) && Shaped(t[1..])
  }

  /** The outcomes of the successive iterations of `Run`, up to the break or the exception
      that ends it. */
  function Trace(st: LoopState): (t: seq<StepOutcome>)
    ensures |t| >= 1 && t[0] == Step(st) && Shaped(t)
    decreases |st.input|, |st.head|
  {
    var o := Step(st);
    if o.Dispatched? || o.Discarded? then
      var rest := Trace(o.next);
      assert ([o] + rest)[1..] == rest;
      [o] + rest
    else [o]
  }

  /** One unfolding of the loop: an iteration that consumed input is followed by the loop
      from the state it left; any other ends it. */
  lemma TraceUnfold(st: LoopState)
    ensures Step(st).Dispatched? || Step(st).Discarded? ==> Trace(st) == [Step(st)] + Trace(Step(st).next)
    ensures Step(st).EndOfInput? || Step(st).Failed? ==> Trace(st) == [Step(st)]
  {
  }

  /** What `Shaped` says, index by index. */
  lemma {:induction false} ShapedEnds(t: seq<StepOutcome>)
    requires Shaped(t)
    ensures t[|t| - 1].EndOfInput? || t[|t| - 1].Failed?
    ensures forall i :: 0 <= i < |t| - 1 ==> t[i].Dispatched? || t[i].Discarded?
    decreases |t|
  {
    if |t| > 1 {
      ShapedEnds(t[1..]);
      assert forall i :: 1 <= i < |t| ==> t[i] == t[1..][i - 1];
    }
  }

  /** The single requests the loop slices out, in order (what the older loop logs). */
  function Requests(t: seq<StepOutcome>): (rs: seq<string>)
    ensures |rs| <= |t|
  {
    if |t| == 0 then []
    else (if t[0].Dispatched? then [t[0].request] else []) + Requests(t[1..])
  }

  /** The text of every iteration that consumed input: dispatched requests and discarded buffers. */
  function Texts(t: seq<StepOutcome>): seq<string> {
    if |t| == 0 then []
    else (match t[0]
          case Dispatched(q, _) => [q]
          case Discarded(x, _) => [x]
          case _ => []) + Texts(t[1..])
  }

  // ----- log escaping -----

  /** `ConvertNewlinesToEscapeSequence`: `Replace("\n", "\\n")` then `Replace("\r", "\\r")`. */
  function ConvertNewlinesToEscapeSequence(input: string): (r: string)
    ensures '\n' !in r && '\r' !in r
  {
    ReplaceChar(ReplaceChar(input, '\n', "\\n"), '\r', "\\r")
  }

  /** The escape of one character: line feed and carriage return become two characters. */
  function EscapeChar(c: char): string {
    if c == '\n' then "\\n" else if c == '\r' then "\\r" else [c]
  }

  /** A single left-to-right pass escaping each character on its own. */
  function EscapeEach(s: string): string {
    if |s| == 0 then [] else EscapeChar(s[0]) + EscapeEach(s[1..])
  }
}

=== FILE: framing_properties.dfy ===
/**
 Properties of the read loop: what one iteration does with complete frames,
 short buffers, unmatched text and zero-byte reads, and what the whole loop
 does with a stream of frames.
 */
module FramingProperties {
  import opened Wrappers
  import opened Text
  import Messages
  import opened Numbers
  import opened Framing

  // ----- where a frame's header ends -----

  /** The longest digit run is determined by any digit string followed by a non-digit. */
  lemma DigitRunIs(s: string, j: nat, d: string)
    requires j + |d| <= |s| && s[j..j + |d|] == d && AllDigits(d)
    requires j + |d| == |s| || !IsDigit(s[j + |d|])
    ensures DigitRun(s, j) == d
  {
  }

  /** The shape of a header: label, digits, separator; no carriage return before the separator. */
  lemma HeaderShape(n: nat)
    ensures var h := Header(n);
            var k := |NatToDecimal(n)|;
            var m := |ContentLengthLabel|;
            && |h| == m + k + 4
            && h[..m] == ContentLengthLabel
            && h[m..m + k] == NatToDecimal(n)
            && h[m + k..] == Messages.HeaderSeparator
            && (forall i :: 0 <= i < m + k ==> h[i] != '\r')
  {
    var h := Header(n);
    var d := NatToDecimal(n);
    var m := |ContentLengthLabel|;
    assert h == ContentLengthLabel + d + Messages.HeaderSeparator;
    forall i | 0 <= i < m + |d|
      ensures h[i] != '\r'
    {
      if i < m {
        assert h[i] == ContentLengthLabel[i];
      } else {
        assert h[i] == d[i - m];
      }
    }
  }

  /** In a text that starts with a frame, the header expression matches at index 0 with the
      body length as its group. */
  lemma FrameLengthMatched(body: string, more: string)
    ensures ContentLengthMatch(Frame(body) + more) == Some(LengthMatch(0, NatToDecimal(|body|)))
  {
    FrameLengthMatchedFrom(body, more);
  }

  lemma FrameLengthMatchedFrom(body: string, more: string)
    ensures MatchFrom(Frame(body) + more, 0) == Some(0)
    ensures DigitRun(Frame(body) + more, |ContentLengthLabel|) == NatToDecimal(|body|)
  {
    var s := Frame(body) + more;
    var h := Header(|body|);
    var d := NatToDecimal(|body|);
    var m := |ContentLengthLabel|;
    HeaderShape(|body|);
    assert s == h + (body + more);
    assert s[..|h|] == h;
    assert s[..m] == ContentLengthLabel;
    assert s[m..m + |d|] == d;
    assert s[m + |d|] == '\r';
    assert s[m] == d[0];
    assert MatchesAt(s, 0);
    DigitRunIs(s, m, d);
  }

  /** The first header separator in a text that starts with a frame is the header's own. */
  lemma FrameSeparatorFound(body: string, more: string)
    ensures IndexOf(Frame(body) + more, Messages.HeaderSeparator) == |Header(|body|)| - 4
  {
    var s := Frame(body) + more;
    var h := Header(|body|);
    HeaderShape(|body|);
    assert s == h + (body + more);
    hide Frame;
    var e := |h| - 4;
    assert s[e..e + 4] == h[e..];
    assert OccursAt(s, Messages.HeaderSeparator, e);
    forall i | 0 <= i < e
      ensures !OccursAt(s, Messages.HeaderSeparator, i)
    {
      assert s[i] == h[i] && h[i] != '\r';
      assert i + 4 <= |s| ==> s[i..i + 4][0] == s[i];
    }
    IndexOfFirst(s, Messages.HeaderSeparator);
    var r := IndexOf(s, Messages.HeaderSeparator);
    assert r != -1;
    assert !(r < e);
    assert !(e < r);
  }

  /** Both together: the slice computed for a buffer that starts with a frame ends exactly
      at the end of that frame. */
  lemma FrameHeaderFound(body: string, more: string)
    ensures var s := Frame(body) + more;
            && ContentLengthMatch(s) == Some(LengthMatch(0, NatToDecimal(|body|)))
            && SliceEnd(s, |body|) == |Frame(body)|
  {
    FrameLengthMatched(body, more);
    FrameSeparatorFound(body, more);
  }

  /** `Request.Parse` on a frame hands exactly the body to the decoder, even when the body
      itself contains a header separator. */
  lemma JsonTextOfFrame(body: string)
    ensures Messages.JsonText(Frame(body)) == Some(body)
  {
    FrameHeaderFound(body, []);
    assert Frame(body) + [] == Frame(body);
    var k := IndexOf(Frame(body), Messages.HeaderSeparator);
    assert Frame(body)[k + 4..] == body;
  }

  // ----- one iteration -----

  /** A buffer that starts with a complete frame yields exactly that frame and keeps the
      rest as the new head, without reading. */
  lemma SliceFrame(body: string, more: string, rest: seq<string>)
    requires |Frame(body)| <= MaxInt32
    ensures Slice(Frame(body) + more, rest) == Dispatched(Frame(body), LoopState(more, rest))
  {
    var s := Frame(body) + more;
    FrameHeaderFound(body, more);
    DecimalRoundTrip(|body|);
    assert s[..|Frame(body)|] == Frame(body);
    assert s[|Frame(body)|..] == more;
  }

  /** Round trip: a frame produced by the writer, read in one piece, is sliced out whole
      and leaves an empty head. */
  lemma StepFrameRoundTrip(body: string, rest: seq<string>)
    requires |Frame(body)| <= MaxInt32
    ensures Step(LoopState([], [Frame(body)] + rest)) == Dispatched(Frame(body), LoopState([], rest))
  {
    assert Frame(body) + [] == Frame(body);
    SliceFrame(body, [], rest);
    assert ([Frame(body)] + rest)[1..] == rest;
  }

  /** Two complete frames in one read: the first is dispatched and the second stays in the
      head, and the next iteration dispatches it without calling `Read`. */
  lemma StepTwoFramesInOneRead(a: string, b: string, rest: seq<string>)
    requires |Frame(a)| <= MaxInt32 && |Frame(b)| <= MaxInt32
    ensures Step(LoopState([], [Frame(a) + Frame(b)] + rest)) == Dispatched(Frame(a), LoopState(Frame(b), rest))
    ensures Step(LoopState(Frame(b), rest)) == Dispatched(Frame(b), LoopState([], rest))
  {
    SliceFrame(a, Frame(b), rest);
    assert ([Frame(a) + Frame(b)] + rest)[1..] == rest;
    SliceFrame(b, [], rest);
    assert Frame(b) + [] == Frame(b);
  }

  /** A zero-byte read while the head is empty ends the loop without dispatching. */
  lemma StepEndsOnEmptyRead(rest: seq<string>)
    ensures Step(LoopState([], [[]] + rest)) == EndOfInput
    ensures Step(LoopState([], [])) == EndOfInput
    ensures forall head :: |head| > 0 ==> !Step(LoopState(head, [])).EndOfInput?
  {
  }

  /** A buffer with no header match is dropped whole, the head is left empty, and the loop
      goes on reading; nothing is dispatched for it. */
  lemma StepDiscardsUnmatched(st: LoopState)
    requires |Accumulate(st).0| > 0 && ContentLengthMatch(Accumulate(st).0).None?
    ensures Step(st) == Discarded(Accumulate(st).0, LoopState([], Accumulate(st).1))
    ensures Trace(st) == [Step(st)] + Trace(LoopState([], Accumulate(st).1))
  {
  }

  /** The sliced request is `requestIndex + contentLength` characters long, both computed on
      the buffer as it stood before any top-up read. */
  lemma StepSliceLength(st: LoopState)
    requires Step(st).Dispatched?
    ensures var requestString := Accumulate(st).0;
            && ContentLengthMatch(requestString).Some?
            && |Step(st).request| == SliceEnd(requestString, DecimalValue(ContentLengthMatch(requestString).value.digits))
  {
  }

  /** A short buffer is topped up with exactly one more `Read`. If that read brings enough
      text the frame is sliced from the combined buffer; otherwise `Substring` throws.
      The source assumes one read always suffices: that is the first requires below. */
  lemma StepShortBufferReadsOnce(st: LoopState)
    requires var requestString := Accumulate(st).0;
             && |requestString| > 0
             && ContentLengthMatch(requestString).Some?
             && DecimalValue(ContentLengthMatch(requestString).value.digits) <= MaxInt32
             && var end := SliceEnd(requestString, DecimalValue(ContentLengthMatch(requestString).value.digits));
                && end <= MaxInt32 && |requestString| < end
    requires var requestString := Accumulate(st).0;
             |requestString| + |Read(Accumulate(st).1).0|
               >= SliceEnd(requestString, DecimalValue(ContentLengthMatch(requestString).value.digits))
    ensures var acc := Accumulate(st);
            var end := SliceEnd(acc.0, DecimalValue(ContentLengthMatch(acc.0).value.digits));
            var full := acc.0 + Read(acc.1).0;
            Step(st) == Dispatched(full[..end], LoopState(full[end..], Read(acc.1).1))
  {
  }

  /** Without that assumption the short buffer makes the loop fail. */
  lemma StepShortBufferFails(st: LoopState)
    requires var requestString := Accumulate(st).0;
             && |requestString| > 0
             && ContentLengthMatch(requestString).Some?
             && DecimalValue(ContentLengthMatch(requestString).value.digits) <= MaxInt32
             && var end := SliceEnd(requestString, DecimalValue(ContentLengthMatch(requestString).value.digits));
                && end <= MaxInt32 && |requestString| + |Read(Accumulate(st).1).0| < end
    ensures Step(st) == Failed
  {
  }

  // ----- the whole loop -----

  /** Over the whole loop nothing is invented: the dispatched requests and discarded buffers,
      in order, spell a prefix of the initial head followed by all input; and when the loop
      ends at the end of an input without empty reads, they spell all of it. */
  lemma {:induction false} TraceConservesInput(st: LoopState)
    ensures Concat(Texts(Trace(st))) <= st.head + Concat(st.input)
    ensures Trace(st)[|Trace(st)| - 1].EndOfInput? && [] !in st.input
            ==> Concat(Texts(Trace(st))) == st.head + Concat(st.input)
    decreases |st.input|, |st.head|
  {
    hide Step, Trace;
    var r := Step(st);
    if r.Dispatched? || r.Discarded? {
      TraceConservesInput(r.next);
      ConservesAfterStep(st);
    } else {
      ConservesAtEnd(st);
    }
  }

  /** The inductive step of `TraceConservesInput`: what holds for the loop from the state
      an iteration leaves holds for the loop from the state before it. */
  lemma ConservesAfterStep(st: LoopState)
    requires Step(st).Dispatched? || Step(st).Discarded?
    requires var next := Step(st).next;
             && Concat(Texts(Trace(next))) <= next.head + Concat(next.input)
             && (Trace(next)[|Trace(next)| - 1].EndOfInput? && [] !in next.input
                 ==> Concat(Texts(Trace(next))) == next.head + Concat(next.input))
    ensures Concat(Texts(Trace(st))) <= st.head + Concat(st.input)
    ensures Trace(st)[|Trace(st)| - 1].EndOfInput? && [] !in st.input
            ==> Concat(Texts(Trace(st))) == st.head + Concat(st.input)
  {
    hide Step, Trace, Concat, Texts;
    var r := Step(st);
    var next := r.next;
    var q := if r.Dispatched? then r.request else r.text;
    StepSplitsInput(st);
    TextsUnfold(st);
    var t := Trace(st);
    var tn := Trace(next);
    var whole := t[|t| - 1].EndOfInput? && [] !in st.input;
    var wholeRest := tn[|tn| - 1].EndOfInput? && [] !in next.input;
    assert whole ==> wholeRest;
    PrefixExtend(q, Concat(Texts(tn)), next.head, Concat(next.input), st.head, Concat(Consumed(st, next)),
                 whole, wholeRest, Concat(Texts(t)), Concat(st.input));
  }

  /** What one consuming iteration does to the buffer and the input: its text and the new
      head are the old head and what it read, the input splits into what it read and what
      is left, and no empty read appears in what is left unless it was there before. */
  lemma StepSplitsInput(st: LoopState)
    requires Step(st).Dispatched? || Step(st).Discarded?
    ensures var r := Step(st);
            var q := if r.Dispatched? then r.request else r.text;
            && q + r.next.head == st.head + Concat(Consumed(st, r.next))
            && Concat(st.input) == Concat(Consumed(st, r.next)) + Concat(r.next.input)
            && ([] !in st.input ==> [] !in r.next.input)
  {
    hide Step;
    var r := Step(st);
    StepConservesBuffer(st);
    if r.Discarded? {
      assert r.text + r.next.head == r.text;
    }
    SplitInput(st, r.next);
    EmptyReadsStayAbsent(st, r.next);
  }

  /** The last iteration of `TraceConservesInput`: nothing is spelled, and a zero-byte read
      with no empty reads in the input means the input was all used up. */
  lemma ConservesAtEnd(st: LoopState)
    requires Step(st).EndOfInput? || Step(st).Failed?
    ensures Concat(Texts(Trace(st))) <= st.head + Concat(st.input)
    ensures Trace(st)[|Trace(st)| - 1].EndOfInput? && [] !in st.input
            ==> Concat(Texts(Trace(st))) == st.head + Concat(st.input)
  {
    hide Step, Trace;
    var r := Step(st);
    TraceUnfold(st);
    assert Texts([r]) == [];
    assert |st.input| > 0 ==> st.input[0] in st.input;
  }

  /** Prefix bookkeeping for one iteration: what the rest of the loop spells after `q` is a
      prefix of what is left, so the whole is a prefix of the old head and input; and it is
      all of it whenever the rest spells all of what is left. */
  lemma PrefixExtend(q: string, x: string, head: string, rest: string, oldHead: string, consumed: string,
                     whole: bool, wholeRest: bool, spelled: string, input: string)
    requires q + head == oldHead + consumed
    requires x <= head + rest
    requires wholeRest ==> x == head + rest
    requires whole ==> wholeRest
    requires spelled == q + x && input == consumed + rest
    ensures spelled <= oldHead + input
    ensures whole ==> spelled == oldHead + input
  {
    assert oldHead + (consumed + rest) == (q + head) + rest;
    assert (q + head) + rest == q + (head + rest);
  }

  lemma EmptyReadsStayAbsent(st: LoopState, next: LoopState)
    requires |next.input| <= |st.input| && next.input == st.input[|st.input| - |next.input|..]
    ensures [] !in st.input ==> [] !in next.input
  {
    if [] in next.input {
      var i :| 0 <= i < |next.input| && next.input[i] == [];
      assert st.input[|st.input| - |next.input| + i] == [];
    }
  }

  /** One unfolding of `Texts` over `Trace`. */
  lemma TextsUnfold(st: LoopState)
    requires Step(st).Dispatched? || Step(st).Discarded?
    ensures var r := Step(st);
            var q := if r.Dispatched? then r.request else r.text;
            && Concat(Texts(Trace(st))) == q + Concat(Texts(Trace(r.next)))
            && Trace(st)[|Trace(st)| - 1] == Trace(r.next)[|Trace(r.next)| - 1]
  {
    hide Step, Trace;
    TraceUnfold(st);
    TextsCons(Step(st), Trace(Step(st).next));
  }

  /** `Texts` and `Concat` over an outcome list with one consuming iteration in front. */
  lemma TextsCons(o: StepOutcome, rest: seq<StepOutcome>)
    requires o.Dispatched? || o.Discarded?
    requires |rest| >= 1
    ensures var q := if o.Dispatched? then o.request else o.text;
            && Concat(Texts([o] + rest)) == q + Concat(Texts(rest))
            && ([o] + rest)[|rest|] == rest[|rest| - 1]
  {
    var t := [o] + rest;
    assert t[1..] == rest;
    var q := if o.Dispatched? then o.request else o.text;
    assert Texts(t) == [q] + Texts(rest);
    assert ([q] + Texts(rest))[1..] == Texts(rest);
  }

  /** The input splits into what an iteration consumed and what it left. */
  lemma SplitInput(st: LoopState, next: LoopState)
    requires |next.input| <= |st.input| && next.input == st.input[|st.input| - |next.input|..]
    ensures Concat(st.input) == Concat(Consumed(st, next)) + Concat(next.input)
  {
    assert st.input == Consumed(st, next) + next.input;
    ConcatAppend(Consumed(st, next), next.input);
  }

  /** One frame per body, in order. */
  function FrameList(bodies: seq<string>): (fs: seq<string>)
    ensures |fs| == |bodies| && forall i :: 0 <= i < |bodies| ==> fs[i] == Frame(bodies[i])
  {
    if |bodies| == 0 then [] else [Frame(bodies[0])] + FrameList(bodies[1..])
  }

  /** The frames of the bodies, back to back. */
  function Frames(bodies: seq<string>): string {
    Concat(FrameList(bodies))
  }

  /** The first frame, then the others. */
  lemma FramesCons(bodies: seq<string>)
    requires |bodies| > 0
    ensures Frames(bodies) == Frame(bodies[0]) + Frames(bodies[1..])
  {
    assert FrameList(bodies)[1..] == FrameList(bodies[1..]);
  }

  /** Frames already buffered in the head are dispatched one per iteration, in order,
      without reading; only then does the loop read again. */
  lemma {:induction false} TraceDispatchesBufferedFrames(bodies: seq<string>, input: seq<string>)
    requires forall i :: 0 <= i < |bodies| ==> |Frame(bodies[i])| <= MaxInt32
    ensures Requests(Trace(LoopState(Frames(bodies), input)))
            == FrameList(bodies) + Requests(Trace(LoopState([], input)))
    decreases |bodies|
  {
    hide Step, Trace;
    if |bodies| > 0 {
      var st := LoopState(Frames(bodies), input);
      var next := LoopState(Frames(bodies[1..]), input);
      FramesCons(bodies);
      assert st.head == Frame(bodies[0]) + Frames(bodies[1..]);
      StepOnBufferedFrame(bodies[0], Frames(bodies[1..]), input);
      RequestsUnfold(st);
      assert forall i :: 0 <= i < |bodies[1..]| ==> |Frame(bodies[1..][i])| <= MaxInt32 by {
        forall i | 0 <= i < |bodies[1..]| ensures |Frame(bodies[1..][i])| <= MaxInt32 {
          assert bodies[1..][i] == bodies[i + 1];
        }
      }
      TraceDispatchesBufferedFrames(bodies[1..], input);
      var rest := Requests(Trace(LoopState([], input)));
      var later := Requests(Trace(next));
      assert Requests(Trace(st)) == [Frame(bodies[0])] + later;
      assert later == FrameList(bodies[1..]) + rest;
      assert FrameList(bodies) == [Frame(bodies[0])] + FrameList(bodies[1..]);
      AppendAssoc([Frame(bodies[0])], FrameList(bodies[1..]), rest);
    }
  }

  lemma AppendAssoc<T>(a: seq<T>, b: seq<T>, c: seq<T>)
    ensures a + (b + c) == (a + b) + c
  {
  }

  /** A head that starts with a frame is sliced without reading. */
  lemma StepOnBufferedFrame(body: string, more: string, input: seq<string>)
    requires |Frame(body)| <= MaxInt32
    ensures Step(LoopState(Frame(body) + more, input)) == Dispatched(Frame(body), LoopState(more, input))
  {
    SliceFrame(body, more, input);
  }

  /** One unfolding of `Requests` over `Trace`. */
  lemma RequestsUnfold(st: LoopState)
    requires Step(st).Dispatched?
    ensures Requests(Trace(st)) == [Step(st).request] + Requests(Trace(Step(st).next))
  {
    hide Step, Trace;
    TraceUnfold(st);
    var t := Trace(st);
    assert t[1..] == Trace(Step(st).next);
  }

  /** Two frames delivered by one read are both dispatched, in order, and the loop then
      ends at the end of the input. */
  lemma TraceTwoFramesInOneRead(a: string, b: string)
    requires |Frame(a)| <= MaxInt32 && |Frame(b)| <= MaxInt32
    ensures Requests(Trace(LoopState([], [Frame(a) + Frame(b)]))) == [Frame(a), Frame(b)]
    ensures Trace(LoopState([], [Frame(a) + Frame(b)]))[|Trace(LoopState([], [Frame(a) + Frame(b)]))| - 1] == EndOfInput
  {
    hide Step, Trace;
    var st := LoopState([], [Frame(a) + Frame(b)]);
    var mid := LoopState(Frame(b), []);
    var end := LoopState([], []);
    assert [Frame(a) + Frame(b)] + [] == [Frame(a) + Frame(b)];
    StepTwoFramesInOneRead(a, b, []);
    var da := Dispatched(Frame(a), mid);
    var db := Dispatched(Frame(b), end);
    TraceUnfold(st);
    TraceUnfold(mid);
    TraceUnfold(end);
    assert Trace(st) == [da, db, EndOfInput];
    assert Requests([EndOfInput]) == [];
    assert Requests([db, EndOfInput]) == [Frame(b)] + Requests([db, EndOfInput][1..]);
    assert [db, EndOfInput][1..] == [EndOfInput];
    assert [da, db, EndOfInput][1..] == [db, EndOfInput];
  }

  /** A zero-byte read with an empty head is the whole run: nothing is dispatched. */
  lemma TraceEndsOnEmptyRead(rest: seq<string>)
    ensures Trace(LoopState([], [[]] + rest)) == [EndOfInput]
    ensures Requests(Trace(LoopState([], [[]] + rest))) == []
  {
    assert Step(LoopState([], [[]] + rest)) == EndOfInput;
  }

  /** An unmatched buffer contributes no request: the run's requests are those of the loop
      that continues reading after it. */
  lemma TraceSkipsUnmatched(st: LoopState)
    requires |Accumulate(st).0| > 0 && ContentLengthMatch(Accumulate(st).0).None?
    ensures Requests(Trace(st)) == Requests(Trace(LoopState([], Accumulate(st).1)))
  {
    StepDiscardsUnmatched(st);
    var t := Trace(st);
    assert t[1..] == Trace(LoopState([], Accumulate(st).1));
  }

  // ----- log escaping -----

  /** The two `Replace` passes equal one pass that escapes each character on its own. */
  lemma {:induction false} EscapeIsPerCharacter(s: string)
    ensures ConvertNewlinesToEscapeSequence(s) == EscapeEach(s)
    decreases |s|
  {
    if |s| > 0 {
      var c := s[0];
      var first := if c == '\n' then "\\n" else [c];
      assert ReplaceChar(s, '\n', "\\n") == first + ReplaceChar(s[1..], '\n', "\\n");
      ReplaceCharAppend(first, ReplaceChar(s[1..], '\n', "\\n"), '\r', "\\r");
      assert ReplaceChar(first, '\r', "\\r") == EscapeChar(c) by {
        if c == '\n' {
          assert '\r' !in first;
        } else {
          assert first == [c];
          assert ReplaceChar(first, '\r', "\\r") == (if c == '\r' then "\\r" else [c]) + ReplaceChar([], '\r', "\\r");
        }
      }
      EscapeIsPerCharacter(s[1..]);
    }
  }
}

=== FILE: handles.dfy ===
/**
 The handle table: `VariableMap<T>`, which numbers stored values from 1,
 hands out the next number on every `Add`, and forgets everything on
 `Clear`. The session's `Handles<T>` tables (for variable groups and stack
 frames) follow the same rules, with `Create` for `Add` and `Reset` for
 `Clear`, and `Get` returning a default for an unknown handle.

 The id counter is an `int` field, so `id++` wraps after `Int32.MaxValue`.
 */
module Handles {
  import opened Wrappers
  import opened Numbers

  /** The id `Clear` restarts from. */
  const FirstId: Int32 := 1

  datatype Table<T> = Table(next: Int32, entries: map<int, T>) {

    /** Every stored id has been issued: it lies in `[FirstId, next)`. */
    ghost predicate Valid() {
      FirstId <= next && forall k :: k in entries ==> FirstId <= k < next
    }

    /** `TryGet`: the value stored under `id`, if any. */
    function TryGet(id: int): (r: Option<T>)
      ensures r.Some? <==> id in entries
      ensures r.Some? ==> r.value == entries[id]
    {
      if id in entries then Some(entries[id]) else None
    }

    /** `Get(id, dflt)`: the stored value, or `dflt` for an unknown id. */
    function Get(id: int, dflt: T): (r: T)
      ensures id in entries ==> r == entries[id]
      ensures id !in entries ==> r == dflt
    {
      TryGet(id).GetOr(dflt)
    }
  }

  /** `Clear` (and the constructor): the counter restarts at 1 and nothing is stored. */
  function Clear<T>(): (t: Table<T>)
    ensures t.Valid()
    ensures forall id :: t.TryGet(id).None?
    ensures t.next == FirstId
  {
    Table(FirstId, map[])
  }

  /** The id an `Add` returned and the table after it. */
  datatype Added<T> = Added(id: Int32, table: Table<T>)

  /** `Add`: store the value under the current counter and post-increment it. The new value
      is found under the returned id, every other id keeps its value, and in a valid table
      whose counter has not reached `Int32.MaxValue` the id is fresh and positive. */
  function Add<T>(t: Table<T>, value: T): (r: Added<T>)
    ensures r.table.TryGet(r.id) == Some(value)
    ensures forall id :: id != r.id ==> r.table.TryGet(id) == t.TryGet(id)
    ensures r.table.next == Increment(r.id)
    ensures t.Valid() ==> r.id >= FirstId && t.TryGet(r.id).None?
    ensures t.Valid() && t.next < MaxInt32 ==> r.table.Valid()
  {
    Added(t.next, Table(Increment(t.next), t.entries[t.next := value]))
  }

  /** Several `Add`s in a row: the ids they return, and the table after them. */
  datatype AddedAll<T> = AddedAll(ids: seq<Int32>, table: Table<T>)

  function AddAll<T>(t: Table<T>, values: seq<T>): (r: AddedAll<T>)
    ensures |r.ids| == |values|
    decreases |values|
  {
    if |values| == 0 then AddedAll([], t)
    else
      var first := Add(t, values[0]);
      var rest := AddAll(first.table, values[1..]);
      AddedAll([first.id] + rest.ids, rest.table)
  }

  // ----- properties -----

  /** A fresh table's first `Add` returns 1. */
  lemma FirstAddIsOne<T>(value: T)
    ensures Add(Clear<T>(), value).id == 1
    ensures Add(Clear<T>(), value).table.TryGet(1) == Some(value)
  {
  }

  /** Successive `Add`s return consecutive ids: the `i`-th of them the counter after `i`
      increments, so from a valid table that stays below `Int32.MaxValue` they are
      `next, next + 1, ...`, all positive and pairwise distinct. */
  lemma {:induction false} AddsAreConsecutive<T>(t: Table<T>, values: seq<T>)
    ensures var r := AddAll(t, values);
            && (forall i :: 0 <= i < |values| ==> r.ids[i] == Advance(t.next, i))
            && r.table.next == Advance(t.next, |values|)
    decreases |values|
  {
    if |values| > 0 {
      var first := Add(t, values[0]);
      AddsAreConsecutive(first.table, values[1..]);
      var r := AddAll(t, values);
      forall i | 0 <= i < |values|
        ensures r.ids[i] == Advance(t.next, i)
      {
        if i > 0 {
          assert r.ids[i] == AddAll(first.table, values[1..]).ids[i - 1];
        }
      }
    }
  }

  /** Without wrap-around the consecutive ids are `next + i`: never 0 and never repeated. */
  lemma AddsNeverRepeat<T>(t: Table<T>, values: seq<T>)
    requires t.Valid() && t.next + |values| <= MaxInt32
    ensures var r := AddAll(t, values);
            && (forall i :: 0 <= i < |values| ==> r.ids[i] == t.next + i && r.ids[i] != 0)
            && (forall i, j :: 0 <= i < j < |values| ==> r.ids[i] != r.ids[j])
  {
    var r := AddAll(t, values);
    AddsAreConsecutive(t, values);
    forall i | 0 <= i < |values|
      ensures r.ids[i] == t.next + i
    {
      AdvanceIsSum(t.next, i);
    }
  }

  /** Round trip: what one `Add` stored is found again after later `Add`s of other values,
      as long as the counter does not wrap back onto it. */
  lemma AddedStaysFound<T>(t: Table<T>, value: T, later: seq<T>)
    requires t.Valid() && t.next + |later| < MaxInt32
    ensures var a := Add(t, value);
            AddAll(a.table, later).table.TryGet(a.id) == Some(value)
  {
    var a := Add(t, value);
    StaysFoundAfter(a.table, a.id, value, later);
  }

  /** A value stored under an id below the counter survives further `Add`s that do not wrap. */
  lemma {:induction false} StaysFoundAfter<T>(t: Table<T>, id: int, value: T, later: seq<T>)
    requires t.Valid() && t.next + |later| <= MaxInt32
    requires t.TryGet(id) == Some(value)
    ensures AddAll(t, later).table.TryGet(id) == Some(value)
    decreases |later|
  {
    if |later| > 0 {
      var a := Add(t, later[0]);
      StaysFoundAfter(a.table, id, value, later[1..]);
    }
  }

  /** Round trip for a run of `Add`s that does not wrap: the table stays valid, and each
      returned id resolves to the value added under it. */
  lemma {:induction false} AddAllFinds<T>(t: Table<T>, values: seq<T>)
    requires t.Valid() && t.next + |values| <= MaxInt32
    ensures var r := AddAll(t, values);
            && r.table.Valid() && r.table.next == t.next + |values|
            && forall i :: 0 <= i < |values| ==> r.table.TryGet(r.ids[i]) == Some(values[i])
    decreases |values|
  {
    if |values| > 0 {
      var first := Add(t, values[0]);
      var rest := values[1..];
      AddAllFinds(first.table, rest);
      StaysFoundAfter(first.table, first.id, values[0], rest);
      var r := AddAll(t, values);
      forall i | 1 <= i < |values|
        ensures r.table.TryGet(r.ids[i]) == Some(values[i])
      {
        assert r.ids[i] == AddAll(first.table, rest).ids[i - 1];
        assert values[i] == rest[i - 1];
      }
    }
  }

  /** An id the table never issued is not found: `TryGet` fails below 1 and at or above
      the counter. */
  lemma NeverIssuedIsMissing<T>(t: Table<T>, id: int)
    requires t.Valid() && (id < FirstId || id >= t.next)
    ensures t.TryGet(id).None?
  {
  }
}

=== FILE: inspection.dfy ===
/**
 The requests that inspect a suspended debuggee: `variables` (with
 `CreateVariable`), `evaluate`, `scopes`, `stackTrace` and `threads`. Each
 hands out variable or frame handles that later requests resolve, and each
 stop forgets them again.
 */
module Inspection {
  import opened Wrappers
  import opened Numbers
  import opened Text
  import opened Engine
  import opened Protocol
  import opened Session
  import Handles

  // ----- CreateVariable -----

  /** A display value wrapped in braces, longer than one character, loses them. */
  function StripBraces(dv: string): (r: string)
    ensures |dv| > 1 && dv[0] == '{' && dv[|dv| - 1] == '}' ==> dv == "{" + r + "}"
    ensures !(|dv| > 1 && dv[0] == '{' && dv[|dv| - 1] == '}') ==> r == dv
  {
    if |dv| > 1 && dv[0] == '{' && dv[|dv| - 1] == '}' then dv[1..|dv| - 1] else dv
  }

  /** A protocol variable and the variable table after creating it. */
  datatype Created = Created(variable: Variable, table: Handles.Table<seq<Value>>)

  /** `CreateVariable`: name, display value without its braces, type, and a fresh handle for
      the children when the value has any (0 otherwise). */
  function CreateVariable(t: Handles.Table<seq<Value>>, v: Value): (c: Created)
    ensures c.variable.name == v.name && c.variable.typeName == Some(v.typeName)
    ensures c.variable.value == Some(StripBraces(v.displayValue))
    ensures v.hasChildren ==> c.table.TryGet(c.variable.variablesReference) == Some(v.children)
    ensures !v.hasChildren ==> c.variable.variablesReference == 0 && c.table == t
    ensures t.Valid() && v.hasChildren ==> c.variable.variablesReference != 0
  {
    if v.hasChildren then
      var a := Handles.Add(t, v.children);
      Created(Variable(v.name, Some(StripBraces(v.displayValue)), Some(v.typeName), a.id), a.table)
    else Created(Variable(v.name, Some(StripBraces(v.displayValue)), Some(v.typeName), 0), t)
  }

  /** The variables and the table after creating several in order. */
  datatype CreatedAll = CreatedAll(variables: seq<Variable>, table: Handles.Table<seq<Value>>)

  function CreateVariables(t: Handles.Table<seq<Value>>, vs: seq<Value>): (c: CreatedAll)
    ensures |c.variables| == |vs|
  {
    if |vs| == 0 then CreatedAll([], t)
    else
      var p := CreateVariables(t, vs[..|vs| - 1]);
      var one := CreateVariable(p.table, vs[|vs| - 1]);
      CreatedAll(p.variables + [one.variable], one.table)
  }

  /** The values that are not errors, in order. */
  function NonErrors(vs: seq<Value>): (r: seq<Value>)
    ensures |r| <= |vs|
    ensures forall i :: 0 <= i < |r| ==> !r[i].IsError() && r[i] in vs
    ensures forall v :: v in r <==> v in vs && !v.IsError()
  {
    if |vs| == 0 then []
    else NonErrors(vs[..|vs| - 1]) + (if vs[|vs| - 1].IsError() then [] else [vs[|vs| - 1]])
  }

  /** Filtering keeps the order: the values kept from a concatenation are those kept from
      each part, one part after the other. */
  lemma {:induction false} NonErrorsAppend(a: seq<Value>, b: seq<Value>)
    ensures NonErrors(a + b) == NonErrors(a) + NonErrors(b)
    decreases |b|
  {
    if |b| == 0 {
      assert a + b == a;
    } else {
      var b' := b[..|b| - 1];
      assert (a + b)[..|a + b| - 1] == a + b';
      NonErrorsAppend(a, b');
    }
  }

  /** The `i`-th created variable describes the `i`-th value. */
  lemma {:induction false} CreateVariablesDescribe(t: Handles.Table<seq<Value>>, vs: seq<Value>)
    ensures var c := CreateVariables(t, vs);
            forall i :: 0 <= i < |vs| ==>
              c.variables[i].name == vs[i].name && c.variables[i].value == Some(StripBraces(vs[i].displayValue))
              && (c.variables[i].variablesReference == 0 <== !vs[i].hasChildren)
    decreases |vs|
  {
    if |vs| > 0 {
      CreateVariablesDescribe(t, vs[..|vs| - 1]);
    }
  }

  // ----- variables -----

  const MissingReferenceMessage: string := "variables: property 'variablesReference' is missing"

  /** The `variables` handler. `reference` is the argument, -1 when it is missing. */
  function Variables(s: State, reference: Int32): (o: Outcome)
    ensures !o.faulted && |o.sent| == 1
    ensures o.state == s.(executing := o.state.executing, variableHandles := o.state.variableHandles)
    ensures reference != -1 ==> !o.state.executing
  {
    if reference == -1 then Outcome(s, [RespondError(3009, MissingReferenceMessage, None)], false)
    else
      var s1 := WaitForSuspend(s);
      match s1.variableHandles.TryGet(reference)
      case None => Outcome(s1, [Respond(VariablesBody([]))], false)
      case Some(children) =>
        if |children| == 0 then Outcome(s1, [Respond(VariablesBody([]))], false)
        else
          var more := |children| > MaxChildren;
          var shown := if more then children[..MaxChildren] else children;
          var c := CreateVariables(s1.variableHandles, NonErrors(shown));
          Outcome(s1.(variableHandles := c.table),
                  [Respond(VariablesBody(c.variables + if more then [MorePlaceholder] else []))], false)
  }

  /** What a `variables` request lists for a handle: one variable per non-error child
      among the first hundred, in order, followed by the "..." placeholder exactly when
      there are more than a hundred children; nothing for an unknown handle; and error
      3009 without touching the session when the reference is missing. */
  lemma VariablesListsChildren(s: State, reference: Int32)
    ensures var o := Variables(s, reference);
            && !o.faulted && |o.sent| == 1
            && (reference == -1 ==> o.sent[0] == RespondError(3009, MissingReferenceMessage, None) && o.state == s)
            && (reference != -1 ==>
                  && o.sent[0].Respond? && o.sent[0].body.VariablesBody? && !o.state.executing
                  && var vars := o.sent[0].body.variables;
                  && (s.variableHandles.TryGet(reference).None? ==> vars == [])
                  && (s.variableHandles.TryGet(reference).Some? ==>
                        var children := s.variableHandles.TryGet(reference).value;
                        var shown := NonErrors(if |children| > MaxChildren then children[..MaxChildren] else children);
                        var more := |children| > MaxChildren;
                        && |vars| == |shown| + (if more then 1 else 0)
                        && (forall i :: 0 <= i < |shown| ==>
                              vars[i].name == shown[i].name && vars[i].value == Some(StripBraces(shown[i].displayValue)))
                        && (more ==> vars[|vars| - 1] == MorePlaceholder)))
  {
    if reference != -1 && s.variableHandles.TryGet(reference).Some? {
      var children := s.variableHandles.TryGet(reference).value;
      var shown := NonErrors(if |children| > MaxChildren then children[..MaxChildren] else children);
      CreateVariablesDescribe(s.variableHandles, shown);
    }
  }

  // ----- evaluate -----

  const EvaluateFormat: string := "Evaluate request failed ({_reason})."
  const NotAvailableText: string := "reference not available in the current evaluation context"

  /** `SendError`: error 3014 with the reason in its placeholder. */
  function EvaluateError(reason: string): Sent {
    RespondError(3014, EvaluateFormat, Some(reason))
  }

  /** What the engine does for `evaluate`: whether an expression is valid in a frame, and
      the value it evaluates to there. */
  datatype Evaluator = Evaluator(validate: (Frame, string) -> bool, evaluate: (Frame, string) -> Value)

  /** The reason reported for a value that failed: "not available" when the engine's
      message mentions the evaluation context anywhere after its first character. */
  function FailureReason(display: string): (r: string)
    ensures r == "not available" || r == display
    ensures IndexOf(display, NotAvailableText) > 0 ==> r == "not available"
    ensures !Contains(display, NotAvailableText) ==> r == display
  {
    if IndexOf(display, NotAvailableText) > 0 then "not available" else display
  }

  /** The `evaluate` handler; `expression` is the trimmed argument (None when missing or
      blank) and `frameId` the frame handle. */
  function Evaluate(s: State, expression: Option<string>, frameId: int, engine: Evaluator): (o: Outcome)
    ensures !o.faulted && |o.sent| == 1 && (o.sent[0].RespondError? || o.sent[0].Respond?)
    ensures o.state == s.(variableHandles := o.state.variableHandles)
    ensures o.sent[0].RespondError? ==> o.state == s && o.sent[0].code == 3014
  {
    if expression.None? then Outcome(s, [EvaluateError("expression missing")], false)
    else match s.frameHandles.TryGet(frameId)
      case None => Outcome(s, [EvaluateError("no active stackframe")], false)
      case Some(frame) =>
        if !engine.validate(frame, expression.value) then Outcome(s, [EvaluateError("invalid expression")], false)
        else
          var v := engine.evaluate(frame, expression.value);
          if Error in v.flags || NotSupported in v.flags then Outcome(s, [EvaluateError(FailureReason(v.displayValue))], false)
          else if Unknown in v.flags then Outcome(s, [EvaluateError("invalid expression")], false)
          else if Object in v.flags && Namespace in v.flags then Outcome(s, [EvaluateError("not available")], false)
          else if v.hasChildren then
            var a := Handles.Add(s.variableHandles, v.children);
            Outcome(s.(variableHandles := a.table), [Respond(EvaluateBody(v.displayValue, a.id))], false)
          else Outcome(s, [Respond(EvaluateBody(v.displayValue, 0))], false)
  }

  /** The checks happen in order, each failure answered by one 3014 error without touching
      the session: a missing expression, an unknown frame, an expression the frame rejects,
      then a value flagged as an error, unknown, or a namespace object. */
  lemma EvaluateErrors(s: State, expression: Option<string>, frameId: int, engine: Evaluator)
    ensures var o := Evaluate(s, expression, frameId, engine);
            && !o.faulted && |o.sent| == 1
            && (o.sent[0].RespondError? ==> o.sent[0].code == 3014 && o.state == s)
            && (expression.None? ==> o.sent[0] == EvaluateError("expression missing"))
            && (expression.Some? && s.frameHandles.TryGet(frameId).None? ==> o.sent[0] == EvaluateError("no active stackframe"))
            && (expression.Some? && s.frameHandles.TryGet(frameId).Some? ==>
                  var frame := s.frameHandles.TryGet(frameId).value;
                  var v := engine.evaluate(frame, expression.value);
                  && (!engine.validate(frame, expression.value) ==> o.sent[0] == EvaluateError("invalid expression"))
                  && (engine.validate(frame, expression.value) ==>
                        && (Error in v.flags || NotSupported in v.flags ==> o.sent[0] == EvaluateError(FailureReason(v.displayValue)))
                        && (o.sent[0].Respond? <==>
                              !(Error in v.flags || NotSupported in v.flags || Unknown in v.flags
                                || (Object in v.flags && Namespace in v.flags)))))
  {
  }

  /** Round trip: a successful evaluation of a value with children hands out a fresh handle
      under which a following `variables` request finds those children. */
  lemma EvaluateThenVariables(s: State, expression: Option<string>, frameId: int, engine: Evaluator)
    requires s.variableHandles.Valid()
    ensures var o := Evaluate(s, expression, frameId, engine);
            o.sent[0].Respond? && o.sent[0].body.variablesReference != 0 ==>
              && s.variableHandles.TryGet(o.sent[0].body.variablesReference).None?
              && o.state.variableHandles.TryGet(o.sent[0].body.variablesReference)
                   == Some(engine.evaluate(s.frameHandles.TryGet(frameId).value, expression.value).children)
    ensures var o := Evaluate(s, expression, frameId, engine);
            o.sent[0].Respond? ==>
              (o.sent[0].body.variablesReference != 0 <==>
                 engine.evaluate(s.frameHandles.TryGet(frameId).value, expression.value).hasChildren)
  {
  }

  // ----- scopes -----

  /** The non-null values of a frame: `this`, then the parameters, then the locals. */
  function FrameValues(f: Frame): (r: seq<Value>)
    ensures forall v :: v in r <==> (Some(v) == f.thisReference || Some(v) in f.parameters || Some(v) in f.locals)
  {
    Present([f.thisReference] + f.parameters + f.locals)
  }

  /** The values that are not null, in order. */
  function Present(vs: seq<Option<Value>>): (r: seq<Value>)
    ensures forall v :: v in r <==> Some(v) in vs
  {
    if |vs| == 0 then []
    else
      assert vs == [vs[0]] + vs[1..];
      (if vs[0].Some? then [vs[0].value] else []) + Present(vs[1..])
  }

  /** The `scopes` handler: an unknown frame handle is a null frame and throws; otherwise
      an "Exception" scope for the top frame while an exception is remembered, and a
      "Local" scope when the frame has any non-null value. */
  function Scopes(s: State, frameId: int): (o: Outcome)
    ensures o.faulted <==> s.frameHandles.TryGet(frameId).None?
    ensures o.faulted ==> o.state == s && o.sent == []
    ensures o.state == s.(variableHandles := o.state.variableHandles)
    ensures !o.faulted ==> |o.sent| == 1 && o.sent[0].Respond? && o.sent[0].body.ScopesBody? && |o.sent[0].body.scopes| <= 2
  {
    match s.frameHandles.TryGet(frameId)
    case None => Outcome(s, [], true)
    case Some(frame) =>
      var withException := frame.index == 0 && s.exception.Some?;
      var e := Handles.Add(s.variableHandles, if s.exception.Some? then [s.exception.value] else []);
      var t1 := if withException then e.table else s.variableHandles;
      var exScopes := if withException then [Scope("Exception", e.id)] else [];
      var locals := FrameValues(frame);
      var l := Handles.Add(t1, locals);
      if |locals| > 0 then
        Outcome(s.(variableHandles := l.table), [Respond(ScopesBody(exScopes + [Scope("Local", l.id)]))], false)
      else
        Outcome(s.(variableHandles := t1), [Respond(ScopesBody(exScopes))], false)
  }

  /** Each scope's handle resolves to what it shows: the "Exception" scope to the
      remembered exception alone, the "Local" scope to the frame's non-null values; the
      scopes appear exactly when their condition holds, "Exception" first. */
  lemma ScopesResolve(s: State, frameId: int)
    requires s.variableHandles.Valid() && s.variableHandles.next < MaxInt32
    ensures var o := Scopes(s, frameId);
            && (o.faulted <==> s.frameHandles.TryGet(frameId).None?)
            && (!o.faulted ==>
                  var frame := s.frameHandles.TryGet(frameId).value;
                  var withException := frame.index == 0 && s.exception.Some?;
                  var hasLocals := |FrameValues(frame)| > 0;
                  && o.sent[0].Respond? && o.sent[0].body.ScopesBody?
                  && var scopes := o.sent[0].body.scopes;
                  && |scopes| == (if withException then 1 else 0) + (if hasLocals then 1 else 0)
                  && (withException ==>
                        scopes[0].name == "Exception"
                        && o.state.variableHandles.TryGet(scopes[0].variablesReference) == Some([s.exception.value]))
                  && (hasLocals ==>
                        scopes[|scopes| - 1].name == "Local"
                        && o.state.variableHandles.TryGet(scopes[|scopes| - 1].variablesReference) == Some(FrameValues(frame))))
  {
  }

  // ----- stackTrace -----

  /** `Path.GetFileName`: what follows the last directory separator (on Windows also the
      alternative separator and the volume separator). */
  function FileName(path: string, windows: bool): (r: string)
    ensures |r| <= |path| && r == path[|path| - |r|..]
    ensures forall i :: 0 <= i < |r| ==> !IsSeparator(r[i], windows)
    ensures |r| < |path| ==> IsSeparator(path[|path| - |r| - 1], windows)
  {
    if |path| == 0 || IsSeparator(path[|path| - 1], windows) then []
    else FileName(path[..|path| - 1], windows) + [path[|path| - 1]]
  }

  predicate IsSeparator(c: char, windows: bool) {
    c == '/' || (windows && (c == '\\' || c == ':'))
  }

  /** The frame's source: none without a file name; a normal source with its path when the
      file exists; otherwise a deemphasized source without a path. */
  function SourceOf(fileName: Option<string>, windows: bool, exists_: string -> bool): (r: Option<Source>)
    ensures r.Some? ==> fileName.Some? && r.value.name == FileName(fileName.value, windows) && r.value.name != []
    ensures r.Some? ==> (r.value.path.Some? <==> exists_(fileName.value))
    ensures r.Some? && r.value.path.Some? ==> r.value.path.value == fileName.value && r.value.hint == "normal"
    ensures r.None? <==> fileName.None? || fileName.value == [] || FileName(fileName.value, windows) == []
  {
    if fileName.None? || fileName.value == [] then None
    else
      var name := FileName(fileName.value, windows);
      if name == [] then None
      else if exists_(fileName.value) then Some(Source(name, Some(fileName.value), 0, "normal"))
      else Some(Source(name, None, 1000, "deemphasize"))
  }

  /** One protocol stack frame. */
  function FrameRecord(handle: int, f: Frame, windows: bool, exists_: string -> bool): StackFrameRecord {
    var source := SourceOf(f.fileName, windows, exists_);
    StackFrameRecord(handle, f.methodName, source, f.line, 0,
                     if source.Some? && source.value.path.Some? then "normal" else "subtle")
  }

  /** The protocol frames for frames listed under the given handles, in order. */
  function Records(handles: seq<int>, frames: seq<Frame>, windows: bool, exists_: string -> bool): (r: seq<StackFrameRecord>)
    requires |handles| == |frames|
    ensures |r| == |frames|
  {
    seq(|frames|, i requires 0 <= i < |frames| => FrameRecord(handles[i], frames[i], windows, exists_))
  }

  /** The arguments of `stackTrace`, defaults applied. */
  datatype TraceArgs = TraceArgs(levels: Int32, startFrame: Int32, threadId: Int32)

  /** The thread `stackTrace` reads: the active thread, or the process's thread with the
      requested id when the active one is another (made active then). None is null. */
  function TraceThread(s: State, threadId: int): (r: Option<EngineThread>)
    ensures r.Some? ==> s.debuggee.Some? && s.debuggee.value.activeThread.Some? && r.value.id == threadId
    ensures r.Some? && r != s.debuggee.value.activeThread ==>
              s.activeProcess.Some? && r.value in s.activeProcess.value.threads
    ensures s.debuggee.Some? && s.debuggee.value.activeThread.Some? && s.debuggee.value.activeThread.value.id == threadId ==>
              r == s.debuggee.value.activeThread
  {
    if s.debuggee.None? || s.debuggee.value.activeThread.None? then None
    else if s.debuggee.value.activeThread.value.id == threadId then s.debuggee.value.activeThread
    else if s.activeProcess.None? then None
    else FindThread(s.activeProcess.value.threads, threadId)
  }

  /** `FindThread`: the first thread with the id. */
  function FindThread(threads: seq<EngineThread>, id: int): (r: Option<EngineThread>)
    ensures r.Some? ==> r.value in threads && r.value.id == id
    ensures r.Some? ==> exists k :: 0 <= k < |threads| && threads[k] == r.value &&
                                    forall j :: 0 <= j < k ==> threads[j].id != id
    ensures r.None? ==> forall t :: t in threads ==> t.id != id
  {
    if |threads| == 0 then None
    else if threads[0].id == id then Some(threads[0])
    else FindThread(threads[1..], id)
  }

  /** The end of the listed window: the total or `startFrame + levels`, the sum taken in
      32-bit arithmetic. */
  function WindowEnd(total: nat, args: TraceArgs): int {
    var last := ToInt32(args.startFrame + args.levels);
    if total < last then total else last
  }

  /** The `stackTrace` handler. A missing active thread, or a requested one that is not
      found, is a null thread and throws. A non-empty window that starts at a negative
      frame asks the engine's `GetFrame` for a negative index; the engine is not part of
      this model, which takes that request to yield no frame, so that the handler throws.
      `windows` selects the path separators and `exists_` is `File.Exists`. */
  function StackTrace(s: State, args: TraceArgs, windows: bool, exists_: string -> bool): (o: Outcome)
    ensures o.faulted ==> o.sent == []
    ensures !o.faulted ==> |o.sent| == 1 && o.sent[0].Respond? && o.sent[0].body.StackTraceBody?
    ensures TraceThread(WaitForSuspend(s), args.threadId).None? ==> o.faulted
    ensures o.state == WaitForSuspend(s).(debuggee := o.state.debuggee, frameHandles := o.state.frameHandles)
  {
    var s1 := WaitForSuspend(s);
    match TraceThread(s1, args.threadId)
    case None => Outcome(s1, [], true)
    case Some(thread) =>
      var s2 := if thread == s1.debuggee.value.activeThread.value then s1
                else s1.(debuggee := Some(s1.debuggee.value.(activeThread := Some(thread))));
      match thread.backtrace
      case None => Outcome(s2, [Respond(StackTraceBody([], 0))], false)
      case Some(bt) =>
        var total := |bt|;
        var end := WindowEnd(total, args);
        if args.startFrame >= end then Outcome(s2, [Respond(StackTraceBody([], total))], false)
        else if args.startFrame < 0 then Outcome(s2, [], true)
        else
          var frames := bt[args.startFrame..end];
          var added := Handles.AddAll(s2.frameHandles, frames);
          Outcome(s2.(frameHandles := added.table), [Respond(StackTraceBody(Records(added.ids, frames, windows, exists_), total))], false)
  }

  /** What `stackTrace` lists: with a backtrace, the frames from `startFrame` up to the
      window's end, each under a new frame handle that resolves to it, and the backtrace's
      length as the total; without one, nothing and a total of 0. */
  lemma StackTraceWindow(s: State, args: TraceArgs, windows: bool, exists_: string -> bool)
    requires s.frameHandles.Valid() && s.frameHandles.next + |TraceFrames(s, args)| <= MaxInt32
    ensures var o := StackTrace(s, args, windows, exists_);
            var thread := TraceThread(s, args.threadId);
            (!o.faulted ==>
                  && o.sent[0].Respond? && o.sent[0].body.StackTraceBody?
                  && var body := o.sent[0].body;
                  && var frames := TraceFrames(s, args);
                  && body.totalFrames == (if thread.value.backtrace.Some? then |thread.value.backtrace.value| else 0)
                  && |body.stackFrames| == |frames|
                  && forall i :: 0 <= i < |frames| ==>
                       && body.stackFrames[i] == FrameRecord(s.frameHandles.next + i, frames[i], windows, exists_)
                       && o.state.frameHandles.TryGet(s.frameHandles.next + i) == Some(frames[i]))
  {
    hide StackTrace, TraceFrames, Records, FrameRecord;
    var frames := TraceFrames(s, args);
    if frames != [] {
      StackTraceLists(s, args, windows, exists_);
      RecordsUnderNewHandles(s.frameHandles, frames, windows, exists_);
    } else {
      StackTraceListsNothing(s, args, windows, exists_);
    }
  }

  /** An empty window, when it does not throw, lists no frames. */
  lemma StackTraceListsNothing(s: State, args: TraceArgs, windows: bool, exists_: string -> bool)
    requires TraceFrames(s, args) == []
    ensures var o := StackTrace(s, args, windows, exists_);
            var thread := TraceThread(s, args.threadId);
            !o.faulted ==>
              o.sent == [Respond(StackTraceBody([], if thread.value.backtrace.Some? then |thread.value.backtrace.value| else 0))]
  {
  }

  /** A non-empty window is listed under handles added to the frame table in order. */
  lemma StackTraceLists(s: State, args: TraceArgs, windows: bool, exists_: string -> bool)
    requires TraceFrames(s, args) != []
    ensures var o := StackTrace(s, args, windows, exists_);
            var frames := TraceFrames(s, args);
            var added := Handles.AddAll(s.frameHandles, frames);
            && TraceThread(s, args.threadId).Some? && TraceThread(s, args.threadId).value.backtrace.Some?
            && !o.faulted
            && o.sent == [Respond(StackTraceBody(Records(added.ids, frames, windows, exists_),
                                                 |TraceThread(s, args.threadId).value.backtrace.value|))]
            && o.state.frameHandles == added.table
  {
  }

  /** Frames added to a table that does not wrap are recorded under consecutive new handles,
      each of which resolves to its frame. */
  lemma RecordsUnderNewHandles(t: Handles.Table<Frame>, frames: seq<Frame>, windows: bool, exists_: string -> bool)
    requires t.Valid() && t.next + |frames| <= MaxInt32
    ensures var added := Handles.AddAll(t, frames);
            var records := Records(added.ids, frames, windows, exists_);
            forall i :: 0 <= i < |frames| ==>
              && records[i] == FrameRecord(t.next + i, frames[i], windows, exists_)
              && added.table.TryGet(t.next + i) == Some(frames[i])
  {
    hide FrameRecord, SourceOf, Handles.AddAll;
    var added := Handles.AddAll(t, frames);
    var records := Records(added.ids, frames, windows, exists_);
    Handles.AddsNeverRepeat(t, frames);
    Handles.AddAllFinds(t, frames);
    forall i | 0 <= i < |frames|
      ensures records[i] == FrameRecord(t.next + i, frames[i], windows, exists_)
    {
      assert records[i] == FrameRecord(added.ids[i], frames[i], windows, exists_);
    }
  }

  /** `stackTrace` throws exactly when there is no thread to trace, or when a backtrace's
      window is non-empty but starts at a negative frame (the second under this model's
      reading of `GetFrame` on a negative index). */
  lemma StackTraceFaults(s: State, args: TraceArgs, windows: bool, exists_: string -> bool)
    ensures var o := StackTrace(s, args, windows, exists_);
            var thread := TraceThread(s, args.threadId);
            o.faulted <==> thread.None? || (thread.value.backtrace.Some? && 0 > args.startFrame
                                            && args.startFrame < WindowEnd(|thread.value.backtrace.value|, args))
  {
  }

  /** The frames a `stackTrace` request lists. */
  function TraceFrames(s: State, args: TraceArgs): seq<Frame> {
    var thread := TraceThread(s, args.threadId);
    if thread.None? || thread.value.backtrace.None? then []
    else
      var bt := thread.value.backtrace.value;
      var end := WindowEnd(|bt|, args);
      if 0 <= args.startFrame < end then bt[args.startFrame..end] else []
  }

  /** Without wrap-around the window is the usual one: `levels` frames from `startFrame`,
      fewer at the end of the backtrace. */
  lemma TraceWindowSize(s: State, args: TraceArgs)
    requires args.startFrame >= 0 && args.levels >= 0 && args.startFrame + args.levels <= MaxInt32
    ensures var thread := TraceThread(s, args.threadId);
            thread.Some? && thread.value.backtrace.Some? ==>
              var n := |thread.value.backtrace.value|;
              |TraceFrames(s, args)| == (if args.startFrame >= n then 0
                                         else if n - args.startFrame < args.levels then n - args.startFrame
                                         else args.levels)
  {
    ToInt32InRange(args.startFrame + args.levels);
  }

  // ----- threads -----

  /** The `threads` handler: nothing without a process; otherwise the threads seen so far,
      each overwritten by the process's thread of the same 32-bit id. */
  function Threads(s: State): (o: Outcome)
    ensures o.state == s && !o.faulted
    ensures |o.sent| == 1 && o.sent[0].Respond? && o.sent[0].body.ThreadsBody?
    ensures s.activeProcess.None? ==> o.sent[0].body.threads == map[]
    ensures s.activeProcess.Some? ==>
              forall k :: k in o.sent[0].body.threads <==>
                k in s.seenThreads || exists t :: t in s.activeProcess.value.threads && ToInt32(t.id) == k
  {
    match s.activeProcess
    case None => Outcome(s, [Respond(ThreadsBody(map[]))], false)
    case Some(p) => Outcome(s, [Respond(ThreadsBody(MergeThreads(s.seenThreads, p.threads)))], false)
  }

  /** The seen threads with the process's threads written over them in order. */
  function MergeThreads(seen: map<int, Thread>, threads: seq<EngineThread>): (d: map<int, Thread>)
    ensures forall t :: t in threads ==> ToInt32(t.id) in d
    ensures forall k :: k in seen ==> k in d
    ensures forall k :: k in d ==> k in seen || exists t :: t in threads && ToInt32(t.id) == k
    ensures forall k :: k in d && (forall t :: t in threads ==> ToInt32(t.id) != k) ==> d[k] == seen[k]
  {
    if |threads| == 0 then seen
    else
      var t := threads[|threads| - 1];
      var d := MergeThreads(seen, threads[..|threads| - 1]);
      assert forall u :: u in threads ==> u == t || u in threads[..|threads| - 1];
      d[ToInt32(t.id) := MakeThread(ToInt32(t.id), t.name)]
  }

  /** The listed thread for a process thread's id is the last process thread with that
      32-bit id, named as the `Thread` constructor names it. */
  lemma {:induction false} MergeThreadsLastWins(seen: map<int, Thread>, threads: seq<EngineThread>, i: nat)
    requires i < |threads|
    requires forall j :: i < j < |threads| ==> ToInt32(threads[j].id) != ToInt32(threads[i].id)
    ensures MergeThreads(seen, threads)[ToInt32(threads[i].id)] == MakeThread(ToInt32(threads[i].id), threads[i].name)
    decreases |threads|
  {
    if i < |threads| - 1 {
      MergeThreadsLastWins(seen, threads[..|threads| - 1], i);
    }
  }
}

=== FILE: messages.dfy ===
/**
 The three message shapes of the wire protocol (request, response, event),
 the response builders, and the header/body split of `Request.Parse`.
 JSON payloads are kept as uninterpreted text.
 */
module Messages {
  import opened Wrappers
  import opened Text

  /** A JSON value the model does not look into. */
  type Json = string

  /** The blank line that ends the header block of a frame. */
  const HeaderSeparator: string := "\r\n\r\n"

  datatype Request = Request(seqNum: int, command: string, arguments: Option<Json>)

  datatype Response = Response(
    seqNum: int,
    requestSeq: int,
    success: bool,
    running: bool,
    command: string,
    message: string,
    body: Option<Json>)

  datatype Event = Event(seqNum: int, event: string, body: Option<Json>)

  /** Any message; `Type()` is the `type` field the serialiser writes. */
  datatype Message =
    | RequestMessage(request: Request)
    | ResponseMessage(response: Response)
    | EventMessage(ev: Event)
  {
    function Type(): string {
      match this
      case RequestMessage(_) => "request"
      case ResponseMessage(_) => "response"
      case EventMessage(_) => "event"
    }

    function SeqNum(): int {
      match this
      case RequestMessage(q) => q.seqNum
      case ResponseMessage(p) => p.seqNum
      case EventMessage(e) => e.seqNum
    }

    /** The same message with its `seq` field overwritten. */
    function WithSeq(n: int): (m: Message)
      ensures m.SeqNum() == n && m.Type() == Type()
    {
      match this
      case RequestMessage(q) => RequestMessage(q.(seqNum := n))
      case ResponseMessage(p) => ResponseMessage(p.(seqNum := n))
      case EventMessage(e) => EventMessage(e.(seqNum := n))
    }
  }

  // ----- Response builders -----

  /** `Response.Create`: echoes the request's seq and command; the message is "OK"
      exactly for a successful response and "Failure" otherwise. */
  function Create(request: Request, success: bool, running: bool, body: Option<Json>): (r: Response)
    ensures r.requestSeq == request.seqNum && r.command == request.command
    ensures r.success == success && r.running == running && r.body == body
    ensures r.message == "OK" <==> success
    ensures !success ==> r.message == "Failure"
  {
    Response(0, request.seqNum, success, running, request.command, if success then "OK" else "Failure", body)
  }

  /** `Response.Default`: a successful, not-running response without a body. */
  function Default(request: Request): (r: Response)
    ensures r.success && !r.running && r.body.None? && r.message == "OK"
    ensures r.requestSeq == request.seqNum && r.command == request.command
  {
    Create(request, true, false, None)
  }

  /** `Response.Failure`: a failed, not-running response without a body, carrying the
      caller's message verbatim. */
  function Failure(request: Request, message: string): (r: Response)
    ensures !r.success && !r.running && r.body.None? && r.message == message
    ensures r.requestSeq == request.seqNum && r.command == request.command
  {
    Response(0, request.seqNum, false, false, request.command, message, None)
  }

  /** A failure response is the failed `Create` response with the caller's message in
      place of "Failure"; nothing else differs. */
  lemma FailureIsCreateWithMessage(request: Request, message: string)
    ensures Failure(request, message) == Create(request, false, false, None).(message := message)
    ensures message == "Failure" <==> Failure(request, message) == Create(request, false, false, None)
  {
  }

  // ----- Request.Parse -----

  /** The text `Request.Parse` hands to the JSON decoder: everything after the first
      header separator. Without a separator `IndexOf` yields -1, so the slice starts at
      index 3; `Substring` throws (None) when the text is shorter than that. */
  function JsonText(req: string): (json: Option<string>)
    ensures forall k {:trigger OccursAt(req, HeaderSeparator, k)} ::
              OccursAt(req, HeaderSeparator, k) && (forall j :: 0 <= j < k ==> !OccursAt(req, HeaderSeparator, j))
              ==> json == Some(req[k + 4..])
    ensures (forall k :: !OccursAt(req, HeaderSeparator, k)) ==>
              json == (if |req| >= 3 then Some(req[3..]) else None)
  {
    IndexOfFirst(req, HeaderSeparator);
    var start := IndexOf(req, HeaderSeparator) + 4;
    if start <= |req| then Some(req[start..]) else None
  }

  /** `Request.Parse`: decode the JSON text after the header. The decoder is a parameter;
      None stands for a decoder exception or a null result. */
  function Parse(req: string, decode: string -> Option<Request>): (r: Option<Request>)
    ensures JsonText(req).None? ==> r.None?
    ensures JsonText(req).Some? ==> r == decode(JsonText(req).value)
  {
    match JsonText(req)
    case None => None
    case Some(json) => decode(json)
  }
}

=== FILE: numbers.dfy ===
/**
 The 32-bit signed integers of the .NET `int` type: the range, and the
 wrap-around that `++` and a cast from `long` perform.
 */
module Numbers {

  const MinInt32: int := -0x8000_0000
  const MaxInt32: int := 0x7FFF_FFFF

  /** 2^32: the number of distinct `int` values. */
  const Int32Modulus: int := 0x1_0000_0000

  type Int32 = x: int | MinInt32 <= x <= MaxInt32

  /** Two's-complement truncation to 32 bits: what an unchecked `(int)` cast keeps
      and what `int` arithmetic wraps to. */
  function ToInt32(x: int): Int32 {
    (x - MinInt32) % Int32Modulus + MinInt32
  }

  /** A value already in range is its own truncation. */
  lemma ToInt32InRange(x: int)
    requires MinInt32 <= x <= MaxInt32
    ensures ToInt32(x) == x
  {
  }

  /** Truncating after each step or once at the end gives the same value. */
  lemma ToInt32Add(x: int, k: int)
    ensures ToInt32(ToInt32(x) + k) == ToInt32(x + k)
  {
    var a := x - MinInt32;
    var q := a / Int32Modulus;
    assert a == q * Int32Modulus + a % Int32Modulus;
    assert ToInt32(x) + k - MinInt32 == (a + k) - q * Int32Modulus;
    ModSubtractMultiple(a + k, q);
  }

  lemma ModSubtractMultiple(a: int, q: int)
    ensures (a - q * Int32Modulus) % Int32Modulus == a % Int32Modulus
  {
    var b := a - q * Int32Modulus;
    var qa := a / Int32Modulus;
    var qb := b / Int32Modulus;
    assert a == qa * Int32Modulus + a % Int32Modulus;
    assert b == qb * Int32Modulus + b % Int32Modulus;
    assert (qa - q - qb) * Int32Modulus == b % Int32Modulus - a % Int32Modulus;
  }

  /** `++` on an `int` field: one more, except that `Int32.MaxValue` wraps to `Int32.MinValue`. */
  function Increment(c: Int32): (r: Int32)
    ensures c < MaxInt32 ==> r == c + 1
    ensures c == MaxInt32 ==> r == MinInt32
  {
    ToInt32(c + 1)
  }

  /** The counter after `n` increments. */
  function Advance(c: Int32, n: nat): Int32
    decreases n
  {
    if n == 0 then c else Advance(Increment(c), n - 1)
  }

  /** `n` increments add `n` modulo 2^32; without passing `Int32.MaxValue` they add `n`. */
  lemma {:induction false} AdvanceIsSum(c: Int32, n: nat)
    ensures Advance(c, n) == ToInt32(c + n)
    ensures c + n <= MaxInt32 ==> Advance(c, n) == c + n
    decreases n
  {
    if n == 0 {
      ToInt32InRange(c);
    } else {
      AdvanceIsSum(Increment(c), n - 1);
      ToInt32Add(c + 1, n - 1);
    }
    if c + n <= MaxInt32 {
      ToInt32InRange(c + n);
    }
  }

  /** One more increment on top of `n`. */
  lemma {:induction false} AdvanceSucc(c: Int32, n: nat)
    ensures Advance(c, n + 1) == Increment(Advance(c, n))
    decreases n
  {
    if n > 0 {
      AdvanceSucc(Increment(c), n - 1);
    }
  }

  /** Increments compose: `m` then `k` is `m + k`. */
  lemma {:induction false} AdvanceAdd(c: Int32, m: nat, k: nat)
    ensures Advance(Advance(c, m), k) == Advance(c, m + k)
    decreases m
  {
    if m > 0 {
      AdvanceAdd(Increment(c), m - 1, k);
    }
  }
}

=== FILE: protocol.dfy ===
/**
 The debug-protocol records the session sends (threads, variables, scopes,
 stack frames, sources, breakpoint statuses, events), what a handler sends
 back, and the small argument helpers of the session: `GetString`, `GetInt`
 and the `SendOutput` newline rule.
 */
module Protocol {
  import opened Wrappers
  import opened Numbers
  import opened Text
  import opened Engine

  // ----- records -----

  /** A protocol `Thread`: the id as given and a name that is never empty. */
  datatype Thread = Thread(id: int, name: string)

  /** The `Thread` constructor: a null or empty name becomes "Thread #<id>"; any other
      name, white space included, is kept. */
  function MakeThread(id: int, name: Option<string>): (t: Thread)
    ensures t.id == id
    ensures name.Some? && name.value != [] ==> t.name == name.value
    ensures (name.None? || name.value == []) ==> t.name == "Thread #" + IntToDecimal(id)
    ensures t.name != []
  {
    if name.None? || name.value == [] then Thread(id, "Thread #" + IntToDecimal(id))
    else Thread(id, name.value)
  }

  /** A thread built again from its own id and name is the same thread: the name given
      out is one the constructor keeps. */
  lemma MakeThreadStable(id: int, name: Option<string>)
    ensures var t := MakeThread(id, name); MakeThread(t.id, Some(t.name)) == t
  {
  }

  /** Unnamed threads of different ids get different names. */
  lemma MakeThreadDefaultNamesDistinct(a: int, b: int)
    requires a != b
    ensures MakeThread(a, None).name != MakeThread(b, None).name
  {
    var x, y := IntToDecimal(a), IntToDecimal(b);
    if "Thread #" + x == "Thread #" + y {
      assert x == ("Thread #" + x)[8..];
      assert y == ("Thread #" + y)[8..];
      IntToDecimalInjective(a, b);
    }
  }

  /** A protocol `Variable`; `value` and `typeName` are None where the source passes null. */
  datatype Variable = Variable(name: string, value: Option<string>, typeName: Option<string>, variablesReference: int)

  /** The placeholder appended to a truncated group of children. */
  const MorePlaceholder: Variable := Variable("...", None, None, 0)

  datatype Scope = Scope(name: string, variablesReference: int)

  /** A protocol `Source`: a name, a path (None when the file is not on disk), a
      reference and a presentation hint. */
  datatype Source = Source(name: string, path: Option<string>, sourceReference: int, hint: string)

  datatype StackFrameRecord = StackFrameRecord(id: int, name: string, source: Option<Source>, line: int, column: int, hint: string)

  /** One entry of a setBreakpoints response. */
  datatype BreakpointStatus = BreakpointStatus(verified: bool, line: int, column: int, message: Option<string>)

  /** The bodies of successful responses. */
  datatype Body =
    | NoBody
    | ContinueBody
    | BreakpointsBody(breakpoints: seq<BreakpointStatus>)
    | VariablesBody(variables: seq<Variable>)
    | EvaluateBody(result: string, variablesReference: int)
    | ThreadsBody(threads: map<int, Thread>)
    | StackTraceBody(stackFrames: seq<StackFrameRecord>, totalFrames: int)
    | ScopesBody(scopes: seq<Scope>)

  datatype DapEvent =
    | StoppedEvent(threadId: int, reason: string, text: Option<string>)
    | ThreadEvent(reason: string, threadId: int)
    | OutputEvent(category: string, output: string)
    | TerminatedEvent

  /** What a handler sends, in order: responses, error responses (code, format string and
      the value of its one placeholder, if any), events, and commands to the engine. */
  datatype Sent =
    | Respond(body: Body)
    | RespondError(code: int, format: string, arg: Option<string>)
    | Emit(event: DapEvent)
    | Issue(command: Command)

  // ----- argument helpers -----

  /** `GetString`: a missing value, or one that trims to nothing, gives the default;
      anything else is returned trimmed. */
  function GetString(value: Option<string>, dflt: Option<string>): (r: Option<string>)
    ensures value.None? ==> r == dflt
    ensures value.Some? && AllWhiteSpace(value.value) ==> r == dflt
    ensures value.Some? && !AllWhiteSpace(value.value) ==>
              r.Some? && r.value != [] && !IsWhiteSpace(r.value[0]) && !IsWhiteSpace(r.value[|r.value| - 1])
              && exists k :: TrimmedAt(value.value, r.value, k)
  {
    match value
    case None => dflt
    case Some(s) =>
      var t := Trim(s);
      if |t| == 0 then dflt else Some(t)
  }

  /** `GetInt`: the property's value when it is present and converts to `int`, else the
      default. */
  function GetInt(value: Option<int>, dflt: int): (r: int)
    ensures value.Some? ==> r == value.value
    ensures value.None? ==> r == dflt
  {
    value.GetOr(dflt)
  }

  /** `SendOutput`: nothing for null or empty text; otherwise one output event whose text
      ends in a line feed, added only when missing. */
  function SendOutput(category: string, data: Option<string>): (sent: seq<Sent>)
    ensures data.None? || data.value == [] <==> sent == []
    ensures sent != [] ==> |sent| == 1 && sent[0].Emit? && sent[0].event.OutputEvent?
                           && sent[0].event.category == category
    ensures sent != [] ==> var out := sent[0].event.output;
                           && |out| > 0 && out[|out| - 1] == '\n'
                           && (data.value[|data.value| - 1] == '\n' ==> out == data.value)
                           && (data.value[|data.value| - 1] != '\n' ==> out == data.value + "\n")
  {
    match data
    case None => []
    case Some(d) =>
      if |d| == 0 then []
      else if d[|d| - 1] != '\n' then [Emit(OutputEvent(category, d + "\n"))]
      else [Emit(OutputEvent(category, d))]
  }

  /** Normalising twice is normalising once: the event's text passes through unchanged. */
  lemma SendOutputIdempotent(category: string, data: Option<string>)
    requires SendOutput(category, data) != []
    ensures var out := SendOutput(category, data)[0].event.output;
            SendOutput(category, Some(out)) == SendOutput(category, data)
  {
  }

  /** `GetString` is idempotent: a trimmed value it returned comes back unchanged. */
  lemma GetStringIdempotent(value: Option<string>, dflt: Option<string>)
    requires value.Some? && !AllWhiteSpace(value.value)
    ensures GetString(GetString(value, dflt), dflt) == GetString(value, dflt)
  {
    var r := GetString(value, dflt).value;
    TrimOfTrimmed(r);
  }
}

=== FILE: session.dfy ===
/**
 The state of `UnityDebugSession` and the handlers that only move it
 around: the stop callbacks with the handle reset they share, thread
 bookkeeping, the at-most-once terminated event, and the resume requests
 that always answer but only command a stopped, live engine.
 */
module Session {
  import opened Wrappers
  import opened Numbers
  import opened Text
  import opened Engine
  import opened Protocol
  import Handles

  /** The file extensions breakpoints are accepted for. */
  const MonoExtensions: seq<string> := [".cs", ".csx", ".cake", ".fs", ".fsi", ".ml", ".mli", ".fsx", ".fsscript", ".hx"]

  /** `MAX_CHILDREN`: the most children a variables response lists. */
  const MaxChildren: nat := 100

  /** The session's fields. `debuggee` is `m_Session` (None once it has been disposed);
      `store` is that session's breakpoint store; `breakpoints` maps a path and a line to
      the id of the store entry set there; `catchpoints` are the ids of the catchpoints
      the session added; `frame` is the `Frame` property the stop callbacks set. */
  datatype State = State(
    debuggee: Option<Debuggee>,
    executing: bool,
    activeProcess: Option<Process>,
    store: Store,
    breakpoints: map<string, map<int, nat>>,
    catchpoints: seq<nat>,
    variableHandles: Handles.Table<seq<Value>>,
    frameHandles: Handles.Table<Frame>,
    exception: Option<Value>,
    seenThreads: map<int, Thread>,
    terminated: bool,
    frame: Option<Frame>)

  /** The constructor: an engine session that has not started, no breakpoints, empty
      handle tables, no threads seen. */
  function Initial(): (s: State)
    ensures Consistent(s) && !s.terminated && s.breakpoints == map[] && s.catchpoints == []
  {
    State(Some(Debuggee(false, false, None)), false, None, EmptyStore(), map[], [],
          Handles.Clear(), Handles.Clear(), None, map[], false, None)
  }

  /** A handler's effect: the new state, what it sent in order, and whether an exception
      escaped it (the state is then as far as the handler got). */
  datatype Outcome = Outcome(state: State, sent: seq<Sent>, faulted: bool)

  /** The bookkeeping invariant: every remembered line breakpoint is the store entry for
      that path and line, every remembered catchpoint is a catchpoint entry, and the store
      only holds ids it issued. */
  ghost predicate Consistent(s: State) {
    && s.store.Valid()
    && (forall p, l :: p in s.breakpoints && l in s.breakpoints[p] ==>
          var id := s.breakpoints[p][l];
          id in s.store.entries && s.store.entries[id].LineBreakpoint?
          && s.store.entries[id].path == p && s.store.entries[id].line == l)
    && (forall i :: 0 <= i < |s.catchpoints| ==>
          s.catchpoints[i] in s.store.entries && s.store.entries[s.catchpoints[i]].Catchpoint?)
  }

  /** `HasMonoExtension`: the path ends with one of the Mono extensions. */
  predicate HasMonoExtension(path: string)
    ensures HasMonoExtension(path) ==> '.' in path
  {
    assert forall i :: 0 <= i < |MonoExtensions| && EndsWith(path, MonoExtensions[i]) ==> '.' in path by {
      forall i | 0 <= i < |MonoExtensions| && EndsWith(path, MonoExtensions[i])
        ensures '.' in path
      {
        var ext := MonoExtensions[i];
        assert ext[0] == '.';
        assert path[|path| - |ext|] == path[|path| - |ext|..][0];
      }
    }
    exists i :: 0 <= i < |MonoExtensions| && EndsWith(path, MonoExtensions[i])
  }

  // ----- stopping -----

  /** `Stopped`: forget the current exception and every handle issued so far; nothing
      else changes. */
  function Stopped(s: State): (r: State)
    ensures r.exception.None?
    ensures forall id :: r.variableHandles.TryGet(id).None? && r.frameHandles.TryGet(id).None?
    ensures r.variableHandles.next == Handles.FirstId && r.frameHandles.next == Handles.FirstId
    ensures r.(exception := s.exception, variableHandles := s.variableHandles, frameHandles := s.frameHandles) == s
  {
    s.(exception := None, variableHandles := Handles.Clear(), frameHandles := Handles.Clear())
  }

  /** The four ways the engine reports a stop. */
  datatype StopKind = Step | BreakpointHit | ExceptionThrown | UnhandledException

  /** What `DebuggerActiveException` finds: the exception object and its message. */
  datatype ExceptionInfo = ExceptionInfo(instance: Value, message: string)

  /** `GetFrame(i)` on a backtrace; None past its end. */
  function FrameAt(backtrace: seq<Frame>, i: nat): Option<Frame> {
    if i < |backtrace| then Some(backtrace[i]) else None
  }

  /** The first frame that is not external code, else frame 0: where the exception-thrown
      callback leaves the `Frame` property. */
  function FirstUserFrame(backtrace: seq<Frame>, i: nat): (r: Option<Frame>)
    ensures r.None? <==> |backtrace| == 0
    ensures (forall j :: i <= j < |backtrace| ==> backtrace[j].isExternal) ==> r == FrameAt(backtrace, 0)
    ensures (exists j :: i <= j < |backtrace| && !backtrace[j].isExternal) ==>
              exists k :: i <= k < |backtrace| && r == Some(backtrace[k]) && !backtrace[k].isExternal
                          && forall j :: i <= j < k ==> backtrace[j].isExternal
    decreases |backtrace| - i
  {
    if i >= |backtrace| then FrameAt(backtrace, 0)
    else if !backtrace[i].isExternal then Some(backtrace[i])
    else FirstUserFrame(backtrace, i + 1)
  }

  /** The stop callbacks (`TargetStopped`, `TargetHitBreakpoint`, `TargetExceptionThrown`,
      `TargetUnhandledException`): set `Frame`, call `Stopped`, remember the active
      exception for the exception kinds, and send the stopped event last. A missing
      backtrace is reported for a step and is an uncaught null dereference for a hit
      breakpoint or a thrown exception. */
  function OnStop(s: State, kind: StopKind, threadId: int, backtrace: Option<seq<Frame>>,
                  active: Option<ExceptionInfo>): (o: Outcome)
    ensures o.faulted ==> o.state == s && o.sent == []
    ensures o.state.(exception := s.exception, variableHandles := s.variableHandles,
                     frameHandles := s.frameHandles, frame := s.frame) == s
  {
    var tid := ToInt32(threadId);
    match kind
    case Step =>
      var s1 := if backtrace.Some? then s.(frame := FrameAt(backtrace.value, 0)) else s;
      var note := if backtrace.None? then SendOutput("stdout", Some("e.Bracktrace is null")) else [];
      Outcome(Stopped(s1), note + [Emit(StoppedEvent(tid, "step", None))], false)
    case BreakpointHit =>
      if backtrace.None? then Outcome(s, [], true)
      else Outcome(Stopped(s.(frame := FrameAt(backtrace.value, 0))), [Emit(StoppedEvent(tid, "breakpoint", None))], false)
    case ExceptionThrown =>
      if backtrace.None? then Outcome(s, [], true)
      else
        var s1 := Stopped(s.(frame := FirstUserFrame(backtrace.value, 0)));
        ExceptionStop(s1, tid, active)
    case UnhandledException =>
      ExceptionStop(Stopped(s), tid, active)
  }

  /** The tail of the exception callbacks: with an active exception, remember it and
      send the stopped event carrying its message; otherwise send nothing. */
  function ExceptionStop(s: State, tid: int, active: Option<ExceptionInfo>): (o: Outcome)
    ensures !o.faulted && o.state == s.(exception := o.state.exception)
    ensures active.None? ==> o.state == s && o.sent == []
    ensures active.Some? ==> o.state.exception == Some(active.value.instance) && |o.sent| == 1
                             && o.sent[0].Emit? && o.sent[0].event.StoppedEvent?
  {
    match active
    case None => Outcome(s, [], false)
    case Some(ex) => Outcome(s.(exception := Some(ex.instance)), [Emit(StoppedEvent(tid, "exception", Some(ex.message)))], false)
  }

  /** Whatever the kind of stop, once it is handled no variable or frame handle issued
      before it resolves; the only exception remembered is the one just reported; every
      event sent is sent after the reset, the stopped event last; and breakpoints,
      catchpoints and threads are untouched. */
  lemma StopInvalidatesHandles(s: State, kind: StopKind, threadId: int, backtrace: Option<seq<Frame>>,
                               active: Option<ExceptionInfo>)
    ensures var o := OnStop(s, kind, threadId, backtrace, active);
            !o.faulted ==>
              && (forall id :: o.state.variableHandles.TryGet(id).None? && o.state.frameHandles.TryGet(id).None?)
              && (kind in {Step, BreakpointHit} ==> o.state.exception.None?)
              && (kind in {ExceptionThrown, UnhandledException} ==>
                    o.state.exception == (if active.Some? then Some(active.value.instance) else None))
              && (o.state.exception.Some? || kind in {Step, BreakpointHit} ==>
                    |o.sent| > 0 && o.sent[|o.sent| - 1].Emit? && o.sent[|o.sent| - 1].event.StoppedEvent?)
              && o.state.breakpoints == s.breakpoints && o.state.catchpoints == s.catchpoints
              && o.state.store == s.store && o.state.seenThreads == s.seenThreads
    ensures OnStop(s, kind, threadId, backtrace, active).faulted <==> kind in {BreakpointHit, ExceptionThrown} && backtrace.None?
  {
  }

  /** The stopped event names the thread by its id truncated to 32 bits. */
  lemma StopEventThreadId(s: State, kind: StopKind, threadId: int, backtrace: Option<seq<Frame>>,
                          active: Option<ExceptionInfo>)
    requires MinInt32 <= threadId <= MaxInt32
    ensures var o := OnStop(s, kind, threadId, backtrace, active);
            forall i :: 0 <= i < |o.sent| && o.sent[i].Emit? && o.sent[i].event.StoppedEvent? ==>
              o.sent[i].event.threadId == threadId
  {
    ToInt32InRange(threadId);
  }

  // ----- termination -----

  /** `Terminate`: the terminated event is sent only the first time. */
  function Terminate(s: State): (o: Outcome)
    ensures o.state.terminated && !o.faulted
    ensures o.sent == (if s.terminated then [] else [Emit(TerminatedEvent)])
    ensures o.state.(terminated := s.terminated) == s
  {
    if s.terminated then Outcome(s, [], false)
    else Outcome(s.(terminated := true), [Emit(TerminatedEvent)], false)
  }

  /** `Terminate` called `n` times in a row, as repeated exits would. */
  function TerminateTimes(s: State, n: nat): (o: Outcome)
    decreases n
  {
    if n == 0 then Outcome(s, [], false)
    else
      var first := Terminate(s);
      var rest := TerminateTimes(first.state, n - 1);
      Outcome(rest.state, first.sent + rest.sent, false)
  }

  /** However many times `Terminate` runs, the client sees at most one terminated event:
      exactly one if the session had not terminated and it ran at least once. */
  lemma {:induction false} TerminateAtMostOnce(s: State, n: nat)
    ensures var o := TerminateTimes(s, n);
            && |o.sent| == (if s.terminated || n == 0 then 0 else 1)
            && (forall i :: 0 <= i < |o.sent| ==> o.sent[i] == Emit(TerminatedEvent))
            && (n > 0 ==> o.state.terminated)
    decreases n
  {
    if n > 0 {
      TerminateAtMostOnce(Terminate(s).state, n - 1);
    }
  }

  /** `DebuggerKill`: on a live engine session, exit it unless it already has, then drop
      it; the session counts as executing from then on. */
  function DebuggerKill(s: State): (o: Outcome)
    ensures o.state.debuggee.None? && !o.faulted
    ensures s.debuggee.Some? ==> o.state.executing
    ensures s.debuggee.None? ==> o.state == s && o.sent == []
    ensures s.debuggee.Some? ==> o.state == s.(executing := true, debuggee := None)
    ensures s.debuggee.Some? ==> (o.sent == [Issue(Exit)] <==> !s.debuggee.value.exited)
    ensures s.debuggee.Some? && s.debuggee.value.exited ==> o.sent == []
  {
    match s.debuggee
    case None => Outcome(s, [], false)
    case Some(d) =>
      Outcome(s.(executing := true, debuggee := None), if d.exited then [] else [Issue(Exit)], false)
  }

  /** `TargetExited`: kill the engine session and terminate. */
  function OnExited(s: State): (o: Outcome)
    ensures !o.faulted && o.state.terminated && o.state.debuggee.None?
    ensures o.state == s.(debuggee := None, executing := o.state.executing, terminated := true)
  {
    var k := DebuggerKill(s);
    var t := Terminate(k.state);
    Outcome(t.state, k.sent + t.sent, false)
  }

  /** An exit always leaves the session terminated without an engine, and announces the
      termination exactly when it had not been announced before. */
  lemma ExitTerminates(s: State)
    ensures var o := OnExited(s);
            && o.state.terminated && o.state.debuggee.None?
            && (Emit(TerminatedEvent) in o.sent <==> !s.terminated)
  {
  }

  // ----- threads -----

  /** `TargetThreadStarted`: remember the thread under its 32-bit id and announce it. */
  function OnThreadStarted(s: State, id: int, name: Option<string>): (o: Outcome)
    ensures !o.faulted && o.state == s.(seenThreads := o.state.seenThreads)
    ensures var tid := ToInt32(id);
            && o.state.seenThreads == s.seenThreads[tid := MakeThread(tid, name)]
            && o.sent == [Emit(ThreadEvent("started", tid))]
  {
    var tid := ToInt32(id);
    Outcome(s.(seenThreads := s.seenThreads[tid := MakeThread(tid, name)]), [Emit(ThreadEvent("started", tid))], false)
  }

  /** `TargetThreadStopped`: forget the thread and announce its exit. */
  function OnThreadStopped(s: State, id: int): (o: Outcome)
    ensures !o.faulted && o.state == s.(seenThreads := o.state.seenThreads)
    ensures forall t :: t in o.state.seenThreads <==> t in s.seenThreads && t != ToInt32(id)
    ensures forall t :: t in o.state.seenThreads ==> o.state.seenThreads[t] == s.seenThreads[t]
    ensures o.sent == [Emit(ThreadEvent("exited", ToInt32(id)))]
  {
    var tid := ToInt32(id);
    Outcome(s.(seenThreads := s.seenThreads - {tid}), [Emit(ThreadEvent("exited", tid))], false)
  }

  /** A thread that starts and then stops leaves no trace in the seen threads. */
  lemma ThreadStartStop(s: State, id: int, name: Option<string>)
    requires ToInt32(id) !in s.seenThreads
    ensures OnThreadStopped(OnThreadStarted(s, id, name).state, id).state.seenThreads == s.seenThreads
  {
  }

  /** `TargetReady`: the one process of the engine session, none, or an exception from
      `SingleOrDefault` when there are several. */
  function OnReady(s: State, processes: seq<Process>): (o: Outcome)
    ensures o.faulted <==> |processes| > 1
    ensures |processes| == 1 ==> o.state.activeProcess == Some(processes[0])
    ensures |processes| == 0 ==> o.state.activeProcess.None?
    ensures o.sent == [] && (o.faulted ==> o.state == s)
    ensures o.state == s.(activeProcess := o.state.activeProcess)
  {
    if |processes| == 0 then Outcome(s.(activeProcess := None), [], false)
    else if |processes| == 1 then Outcome(s.(activeProcess := Some(processes[0])), [], false)
    else Outcome(s, [], true)
  }

  /** The output writer: standard error and standard output go out as categories. */
  function OnOutput(s: State, isStdErr: bool, text: Option<string>): (o: Outcome)
    ensures o.state == s && !o.faulted
    ensures o.sent == [] <==> text.None? || text.value == []
    ensures o.sent != [] ==> o.sent[0].Emit? && o.sent[0].event.OutputEvent? && o.sent[0].event.category == (if isStdErr then "stderr" else "stdout")
  {
    Outcome(s, SendOutput(if isStdErr then "stderr" else "stdout", text), false)
  }

  // ----- resuming -----

  /** The four resume requests. */
  datatype Resume = ContinueRequest | NextRequest | StepInRequest | StepOutRequest

  function ResumeCommand(r: Resume): Command {
    match r
    case ContinueRequest => Continue
    case NextRequest => NextLine
    case StepInRequest => StepLine
    case StepOutRequest => Finish
  }

  /** `WaitForSuspend`, once the wait is over: the debuggee counts as suspended. */
  function WaitForSuspend(s: State): (r: State)
    ensures !r.executing && r.(executing := s.executing) == s
  {
    s.(executing := false)
  }

  /** Continue, Next, StepIn, StepOut: wait for a suspend, respond, and only then, when the
      engine session exists, is not running and has not exited, command it. */
  function ResumeHandler(s: State, request: Resume): (o: Outcome)
    ensures !o.faulted && 1 <= |o.sent| <= 2 && o.sent[0].Respond?
    ensures o.state == s.(executing := o.state.executing)
  {
    var s1 := WaitForSuspend(s);
    var response := Respond(if request == ContinueRequest then ContinueBody else NoBody);
    if s1.debuggee.None? || s1.debuggee.value.running || s1.debuggee.value.exited then
      Outcome(s1, [response], false)
    else
      Outcome(s1.(executing := true), [response, Issue(ResumeCommand(request))], false)
  }

  /** A resume request is always answered, first and once; the engine is commanded exactly
      when it is stopped and alive, with the request's own command; the session counts as
      executing afterwards exactly when a command was issued; nothing else changes. */
  lemma ResumeGuard(s: State, request: Resume)
    ensures var o := ResumeHandler(s, request);
            var live := s.debuggee.Some? && !s.debuggee.value.running && !s.debuggee.value.exited;
            && !o.faulted
            && |o.sent| >= 1 && o.sent[0].Respond?
            && (request == ContinueRequest <==> o.sent[0].body == ContinueBody)
            && (|o.sent| == 2 <==> live)
            && |o.sent| <= 2
            && (live ==> o.sent[1] == Issue(ResumeCommand(request)))
            && o.state.executing == live
            && o.state.(executing := s.executing) == s
  {
  }
}

=== FILE: string_util.dfy ===
/**
 `StringUtil.Join`: the strings of a sequence with a separator between each
 two. A list is joined by index after reserving the exact length; any other
 sequence is enumerated once with a flag marking the first item. Appending a
 null string appends nothing; a null separator is harmless when enumerating
 but throws in the list branch when it reads the separator's length.
 */
module StringUtil {
  import opened Wrappers

  /** What appending a possibly null string adds. */
  function Str(s: Option<string>): string {
    s.GetOr("")
  }

  /** The reference meaning of a join: the items in order, one separator between each two. */
  function Joined(items: seq<Option<string>>, sep: string): (r: string)
    decreases |items|
  {
    if |items| == 0 then ""
    else if |items| == 1 then Str(items[0])
    else Joined(items[..|items| - 1], sep) + sep + Str(items[|items| - 1])
  }

  /** The total length of the non-null items, which the list branch sums first. */
  function TotalLength(items: seq<Option<string>>): (n: nat)
    decreases |items|
  {
    if |items| == 0 then 0 else TotalLength(items[..|items| - 1]) + |Str(items[|items| - 1])|
  }

  /** The result of the list branch: the joined text, or an exception. */
  datatype JoinOutcome = Done(text: string) | Threw

  /** The list branch: an empty list gives the empty string; otherwise a null separator
      throws, and the items are appended by index with the separator before all but the
      first. */
  method JoinList(items: seq<Option<string>>, separator: Option<string>) returns (r: JoinOutcome)
    ensures r.Threw? <==> |items| > 0 && separator.None?
    ensures r.Done? ==> r.text == Joined(items, Str(separator))
  {
    if |items| == 0 {
      return Done("");
    }
    if separator.None? {
      return Threw;
    }
    var sep := separator.value;
    var text := "";
    var index := 0;
    while index < |items|
      invariant 0 <= index <= |items|
      invariant text == Joined(items[..index], sep)
    {
      assert items[..index + 1][..index] == items[..index];
      if index != 0 {
        text := text + sep;
      }
      text := text + Str(items[index]);
      index := index + 1;
    }
    assert items[..index] == items;
    return Done(text);
  }

  /** The enumerating branch: the separator (nothing when null) goes before every item
      once the flag is set by the first. */
  method JoinEnumerable(items: seq<Option<string>>, separator: Option<string>) returns (r: string)
    ensures r == Joined(items, Str(separator))
  {
    var text := "";
    var started := false;
    var index := 0;
    while index < |items|
      invariant 0 <= index <= |items|
      invariant started <==> index > 0
      invariant text == Joined(items[..index], Str(separator))
    {
      assert items[..index + 1][..index] == items[..index];
      if started {
        text := text + Str(separator);
      } else {
        started := true;
      }
      text := text + Str(items[index]);
      index := index + 1;
    }
    assert items[..index] == items;
    return text;
  }

  /** `Join`: a list takes the list branch, anything else the enumerating one. */
  method Join(items: seq<Option<string>>, separator: Option<string>, isList: bool) returns (r: JoinOutcome)
    ensures r.Threw? <==> isList && |items| > 0 && separator.None?
    ensures r.Done? ==> r.text == Joined(items, Str(separator))
  {
    if isList {
      r := JoinList(items, separator);
    } else {
      var text := JoinEnumerable(items, separator);
      r := Done(text);
    }
  }

  // ----- properties of the reference -----

  /** The capacity the list branch reserves, the items' total length plus one separator
      per gap, is exactly the length of the result. */
  lemma {:induction false} JoinedLength(items: seq<Option<string>>, sep: string)
    requires |items| > 0
    ensures |Joined(items, sep)| == TotalLength(items) + |sep| * (|items| - 1)
    decreases |items|
  {
    if |items| > 1 {
      var init := items[..|items| - 1];
      JoinedLength(init, sep);
      assert TotalLength(items) == TotalLength(init) + |Str(items[|items| - 1])|;
    } else {
      assert TotalLength(items) == TotalLength(items[..0]) + |Str(items[0])|;
    }
  }

  /** Joining two non-empty parts is joining each and putting one separator between. */
  lemma {:induction false} JoinedAppend(a: seq<Option<string>>, b: seq<Option<string>>, sep: string)
    requires |a| > 0 && |b| > 0
    ensures Joined(a + b, sep) == Joined(a, sep) + sep + Joined(b, sep)
    decreases |b|
  {
    var ab := a + b;
    if |b| == 1 {
      assert ab[..|ab| - 1] == a;
    } else {
      var init := b[..|b| - 1];
      assert ab[..|ab| - 1] == a + init;
      JoinedAppend(a, init, sep);
    }
  }

  /** Separators sit between items, not around them: a first item is followed by the
      separator and the join of the rest. */
  lemma JoinedCons(first: Option<string>, rest: seq<Option<string>>, sep: string)
    requires |rest| > 0
    ensures Joined([first] + rest, sep) == Str(first) + sep + Joined(rest, sep)
  {
    JoinedAppend([first], rest, sep);
  }

  /** With an empty separator a join is plain concatenation, whatever the grouping. */
  lemma JoinedEmptySeparator(a: seq<Option<string>>, b: seq<Option<string>>)
    ensures Joined(a + b, "") == Joined(a, "") + Joined(b, "")
  {
    if |a| == 0 {
      assert a + b == b;
    } else if |b| == 0 {
      assert a + b == a;
    } else {
      JoinedAppend(a, b, "");
    }
  }
}

=== FILE: text.dfy ===
/**
 String primitives of the .NET base library that the adapter relies on:
 ordinal `IndexOf`, `Contains`, `EndsWith`, `Trim`, `ToLower`, `Replace`,
 and decimal formatting and parsing of integers.
 */
module Text {

  /** True when `pat` occurs in `s` starting at index `i`. */
  predicate OccursAt(s: string, pat: string, i: int) {
    0 <= i && i + |pat| <= |s| && s[i..i + |pat|] == pat
  }

  /** The first index at or after `from` where `pat` occurs, or -1. */
  function IndexFrom(s: string, pat: string, from: nat): (r: int)
    ensures r == -1 || (from <= r && OccursAt(s, pat, r))
    decreases |s| - from
  {
    if from + |pat| > |s| then -1
    else if s[from..from + |pat|] == pat then from
    else IndexFrom(s, pat, from + 1)
  }

  /** `IndexFrom` finds the first occurrence at or after `from`, and -1 only when there is none. */
  lemma {:induction false} IndexFromFirst(s: string, pat: string, from: nat)
    ensures IndexFrom(s, pat, from) == -1 ==> forall i :: from <= i ==> !OccursAt(s, pat, i)
    ensures IndexFrom(s, pat, from) != -1 ==> forall i :: from <= i < IndexFrom(s, pat, from) ==> !OccursAt(s, pat, i)
    decreases |s| - from
  {
    if from + |pat| <= |s| && s[from..from + |pat|] != pat {
      IndexFromFirst(s, pat, from + 1);
    }
  }

  /** `String.IndexOf(string)` with ordinal comparison: the first occurrence, or -1. */
  function IndexOf(s: string, pat: string): (r: int)
    ensures r == -1 || OccursAt(s, pat, r)
  {
    IndexFrom(s, pat, 0)
  }

  /** `IndexOf` is -1 exactly when `pat` does not occur, and otherwise no occurrence comes
      before the one it returns. */
  lemma IndexOfFirst(s: string, pat: string)
    ensures IndexOf(s, pat) == -1 <==> forall i :: !OccursAt(s, pat, i)
    ensures IndexOf(s, pat) != -1 ==> forall i :: 0 <= i < IndexOf(s, pat) ==> !OccursAt(s, pat, i)
  {
    IndexFromFirst(s, pat, 0);
  }

  /** `String.Contains`: some occurrence exists. */
  predicate Contains(s: string, pat: string) {
    IndexOf(s, pat) != -1
  }

  /** `String.EndsWith` with ordinal comparison. */
  predicate EndsWith(s: string, suffix: string) {
    |suffix| <= |s| && s[|s| - |suffix|..] == suffix
  }

  /** `Char.IsWhiteSpace`: the Unicode space separators plus the control characters
      U+0009..U+000D and U+0085. */
  predicate IsWhiteSpace(c: char) {
    || c == ' ' || ('\t' <= c <= '\r') || c == '\U{85}' || c == '\U{A0}' || c == '\U{1680}'
    || ('\U{2000}' <= c <= '\U{200A}') || c == '\U{2028}' || c == '\U{2029}'
    || c == '\U{202F}' || c == '\U{205F}' || c == '\U{3000}'
  }

  predicate AllWhiteSpace(s: string) {
    forall i {:trigger IsWhiteSpace(s[i])} :: 0 <= i < |s| ==> IsWhiteSpace(s[i])
  }

  lemma AllWhiteSpaceCons(c: char, u: string)
    requires IsWhiteSpace(c) && AllWhiteSpace(u)
    ensures AllWhiteSpace([c] + u)
  {
    forall i | 0 <= i < |[c] + u|
      ensures IsWhiteSpace(([c] + u)[i])
    {
      if i > 0 { assert ([c] + u)[i] == u[i - 1]; }
    }
  }

  /** One step of `TrimStart`: white space before a trimmed tail is trimmed too. */
  lemma TrimStartStep(s: string, r: string)
    requires |s| > 0 && IsWhiteSpace(s[0])
    requires |r| <= |s| - 1 && r == s[1..][|s| - 1 - |r|..] && AllWhiteSpace(s[1..][..|s| - 1 - |r|])
    ensures r == s[|s| - |r|..] && AllWhiteSpace(s[..|s| - |r|])
  {
    var t, n := s[1..], |s| - |r|;
    assert t[|t| - |r|..] == s[n..];
    assert s[..n] == [s[0]] + t[..n - 1];
    AllWhiteSpaceCons(s[0], t[..n - 1]);
  }

  /** Drops leading white space. */
  function TrimStart(s: string): (r: string)
    ensures |r| <= |s| && r == s[|s| - |r|..]
    ensures AllWhiteSpace(s[..|s| - |r|])
    ensures r == [] || !IsWhiteSpace(r[0])
  {
    if |s| > 0 && IsWhiteSpace(s[0]) then
      var r := TrimStart(s[1..]);
      TrimStartStep(s, r);
      r
    else s
  }

  /** Drops trailing white space. */
  function TrimEnd(s: string): (r: string)
    ensures |r| <= |s| && r == s[..|r|]
    ensures AllWhiteSpace(s[|r|..])
    ensures r == [] || !IsWhiteSpace(r[|r| - 1])
  {
    if |s| > 0 && IsWhiteSpace(s[|s| - 1]) then
      var r := TrimEnd(s[..|s| - 1]);
      assert s[|r|..] == s[..|s| - 1][|r|..] + [s[|s| - 1]];
      r
    else s
  }

  /** `String.Trim()`: the longest infix that neither starts nor ends with white space;
      everything cut away is white space. */
  function Trim(s: string): (r: string)
    ensures r == [] || (!IsWhiteSpace(r[0]) && !IsWhiteSpace(r[|r| - 1]))
    ensures r == [] <==> AllWhiteSpace(s)
    ensures exists k :: TrimmedAt(s, r, k)
  {
    TrimIsInfix(s);
    TrimEmptyIff(s);
    TrimEnd(TrimStart(s))
  }

  /** `r` sits at index `k` of `s` with only white space around it. */
  ghost predicate TrimmedAt(s: string, r: string, k: int) {
    0 <= k <= |s| - |r| && r == s[k..k + |r|] && AllWhiteSpace(s[..k]) && AllWhiteSpace(s[k + |r|..])
  }

  /** The trimmed text sits where the leading white space ends, with only white space
      around it. */
  lemma TrimIsInfix(s: string)
    ensures TrimmedAt(s, TrimEnd(TrimStart(s)), |s| - |TrimStart(s)|)
  {
    var t := TrimStart(s);
    TrimmedAtIntro(s, t, TrimEnd(t), |s| - |t|);
  }

  /** Trimming leaves nothing exactly when the text is all white space. */
  lemma TrimEmptyIff(s: string)
    ensures TrimEnd(TrimStart(s)) == [] <==> AllWhiteSpace(s)
  {
    var t := TrimStart(s);
    var r := TrimEnd(t);
    var k := |s| - |t|;
    TrimmedAtIntro(s, t, r, k);
    TrimEmpty(s, t, r, k);
  }

  /** What is cut from the front, then from the back of the rest, is white space on
      either side of what remains. */
  lemma TrimmedAtIntro(s: string, t: string, r: string, k: int)
    requires 0 <= k <= |s| && t == s[k..] && |r| <= |t| && r == t[..|r|]
    requires AllWhiteSpace(s[..k]) && AllWhiteSpace(t[|r|..])
    ensures TrimmedAt(s, r, k)
  {
    assert s[k..][..|r|] == s[k..k + |r|];
    assert s[k + |r|..] == t[|r|..];
  }

  lemma TrimEmpty(s: string, t: string, r: string, k: int)
    requires TrimmedAt(s, r, k) && t == s[k..]
    requires r == [] || !IsWhiteSpace(r[0])
    requires AllWhiteSpace(t[|r|..])
    ensures r == [] <==> AllWhiteSpace(s)
  {
    if r == [] {
      assert s == s[..k] + t;
      AllWhiteSpaceAppend(s[..k], t);
    } else {
      assert r[0] == s[k];
    }
  }

  /** A string that neither starts nor ends with white space is its own trim. */
  lemma TrimOfTrimmed(s: string)
    requires s == [] || (!IsWhiteSpace(s[0]) && !IsWhiteSpace(s[|s| - 1]))
    ensures Trim(s) == s
  {
    assert TrimStart(s) == s;
  }

  lemma AllWhiteSpaceAppend(a: string, b: string)
    ensures AllWhiteSpace(a + b) <==> AllWhiteSpace(a) && AllWhiteSpace(b)
  {
    if AllWhiteSpace(a) && AllWhiteSpace(b) {
      forall i | 0 <= i < |a + b|
        ensures IsWhiteSpace((a + b)[i])
      {
        if i >= |a| {
          assert (a + b)[i] == b[i - |a|];
        }
      }
    }
    if AllWhiteSpace(a + b) {
      forall i | 0 <= i < |a|
        ensures IsWhiteSpace(a[i])
      {
        assert (a + b)[i] == a[i];
      }
      forall i | 0 <= i < |b|
        ensures IsWhiteSpace(b[i])
      {
        assert (a + b)[|a| + i] == b[i];
      }
    }
  }

  /** Lower-casing of one character: `A`..`Z` map to `a`..`z`. */
  function LowerChar(c: char): char {
    if 'A' <= c <= 'Z' then (c as int - 'A' as int + 'a' as int) as char else c
  }

  /** `String.ToLower()` restricted to the ASCII letters. */
  function ToLower(s: string): (r: string)
    ensures |r| == |s| && forall i :: 0 <= i < |s| ==> r[i] == LowerChar(s[i])
  {
    seq(|s|, i requires 0 <= i < |s| => LowerChar(s[i]))
  }

  /** `String.Replace(char-as-string, string)`: every occurrence of `c` becomes `rep`. */
  function ReplaceChar(s: string, c: char, rep: string): (r: string)
    ensures c !in rep ==> c !in r
    ensures c !in s ==> r == s
    ensures forall d :: d !in s && d !in rep ==> d !in r
  {
    if |s| == 0 then []
    else (if s[0] == c then rep else [s[0]]) + ReplaceChar(s[1..], c, rep)
  }

  /** Replacement distributes over concatenation. */
  lemma {:induction false} ReplaceCharAppend(a: string, b: string, c: char, rep: string)
    ensures ReplaceChar(a + b, c, rep) == ReplaceChar(a, c, rep) + ReplaceChar(b, c, rep)
    decreases |a|
  {
    if |a| > 0 {
      assert (a + b)[1..] == a[1..] + b;
      ReplaceCharAppend(a[1..], b, c, rep);
    } else {
      assert a + b == b;
    }
  }

  // ----- decimal numbers -----

  predicate IsDigit(c: char) {
    '0' <= c <= '9'
  }

  predicate AllDigits(s: string) {
    forall i :: 0 <= i < |s| ==> IsDigit(s[i])
  }

  function DigitChar(d: nat): (c: char)
    requires d < 10
    ensures IsDigit(c) && c as int - '0' as int == d
  {
    ('0' as int + d) as char
  }

  /** The invariant-culture decimal rendering of a natural number, without leading zeros. */
  function NatToDecimal(n: nat): (r: string)
    ensures |r| >= 1 && AllDigits(r)
    ensures '\r' !in r && '\n' !in r
  {
    if n < 10 then [DigitChar(n)] else NatToDecimal(n / 10) + [DigitChar(n % 10)]
  }

  /** The value of a string of decimal digits, as `Int32.Parse` reads it (before its range check). */
  function DecimalValue(s: string): nat
    requires AllDigits(s)
  {
    if |s| == 0 then 0 else DecimalValue(s[..|s| - 1]) * 10 + (s[|s| - 1] as int - '0' as int)
  }

  /** Parsing a rendered number gives the number back. */
  lemma {:induction false} DecimalRoundTrip(n: nat)
    ensures DecimalValue(NatToDecimal(n)) == n
  {
    if n >= 10 {
      var d := NatToDecimal(n / 10);
      assert NatToDecimal(n)[..|NatToDecimal(n)| - 1] == d;
      DecimalRoundTrip(n / 10);
    }
  }

  /** `Int32.ToString()`: a minus sign before the magnitude for negative numbers. */
  function IntToDecimal(i: int): (r: string)
    ensures |r| >= 1
    ensures i < 0 <==> r[0] == '-'
  {
    if i < 0 then "-" + NatToDecimal(-i) else NatToDecimal(i)
  }

  /** Different numbers render differently. */
  lemma IntToDecimalInjective(a: int, b: int)
    ensures IntToDecimal(a) == IntToDecimal(b) ==> a == b
  {
    if IntToDecimal(a) == IntToDecimal(b) {
      if a < 0 {
        assert b < 0;
        assert NatToDecimal(-a) == IntToDecimal(a)[1..];
        assert NatToDecimal(-b) == IntToDecimal(b)[1..];
        DecimalRoundTrip(-a);
        DecimalRoundTrip(-b);
      } else {
        DecimalRoundTrip(a);
        DecimalRoundTrip(b);
      }
    }
  }
}

=== FILE: transport.dfy ===
/**
 The newer stdio transport: the read loop of the framing module with each
 sliced request parsed, handed to the session and its replies written back,
 every written message stamped with the next value of the process-wide
 sequence counter and framed with a `Content-Length` header.

 The JSON serialiser and deserialiser and the session's request handler are
 parameters.
 */
module Transport {
  import opened Wrappers
  import opened Numbers
  import opened Text
  import opened Messages
  import opened Framing
  import FramingProperties

  // ----- the writer -----

  /** The frame `ConvertToBytes` returns and the value of the counter after it. */
  datatype Written = Written(counter: Int32, frame: string)

  /** `ConvertToBytes`: increment the counter, stamp it into the message, serialise, and
      put the header in front. */
  function ConvertToBytes(counter: Int32, m: Message, encode: Message -> string): (w: Written)
    ensures w.counter == Increment(counter)
  {
    var c := Increment(counter);
    Written(c, Frame(encode(m.WithSeq(c))))
  }

  /** What the reader makes of a written frame: the header advertises the serialised
      body's length, the parser's JSON text is exactly that body, and the read loop slices
      the frame out whole when it arrives in one read. */
  lemma ConvertToBytesReadBack(counter: Int32, m: Message, encode: Message -> string, rest: seq<string>)
    ensures var w := ConvertToBytes(counter, m, encode);
            var body := encode(m.WithSeq(w.counter));
            && ContentLengthMatch(w.frame) == Some(LengthMatch(0, NatToDecimal(|body|)))
            && DecimalValue(NatToDecimal(|body|)) == |body|
            && JsonText(w.frame) == Some(body)
            && (|w.frame| <= MaxInt32 ==> Step(LoopState([], [w.frame] + rest)) == Dispatched(w.frame, LoopState([], rest)))
  {
    var w := ConvertToBytes(counter, m, encode);
    var body := encode(m.WithSeq(w.counter));
    FramingProperties.FrameLengthMatched(body, []);
    assert Frame(body) + [] == Frame(body);
    DecimalRoundTrip(|body|);
    FramingProperties.JsonTextOfFrame(body);
    if |w.frame| <= MaxInt32 {
      FramingProperties.StepFrameRoundTrip(body, rest);
    }
  }

  /** The frames of the messages, each serialised as it is. */
  function EncodedFrames(ms: seq<Message>, encode: Message -> string): (fs: seq<string>)
    ensures |fs| == |ms| && forall i :: 0 <= i < |ms| ==> fs[i] == Frame(encode(ms[i]))
  {
    FramingProperties.FrameList(seq(|ms|, i requires 0 <= i < |ms| => encode(ms[i])))
  }

  lemma {:induction false} EncodedFramesAppend(a: seq<Message>, b: seq<Message>, encode: Message -> string)
    ensures Concat(EncodedFrames(a + b, encode)) == Concat(EncodedFrames(a, encode)) + Concat(EncodedFrames(b, encode))
  {
    hide Frame, EncodedFrames, Concat;
    var x := EncodedFrames(a + b, encode);
    var y := EncodedFrames(a, encode) + EncodedFrames(b, encode);
    forall i | 0 <= i < |x|
      ensures x[i] == y[i]
    {
      if i < |a| {
        assert (a + b)[i] == a[i];
      } else {
        assert (a + b)[i] == b[i - |a|];
      }
    }
    assert x == y;
    ConcatAppend(EncodedFrames(a, encode), EncodedFrames(b, encode));
  }

  /** Several messages written one after the other. */
  datatype Batch = Batch(counter: Int32, stamped: seq<Message>, output: string)

  /** `WriteStandardOutput` on each message in turn. */
  function WriteAll(counter: Int32, ms: seq<Message>, encode: Message -> string): (b: Batch)
    ensures |b.stamped| == |ms|
    ensures forall i :: 0 <= i < |ms| ==> b.stamped[i] == ms[i].WithSeq(b.stamped[i].SeqNum())
    decreases |ms|
  {
    if |ms| == 0 then Batch(counter, [], [])
    else
      var w := ConvertToBytes(counter, ms[0], encode);
      var rest := WriteAll(w.counter, ms[1..], encode);
      Batch(rest.counter, [ms[0].WithSeq(w.counter)] + rest.stamped, w.frame + rest.output)
  }

  /** The written messages are the given ones with only their `seq` changed, the `i`-th
      carrying the counter after `i + 1` increments; the counter ends `|ms|` increments
      further on; and the output is the frames of the written messages back to back. */
  lemma {:induction false} WriteAllStamps(counter: Int32, ms: seq<Message>, encode: Message -> string)
    ensures var b := WriteAll(counter, ms, encode);
            && (forall i :: 0 <= i < |ms| ==> b.stamped[i] == ms[i].WithSeq(Advance(counter, i + 1)))
            && b.counter == Advance(counter, |ms|)
            && b.output == Concat(EncodedFrames(b.stamped, encode))
    decreases |ms|
  {
    var b := WriteAll(counter, ms, encode);
    if |ms| > 0 {
      var w := ConvertToBytes(counter, ms[0], encode);
      var rest := WriteAll(w.counter, ms[1..], encode);
      WriteAllStamps(w.counter, ms[1..], encode);
      assert b.stamped == [ms[0].WithSeq(w.counter)] + rest.stamped;
      forall i | 0 <= i < |ms|
        ensures b.stamped[i] == ms[i].WithSeq(Advance(counter, i + 1))
      {
        if i > 0 {
          assert b.stamped[i] == rest.stamped[i - 1];
        }
      }
      assert EncodedFrames(b.stamped, encode) == [w.frame] + EncodedFrames(rest.stamped, encode);
    }
  }

  // ----- the loop with dispatch -----

  /** What the session does with one request: the events it sends while handling it,
      then the response `HandleRequest` returns. */
  datatype Handled = Handled(events: seq<Message>, response: Message)

  /** A run of the newer `Run` loop: the requests handed to the session, the messages
      written (stamped), the bytes written, the final counter, and whether the loop ended
      by an exception rather than at the end of the input. */
  datatype Served = Served(handled: seq<Request>, written: seq<Message>, output: string, counter: Int32, faulted: bool)

  /** The newer `Run`: the iterations of the read loop, with each sliced request parsed
      (None stands for a deserialiser exception, a null result, or a request too short to
      hold a header, none of which the loop catches), handled, and its replies written;
      unmatched text is skipped. */
  function Serve(st: LoopState, counter: Int32, decode: string -> Option<Request>,
                 handle: Request -> Handled, encode: Message -> string): (r: Served)
    ensures |r.handled| <= |Trace(st)| && |r.written| >= |r.handled|
  {
    Dispatch(Trace(st), counter, decode, handle, encode)
  }

  /** The dispatch side of the iterations `t`, from the first until the loop ends. */
  function Dispatch(t: seq<StepOutcome>, counter: Int32, decode: string -> Option<Request>,
                    handle: Request -> Handled, encode: Message -> string): (r: Served)
    ensures |r.handled| <= |t| && |r.written| >= |r.handled|
  {
    if |t| == 0 then Served([], [], [], counter, false)
    else match t[0]
      case EndOfInput => Served([], [], [], counter, false)
      case Failed => Served([], [], [], counter, true)
      case Discarded(_, _) => Dispatch(t[1..], counter, decode, handle, encode)
      case Dispatched(q, _) =>
        match Parse(q, decode)
        case None => Served([], [], [], counter, true)
        case Some(req) =>
          var h := handle(req);
          var b := WriteAll(counter, h.events + [h.response], encode);
          var r := Dispatch(t[1..], b.counter, decode, handle, encode);
          Served([req] + r.handled, b.stamped + r.written, b.output + r.output, r.counter, r.faulted)
  }

  /** Every message the loop writes carries the next counter value: the `i`-th written
      message has `seq` equal to the starting counter after `i + 1` increments, the counter
      ends one increment per written message further on, and the output is exactly the
      frames of the written messages. */
  lemma ServeStampsConsecutively(st: LoopState, counter: Int32, decode: string -> Option<Request>,
                                 handle: Request -> Handled, encode: Message -> string)
    ensures var r := Serve(st, counter, decode, handle, encode);
            && (forall i :: 0 <= i < |r.written| ==> r.written[i].SeqNum() == Advance(counter, i + 1))
            && r.counter == Advance(counter, |r.written|)
            && r.output == Concat(EncodedFrames(r.written, encode))
  {
    DispatchStampsConsecutively(Trace(st), counter, decode, handle, encode);
  }

  lemma {:induction false} DispatchStampsConsecutively(t: seq<StepOutcome>, counter: Int32, decode: string -> Option<Request>,
                                                       handle: Request -> Handled, encode: Message -> string)
    ensures var r := Dispatch(t, counter, decode, handle, encode);
            && (forall i :: 0 <= i < |r.written| ==> r.written[i].SeqNum() == Advance(counter, i + 1))
            && r.counter == Advance(counter, |r.written|)
            && r.output == Concat(EncodedFrames(r.written, encode))
    decreases |t|
  {
    if |t| > 0 {
      match t[0]
      case EndOfInput =>
      case Failed =>
      case Discarded(_, _) => DispatchStampsConsecutively(t[1..], counter, decode, handle, encode);
      case Dispatched(q, _) =>
        match Parse(q, decode)
        case None =>
        case Some(req) =>
          var h := handle(req);
          var b := WriteAll(counter, h.events + [h.response], encode);
          WriteAllStamps(counter, h.events + [h.response], encode);
          DispatchStampsConsecutively(t[1..], b.counter, decode, handle, encode);
          JoinRuns(counter, b, Dispatch(t[1..], b.counter, decode, handle, encode), encode);
    }
  }

  /** The replies to one request followed by the rest of the run: two runs of consecutive
      stamps and frames, the second starting where the first left the counter, are one. */
  lemma JoinRuns(counter: Int32, b: Batch, rn: Served, encode: Message -> string)
    requires forall i :: 0 <= i < |b.stamped| ==> b.stamped[i].SeqNum() == Advance(counter, i + 1)
    requires b.counter == Advance(counter, |b.stamped|) && b.output == Concat(EncodedFrames(b.stamped, encode))
    requires forall i :: 0 <= i < |rn.written| ==> rn.written[i].SeqNum() == Advance(b.counter, i + 1)
    requires rn.counter == Advance(b.counter, |rn.written|) && rn.output == Concat(EncodedFrames(rn.written, encode))
    ensures var w := b.stamped + rn.written;
            && (forall i :: 0 <= i < |w| ==> w[i].SeqNum() == Advance(counter, i + 1))
            && rn.counter == Advance(counter, |w|)
            && b.output + rn.output == Concat(EncodedFrames(w, encode))
  {
    StampsConcatenate(counter, b.stamped, rn.written, b.counter);
    AdvanceAdd(counter, |b.stamped|, |rn.written|);
    EncodedFramesAppend(b.stamped, rn.written, encode);
  }

  /** Two runs of consecutive stamps, the second starting where the first left the
      counter, are one run. */
  lemma StampsConcatenate(counter: Int32, a: seq<Message>, b: seq<Message>, middle: Int32)
    requires forall i :: 0 <= i < |a| ==> a[i].SeqNum() == Advance(counter, i + 1)
    requires middle == Advance(counter, |a|)
    requires forall i :: 0 <= i < |b| ==> b[i].SeqNum() == Advance(middle, i + 1)
    ensures forall i :: 0 <= i < |a + b| ==> (a + b)[i].SeqNum() == Advance(counter, i + 1)
  {
    forall i | 0 <= i < |a + b|
      ensures (a + b)[i].SeqNum() == Advance(counter, i + 1)
    {
      if i >= |a| {
        AdvanceAdd(counter, |a|, i - |a| + 1);
      }
    }
  }

  /** Starting from a counter of 0, as the static field does, the written messages carry
      `seq` 1, 2, 3, ... with no repeats, for as long as the counter does not wrap. */
  lemma ServeNumbersFromOne(st: LoopState, decode: string -> Option<Request>,
                            handle: Request -> Handled, encode: Message -> string)
    ensures var r := Serve(st, 0, decode, handle, encode);
            && (forall i :: 0 <= i < |r.written| && i < MaxInt32 ==> r.written[i].SeqNum() == i + 1)
            && (forall i, j :: 0 <= i < j < |r.written| && j < MaxInt32 ==> r.written[i].SeqNum() != r.written[j].SeqNum())
  {
    var r := Serve(st, 0, decode, handle, encode);
    ServeStampsConsecutively(st, 0, decode, handle, encode);
    forall i | 0 <= i < |r.written| && i < MaxInt32
      ensures r.written[i].SeqNum() == i + 1
    {
      AdvanceIsSum(0, i + 1);
    }
  }

  // ----- round trip -----

  /** The loop after one read that delivered `x` is the loop with `x` already buffered. */
  lemma ServeFirstRead(x: string, counter: Int32, decode: string -> Option<Request>,
                       handle: Request -> Handled, encode: Message -> string)
    requires |x| > 0
    ensures Serve(LoopState([], [x]), counter, decode, handle, encode)
            == Serve(LoopState(x, []), counter, decode, handle, encode)
  {
    assert Step(LoopState([], [x])) == Step(LoopState(x, []));
    assert Trace(LoopState([], [x])) == Trace(LoopState(x, []));
  }

  /** Frames already buffered are each parsed and handed to the session, in order; with
      no reads to follow, they are all the loop handles and it ends normally. */
  lemma {:induction false} ServeHandlesBufferedFrames(bodies: seq<string>, requests: seq<Request>, input: seq<string>,
                                                      counter: Int32, decode: string -> Option<Request>,
                                                      handle: Request -> Handled, encode: Message -> string)
    requires |requests| == |bodies|
    requires forall i :: 0 <= i < |bodies| ==> |Frame(bodies[i])| <= MaxInt32 && decode(bodies[i]) == Some(requests[i])
    ensures var r := Serve(LoopState(FramingProperties.Frames(bodies), input), counter, decode, handle, encode);
            && |r.handled| >= |requests| && r.handled[..|requests|] == requests
            && (input == [] ==> r.handled == requests && !r.faulted)
    decreases |bodies|
  {
    hide Step, Trace;
    if |bodies| == 0 {
      if input == [] {
        TraceUnfold(LoopState([], []));
      }
    } else {
      var h := handle(requests[0]);
      var b := WriteAll(counter, h.events + [h.response], encode);
      assert forall i :: 0 <= i < |bodies[1..]| ==>
               |Frame(bodies[1..][i])| <= MaxInt32 && decode(bodies[1..][i]) == Some(requests[1..][i]) by {
        forall i | 0 <= i < |bodies[1..]|
          ensures |Frame(bodies[1..][i])| <= MaxInt32 && decode(bodies[1..][i]) == Some(requests[1..][i])
        {
          assert bodies[1..][i] == bodies[i + 1];
        }
      }
      ServeHandlesBufferedFrames(bodies[1..], requests[1..], input, b.counter, decode, handle, encode);
      ServeBufferedCons(bodies, requests, input, counter, decode, handle, encode);
    }
  }

  /** The inductive step of `ServeHandlesBufferedFrames`: what holds for the frames after
      the first holds, one request longer, for all of them. */
  lemma ServeBufferedCons(bodies: seq<string>, requests: seq<Request>, input: seq<string>,
                          counter: Int32, decode: string -> Option<Request>,
                          handle: Request -> Handled, encode: Message -> string)
    requires |requests| == |bodies| > 0
    requires |Frame(bodies[0])| <= MaxInt32 && decode(bodies[0]) == Some(requests[0])
    requires var h := handle(requests[0]);
             var b := WriteAll(counter, h.events + [h.response], encode);
             var rn := Serve(LoopState(FramingProperties.Frames(bodies[1..]), input), b.counter, decode, handle, encode);
             && |rn.handled| >= |requests| - 1 && rn.handled[..|requests| - 1] == requests[1..]
             && (input == [] ==> rn.handled == requests[1..] && !rn.faulted)
    ensures var r := Serve(LoopState(FramingProperties.Frames(bodies), input), counter, decode, handle, encode);
            && |r.handled| >= |requests| && r.handled[..|requests|] == requests
            && (input == [] ==> r.handled == requests && !r.faulted)
  {
    hide Step, Trace, Serve, Dispatch, FramingProperties.Frames;
    ServeBufferedStep(bodies[0], bodies[1..], requests[0], input, counter, decode, handle, encode);
    assert bodies == [bodies[0]] + bodies[1..];
    var h := handle(requests[0]);
    var b := WriteAll(counter, h.events + [h.response], encode);
    var rn := Serve(LoopState(FramingProperties.Frames(bodies[1..]), input), b.counter, decode, handle, encode);
    PrefixCons(requests[0], rn.handled, requests[1..]);
    assert requests == [requests[0]] + requests[1..];
  }

  lemma PrefixCons<T>(x: T, s: seq<T>, p: seq<T>)
    requires |s| >= |p| && s[..|p|] == p
    ensures ([x] + s)[..|p| + 1] == [x] + p
    ensures s == p ==> [x] + s == [x] + p
  {
    assert ([x] + s)[..|p| + 1] == [x] + s[..|p|];
  }

  /** The first buffered frame is parsed and handled, and the run goes on with the rest
      of the buffer and the counter the replies left. */
  lemma ServeBufferedStep(body: string, bodies: seq<string>, req: Request, input: seq<string>,
                          counter: Int32, decode: string -> Option<Request>,
                          handle: Request -> Handled, encode: Message -> string)
    requires |Frame(body)| <= MaxInt32 && decode(body) == Some(req)
    ensures var h := handle(req);
            var b := WriteAll(counter, h.events + [h.response], encode);
            var r := Serve(LoopState(FramingProperties.Frames([body] + bodies), input), counter, decode, handle, encode);
            var rn := Serve(LoopState(FramingProperties.Frames(bodies), input), b.counter, decode, handle, encode);
            r.handled == [req] + rn.handled && r.faulted == rn.faulted
  {
    hide Step, Trace;
    var st := LoopState(FramingProperties.Frames([body] + bodies), input);
    var next := LoopState(FramingProperties.Frames(bodies), input);
    assert ([body] + bodies)[1..] == bodies;
    FramingProperties.FramesCons([body] + bodies);
    assert st.head == Frame(body) + FramingProperties.Frames(bodies);
    FramingProperties.StepOnBufferedFrame(body, FramingProperties.Frames(bodies), input);
    FramingProperties.JsonTextOfFrame(body);
    TraceUnfold(st);
    var t := Trace(st);
    assert t == [Dispatched(Frame(body), next)] + Trace(next);
    assert t[1..] == Trace(next);
    DispatchUnfold(t, counter, decode, handle, encode, req);
  }

  /** One dispatched and successfully parsed request, then the rest of the run. */
  lemma DispatchUnfold(t: seq<StepOutcome>, counter: Int32, decode: string -> Option<Request>,
                       handle: Request -> Handled, encode: Message -> string, req: Request)
    requires |t| > 0 && t[0].Dispatched? && Parse(t[0].request, decode) == Some(req)
    ensures var h := handle(req);
            var b := WriteAll(counter, h.events + [h.response], encode);
            var r := Dispatch(t, counter, decode, handle, encode);
            var rn := Dispatch(t[1..], b.counter, decode, handle, encode);
            r.handled == [req] + rn.handled && r.faulted == rn.faulted
  {
  }

  /** Round trip: requests serialised and framed by the writer's format, delivered in one
      read, are each handled exactly once and in order, and the loop then ends normally. */
  lemma ServeRoundTrip(bodies: seq<string>, requests: seq<Request>, counter: Int32,
                       decode: string -> Option<Request>, handle: Request -> Handled, encode: Message -> string)
    requires |requests| == |bodies| > 0
    requires forall i :: 0 <= i < |bodies| ==> |Frame(bodies[i])| <= MaxInt32 && decode(bodies[i]) == Some(requests[i])
    ensures var r := Serve(LoopState([], [FramingProperties.Frames(bodies)]), counter, decode, handle, encode);
            r.handled == requests && !r.faulted
  {
    var x := FramingProperties.Frames(bodies);
    FramingProperties.FramesCons(bodies);
    assert x == Frame(bodies[0]) + FramingProperties.Frames(bodies[1..]);
    ServeFirstRead(x, counter, decode, handle, encode);
    ServeHandlesBufferedFrames(bodies, requests, [], counter, decode, handle, encode);
  }
}

=== FILE: unity_attach.dfy ===
/**
 `UnityAttach.GetAttachableProcesses`: a target name from the launch
 configuration selects which Unity processes to discover and which of them
 to keep. The six known target names are matched case-insensitively and
 select a process name and a discovery option; any other name is itself the
 process name to look for among all processes.
 */
module UnityAttach {
  import opened Wrappers
  import opened Text

  /** `UnityProcessDiscovery.GetProcessOptions`. */
  datatype ProcessOptions = All | Editor | Players

  /** A `UnityProcessInfo`. */
  datatype UnityProcess = UnityProcess(id: int, name: string)

  /** The known target names, lower case, and the process names they stand for. */
  const TargetNames: map<string, string> := map[
    "unity editor" := "Unity Editor",
    "osx player" := "OSXPlayer",
    "windows player" := "WindowsPlayer",
    "linux player" := "LinuxPlayer",
    "ios player" := "iPhonePlayer",
    "android player" := "AndroidPlayer"]

  /** What a target name selects: the process name to look for and the discovery option. */
  datatype Target = Target(processName: string, options: ProcessOptions)

  function TargetOf(targetName: string): (t: Target)
    ensures ToLower(targetName) !in TargetNames ==> t == Target(targetName, All)
    ensures ToLower(targetName) in TargetNames ==>
              t.processName == TargetNames[ToLower(targetName)]
              && (t.options == Editor <==> t.processName == "Unity Editor")
              && t.options != All
  {
    var key := ToLower(targetName);
    if key !in TargetNames then Target(targetName, All)
    else
      var processName := TargetNames[key];
      Target(processName, if processName == "Unity Editor" then Editor else Players)
  }

  /** The processes whose name contains the process name, in discovery order. */
  function Matching(processes: seq<UnityProcess>, processName: string): (r: seq<UnityProcess>)
    ensures |r| <= |processes|
  {
    if |processes| == 0 then []
    else
      var last := processes[|processes| - 1];
      Matching(processes[..|processes| - 1], processName) + if Contains(last.name, processName) then [last] else []
  }

  /** Matching keeps exactly the processes whose name contains the process name. */
  lemma {:induction false} MatchingMembers(processes: seq<UnityProcess>, processName: string)
    ensures forall p :: p in Matching(processes, processName) <==> p in processes && Contains(p.name, processName)
    decreases |processes|
  {
    if |processes| > 0 {
      var init := processes[..|processes| - 1];
      MatchingMembers(init, processName);
      assert processes == init + [processes[|processes| - 1]];
    }
  }

  /** `GetAttachableProcesses`: `discover` is the process discovery for an option. A null
      target name throws, which is modelled by the caller. */
  function GetAttachableProcesses(targetName: string, discover: ProcessOptions -> seq<UnityProcess>): (r: seq<UnityProcess>)
    ensures var t := TargetOf(targetName);
            forall p :: p in r <==> p in discover(t.options) && Contains(p.name, t.processName)
  {
    var t := TargetOf(targetName);
    MatchingMembers(discover(t.options), t.processName);
    Matching(discover(t.options), t.processName)
  }

  /** A name of no known length is no known target: "Editor" is looked for among all
      processes under its own name. */
  lemma EditorIsUnknownTarget()
    ensures TargetOf("Editor") == Target("Editor", All)
  {
    assert |ToLower("Editor")| == 6;
    assert forall k :: k in TargetNames ==> |k| != 6;
  }

  /** Known target names are matched without regard to case: any spelling of one selects
      what its lower-case form does, and always a process name from the table. */
  lemma KnownTargetsIgnoreCase(a: string, b: string)
    requires ToLower(a) == ToLower(b) && ToLower(a) in TargetNames
    ensures TargetOf(a) == TargetOf(b)
    ensures TargetOf(a).processName in TargetNames.Values
  {
  }

  /** Only "unity editor" selects the editor option, and an unknown name looks among all
      processes for its own spelling. */
  lemma EditorOnlyForUnityEditor(targetName: string)
    ensures TargetOf(targetName).options == Editor <==> ToLower(targetName) == "unity editor"
    ensures TargetOf(targetName).options == All <==> ToLower(targetName) !in TargetNames
  {
    if ToLower(targetName) in TargetNames && ToLower(targetName) != "unity editor" {
      assert TargetNames[ToLower(targetName)] != "Unity Editor";
    }
  }

  /** Matching keeps discovery order: the result of a longer list extends the result of
      its prefix. */
  lemma {:induction false} MatchingKeepsOrder(processes: seq<UnityProcess>, more: seq<UnityProcess>, processName: string)
    ensures Matching(processes + more, processName) == Matching(processes, processName) + Matching(more, processName)
    decreases |more|
  {
    if |more| == 0 {
      assert processes + more == processes;
    } else {
      var all := processes + more;
      var init := more[..|more| - 1];
      var last := more[|more| - 1];
      var tail := if Contains(last.name, processName) then [last] else [];
      assert all[..|all| - 1] == processes + init;
      assert all[|all| - 1] == last;
      assert Matching(all, processName) == Matching(processes + init, processName) + tail;
      assert Matching(more, processName) == Matching(init, processName) + tail;
      MatchingKeepsOrder(processes, init, processName);
      var a, b := Matching(processes, processName), Matching(init, processName);
      assert (a + b) + tail == a + (b + tail);
    }
  }
}

=== FILE: wrappers.dfy ===
/** The Option type used wherever the source works with a reference that may be null. */
module Wrappers {

  datatype Option<+T> = None | Some(value: T) {

    /** Returns the value held in Some, or the default for None. */
    function GetOr(default: T): T {
      match this
      case Some(v) => v
      case None => default
    }
  }
}
